=== FILE: README.md ===
# 衔书又止 card editor — a Dafny model of its core

衔书又止 (xianshuyouzhi) is a browser editor for text cards ("covers") and
long-text images. This project models the deterministic part of the editor
in Dafny and proves properties of it:

- **Trailing-blank cleaner.** `getCleanContent` (module `Dom`) removes
  visually empty nodes from the end of a rich-text body, and nothing else.
- **Preview rules.** The two card previews (modules `ComponentPreview` and
  `RootPreview`) pick classes and labels from the title, subtitle, category,
  layout and mode.
- **Editor shells.** The two shells (`RootApp` for `App.tsx`,
  `ComponentApp` for `components/App.tsx`) hold the state reducers:
  - merging a partial state into the card;
  - redirecting body edits into the duality layout's own pair of texts;
  - saving, loading, deleting and confirming content presets;
  - saving and deleting advanced presets.
- **Rule engine.** `handleFormatText` (module `FormatText`) runs
  transformation rules over the top-level nodes of the body, including the
  three-column row split.
- **Preset dialog** (`PresetPanel`):
  - quick patterns from an escaped literal;
  - formatting and scope edits of a rule;
  - assembling an advanced preset from its checkboxes;
  - scanning the body for rules, with de-duplication.
- **Editor controls** (`EditorControls`):
  - draft titles and colours;
  - the export filename;
  - paragraph search, selection and the checkbox toggle;
  - batch alignment and batch styling of the selected paragraphs.
- **Rich-text toolbar** (`Toolbar`):
  - the font-size class parse and format, and the ±1 size buttons;
  - placement of the palettes;
  - which of the two palettes is open;
  - which alignment button lights up.

Shared pieces have their own modules:
- `Options` for optional values with JavaScript's `||` fallback;
- `Strings` for JavaScript `trim`, splitting, regex escaping and decimal digits;
- `Lists` for `filter`, `findIndex` and `Math.min`;
- `Cover` for the record shapes of `types.ts` and the object spread `{ ...prev, ...patch }`.

Modelling conventions:
- **The DOM** is an algebraic tree: `Text(content) | Elem(tag, style, children) | Other`.
  `Other` covers comments and any other node kind.
- **Browser services** are function parameters. This covers:
  - parsing and serialising `innerHTML`;
  - `innerText`;
  - the regular-expression engine: whether a pattern compiles, and whether it matches a text.
- **The clock** enters as a parameter. `Date.now()` ids appear as `now` or `newId`.
- **Strings** are sequences of `char`, one element per Unicode scalar value.
  JavaScript's `length` and indexing count UTF-16 code units instead; the two
  agree on every text inside the Basic Multilingual Plane, which includes all
  Chinese characters in common use.

## Model

| member | source | states |
|---|---|---|
| Strings.TrimStartSpec | components/nativeExport.ts:26 | `trim`'s left half: the result is a suffix, everything dropped is whitespace, and the result does not start with whitespace |
| Strings.TrimEndSpec | components/nativeExport.ts:26 | `trim`'s right half: the result is a prefix, everything dropped is whitespace, and the result does not end with whitespace |
| Strings.TrimInfix | components/nativeExport.ts:26 | the trimmed string is an infix whose surroundings are whitespace and whose ends are not |
| Strings.TrimEmptyIffBlank | components/nativeExport.ts:26 | a string trims to "" exactly when every character is JavaScript whitespace, which is the test `!x.trim()` the components make |
| Strings.TrimIdempotent | components/EditorControls.tsx:42 | trimming twice is trimming once |
| Strings.ReplaceNbsp | components/nativeExport.ts:26 | maps U+00A0 to a space and keeps every other character in place |
| Strings.ToLower | components/EditorControls.tsx:52 | length-preserving, character-wise lower-casing |
| Strings.SplitOnSpec | components/CoverPreview.tsx:108 | the pieces contain no separator, there is one more piece than separators, and together they spell the input without its separators |
| Strings.TrimmedTokensSpec | components/CoverPreview.tsx:108 | after `map(trim).filter(Boolean)` every token is non-empty and trimmed, and a string is a token iff it is the trimmed form of some piece |
| Strings.SplitOnClean | components/CoverPreview.tsx:108 | a string without separators splits into itself alone |
| Strings.SplitOnAt | components/CoverPreview.tsx:108 | a separator cuts the string: the pieces of the left part, then those of the right part, in written order with empty pieces kept |
| Strings.TrimmedTokensSingleton | components/CoverPreview.tsx:108 | one piece gives its trimmed text as a token iff that is not blank |
| Strings.TrimmedTokensAppend | components/CoverPreview.tsx:108 | tokens of joined piece lists are the tokens of each list in order, repeats kept |
| Strings.TokensAvoid | components/CoverPreview.tsx:108 | trimming and filtering never bring a separator back |
| Strings.RemoveChars | components/EditorControls.tsx:392-393 | `replace(/[…]/g, '')`: a character survives iff it is in the input and not dropped; a single character is removed iff it is dropped, so with `Strings.RemoveCharsAppend` the survivors keep their order and repetitions |
| Strings.RemoveCharsEmptyIff | components/EditorControls.tsx:393-394 | the sanitised text is empty iff every character of the input is forbidden |
| Strings.RemoveCharsClean | components/EditorControls.tsx:392 | a text with no forbidden character is left as it is |
| Strings.RegexEscape | components/PresetPanel.tsx:44 | a backslash before each regex metacharacter and nowhere else: the text grows by one character per metacharacter, and the result reads strictly (`Strings.LiteralOf`: every metacharacter escaped, no other escape) as the text |
| Strings.EscapeRoundTrip | components/PresetPanel.tsx:44 | a pattern reads strictly as a text iff it is that text's escape, so the escape is the one literal pattern for the text |
| Strings.EscapeInjective | components/PresetPanel.tsx:300 | distinct texts escape to distinct patterns |
| Strings.NatToString | components/RichTextToolbar.tsx:186 | the decimal form of a natural is a non-empty digit string whose value is that natural, with a leading `0` only for zero itself (`"0"`) |
| Strings.JoinNonEmptySpec | components/EditorControls.tsx:93 | `filter(Boolean).join(sep)` is empty iff every part is, and otherwise starts with the first non-empty part |
| Strings.JoinNonEmptyFilters | components/EditorControls.tsx:93 | `filter(Boolean).join(sep)` is the plain join of the non-empty parts |
| Strings.RemoveCharsAppend | components/EditorControls.tsx:392-393 | removing characters from a concatenation is concatenating the removals |
| Lists.Filter | App.tsx:201 | `filter` keeps only elements of the list that satisfy the predicate, and every element that satisfies it; `Lists.FilterSingleton` and `Lists.FilterAppend` fix the order |
| Lists.FilterSingleton | App.tsx:201 | a one-element list keeps its element iff the predicate holds |
| Lists.FilterAppend | App.tsx:201 | filtering a concatenation is concatenating the filtered parts, so the kept elements stay in their order |
| Lists.FilterKeepsAll | App.tsx:201 | filtering by a predicate every element satisfies changes nothing |
| Lists.FilterIdempotent | components/PresetPanel.tsx:327 | filtering twice is filtering once |
| Lists.FilterAgree | App.tsx:248-250 | filters with predicates that agree on the list give the same result |
| Lists.FindIndex | App.tsx:224 | `findIndex` returns the first index satisfying the predicate, or -1 exactly when there is none |
| Cover.StateExtensionality | App.tsx:184 | two states agreeing on every field are equal |
| Cover.Merge | App.tsx:184 | `{ ...prev, ...patch }`: each field takes the patch's value when the patch has the key, the previous value otherwise |
| Cover.CombineGet | components/PresetPanel.tsx:330 | `{ ...p, ...q }` on partial states: the keys of `q` win, the others come from `p` |
| Cover.CombineGetAll | components/PresetPanel.tsx:330 | the same for every field at once |
| Cover.MergeEmpty | App.tsx:184 | merging `{}` changes nothing |
| Cover.MergeIdempotent | App.tsx:184 | merging the same patch twice is merging it once |
| Cover.MergeCombine | App.tsx:231-232 | two successive merges equal one merge of the combined patch |
| Dom.GetCleanContent | components/nativeExport.ts:15-75 | an empty string is returned as is; otherwise the result serialises the one list that has the cleaning outcome on the parsed nodes (a dropped empty suffix, the last kept node trimmed inside), is settled, and differs from the parsed list only along the right spine |
| Dom.IsVisuallyEmpty | components/nativeExport.ts:24-42 | a text node is visually empty iff its content is all whitespace (mapping U+00A0 first changes nothing); any other non-element node is empty |
| Dom.ElementEmptiness | components/nativeExport.ts:28-41 | `br` is empty; the six media tags never are; a background image or a non-zero height is never empty; any other element is empty iff all its children are |
| Dom.EmptyIffNoVisiblePath | components/nativeExport.ts:24-42 | a node is visually empty iff no path leads from it to a non-blank text, a media element or a visually styled element |
| Dom.RemoveTrailingEmpty | components/nativeExport.ts:49-71 | never longer than the input, and every node before the last kept one is the input's |
| Dom.RemoveTrailingEmptySpec | components/nativeExport.ts:49-71 | the removed suffix is all visually empty; the last kept node was not empty and has been trimmed inside; every earlier sibling is unchanged; the result is settled |
| Dom.OutcomeUnique | components/nativeExport.ts:49-71 | the cleaning outcome determines the cleaned list: two lists with it are equal |
| Dom.TrimKeepsNonEmpty | components/nativeExport.ts:58-65 | an element that draws something still does after its inside is trimmed, so the second removal (lines 62-64) never fires |
| Dom.CleanIsSettledAndFramed | components/nativeExport.ts:49-71 | the cleaned list satisfies the loop's stop condition along the whole right spine, and changes only a dropped suffix along that spine |
| Dom.SettledIsFixpoint | components/nativeExport.ts:50-69 | a list that already meets the stop condition is left as it is |
| Dom.CleanIdempotent | components/nativeExport.ts:49-71 | cleaning twice is cleaning once |
| Dom.MediaSurvives | components/nativeExport.ts:34-56 | a top-level media element is never removed and keeps its position and tag (`Dom.NestedMediaSurvives` covers any depth) |
| Dom.NestedMediaSurvives | components/nativeExport.ts:28-71 | a media element at any depth, below no `br`, is found at the same path after cleaning |
| Dom.CleanEmptyIffAllEmpty | components/nativeExport.ts:49-71 | the cleaned body is empty iff every top-level node was visually empty |
| ComponentPreview.TitleSizeMonotone | components/CoverPreview.tsx:111-127 | a longer title never gets a larger size class, in any layout |
| ComponentPreview.TitleSizeFor | components/CoverPreview.tsx:111-127 | the size table: split shrinks to `text-3xl` past 8 and `text-2xl` past 12 characters (`text-5xl` otherwise); minimal past 10 and 14 (`text-4xl`); every other layout past 7 and 10 (`text-4xl`) |
| ComponentPreview.TitleClasses | components/CoverPreview.tsx:111-129 | the serif family, then the size class of the layout-and-length table |
| ComponentPreview.SubtitleSizeClass | components/CoverPreview.tsx:132-138 | the caller's base class up to 12 characters; `text-sm` up to 18, `text-[13px] tracking-tight` up to 24, `text-[12px] tracking-tight` up to 30, and `text-[11px] tracking-tighter` beyond |
| ComponentPreview.SubtitleShrinks | components/CoverPreview.tsx:132-138 | past 12 characters the class does not depend on the base, is one of the four shrink steps, and a longer subtitle never gets a larger step |
| ComponentPreview.Categories | components/CoverPreview.tsx:108 | no tags for an empty category; every tag is non-empty, trimmed and free of `、`, `,` and space, and a string is a tag iff it is the trimmed form of a non-blank piece between separators |
| ComponentPreview.CategoriesOfOnePiece | components/CoverPreview.tsx:108 | a category without separators is the single tag of its trimmed text, or no tag when that is blank |
| ComponentPreview.CategoriesAt | components/CoverPreview.tsx:108 | at a separator the tags of the left part come first, then those of the right part, in written order with repeats kept |
| ComponentPreview.DisplayCategories | components/CoverPreview.tsx:109 | the tokens when there are any, else the raw category when it is non-empty |
| ComponentPreview.DisplayEmptyIff | components/CoverPreview.tsx:108-109 | nothing is displayed iff the category is empty |
| ComponentPreview.BodyClasses | components/CoverPreview.tsx:140-145 | size and alignment first; `[text-align-last:left]` iff the alignment is `text-justify` (else an empty class); then the fixed tail |
| ComponentPreview.FrameHeight | components/CoverPreview.tsx:329 | cover mode, and only cover mode, has the fixed `h-[440px]` height; long text has `h-auto min-h-[600px] md:min-h-[712px]` |
| RootPreview.EffectiveCategory | CoverPreview.tsx:28-29 | the category changes iff the title is `江湖就是要打打杀杀` and the category `文稿创作`, and then it becomes `文稿、短打` |
| RootPreview.FontClass | CoverPreview.tsx:101-108 | `jianghu`, `serif` and `bold` get `font-jianghu`, `font-serif-sc` and `font-bold-sc`; the sans class exactly for a missing or unknown font |
| RootPreview.FontClassInjective | CoverPreview.tsx:101-108 | different known fonts get different classes |
| RootPreview.TitleClasses | CoverPreview.tsx:110-130 | the class of the chosen font, then the same size class the other preview gives that layout and title |
| RootPreview.SerifTitleAgrees | CoverPreview.tsx:110-130 | with the serif font, both previews give a title the same classes |
| RootPreview.DisplayCategories | CoverPreview.tsx:98-99 | apart from the override title, both previews label a category alike |
| RootPreview.BodyClasses | CoverPreview.tsx:132-138 | exactly size, alignment, `leading-[1.5]`, `outline-none` and the body font class, in that order |
| RootPreview.FrameHeight | CoverPreview.tsx:441-445 | cover mode, and only cover mode, has `h-[500px]`; long text has `h-auto min-h-[600px] md:min-h-[712px]` |
| RootPreview.FrameHeightsCompared | CoverPreview.tsx:441-445 | the two previews agree on the long-text height and differ on the cover height |
| RootApp.HandleStateChange | App.tsx:168-185 | when the resulting layout is duality, the body pair is kept and the edits go to the duality pair; otherwise a plain merge; non-body fields are always merged |
| RootApp.EffectivePreviewState | App.tsx:390-394 | outside the duality layout the state itself; in it, the body pair is replaced by the duality pair; no other field differs |
| RootApp.EditsReachPreview | App.tsx:390-394 | a body or secondary-body edit is what the preview shows afterwards, in every layout |
| RootApp.OtherEditsKeepBodies | App.tsx:171-184 | a patch with no body key is merged verbatim |
| RootApp.SavePreset | App.tsx:188-198 | the new preset, holding the state's content under the given id and name, goes first, the old list follows; no other part of the shell changes |
| RootApp.DeletePreset | App.tsx:200-203 | the list is the old one filtered, in order, to the presets whose id differs; the active id is cleared iff it is that id; nothing else changes |
| RootApp.LoadPreset | App.tsx:205-220 | the layout becomes duality iff it is a duality preset; leaving duality falls back to minimal, any other layout is kept; the labels come from the preset; each body text falls back to the current one when empty; the preset becomes active; nothing else changes |
| RootApp.LoadIdempotent | App.tsx:205-220 | loading the same preset twice is loading it once |
| RootApp.SaveLoadRoundTrip | App.tsx:188-220 | saving and loading back restores every field but the layout; the layout survives iff duality-ness of card and preset agree |
| RootApp.ModalConfirm | App.tsx:299-307 | a new draft is saved under its title or `未命名草稿` and becomes active; otherwise only the active preset takes the content, and its name becomes the title when there is one; the dialog closes; the card, the advanced presets and, when editing, the new-draft flag are untouched |
| RootApp.CreateNew | App.tsx:326-329 | every content field is cleared, the author reset; no preset is active and the dialog opens; the preset lists are untouched |
| RootApp.SaveAdvancedPreset | App.tsx:222-228 | an existing id is replaced in place, same length and positions; a new one is prepended |
| RootApp.SavedIsFound | App.tsx:222-228 | after saving, the preset is the first entry with its id |
| RootApp.SaveAdvancedIdempotent | App.tsx:222-228 | saving the same preset twice is saving it once |
| RootApp.DeleteAdvancedPreset | App.tsx:399 | the list filtered, in order, to the entries whose id differs |
| RootApp.SaveThenDelete | App.tsx:222-228 | deleting a just-saved preset leaves no entry with its id |
| RootApp.FormatPatch | App.tsx:235-296 | no patch iff the rule list is empty; a patch holds body keys only |
| RootApp.HandleFormatText | App.tsx:235-296 | no rules leave the state as it is; fields other than the four body texts never change |
| RootApp.FormatRewritesShownBody | App.tsx:292-296 | formatting rewrites the body pair the preview shows, keeps the other pair, and changes no other field |
| RootApp.AsWrittenLosesPresetBody | App.tsx:230-233 | under the handler as written, a preset carrying a body and a rule ends with the old body shown; under the corrected one, with the preset's |
| RootApp.ApplyAdvancedPresetAsWritten | App.tsx:230-233 | as written: without rules, just the preset's state change; with rules, outside duality, the body pair is the OLD state's bodies run through the rules |
| RootApp.ApplyAdvancedPreset | App.tsx:230-233 | corrected: without rules, just the preset's state change; with rules, the preview shows the bodies of the state the preset produced, run through the rules |
| ComponentApp.HandleStateChange | components/App.tsx:200-202 | a plain merge: patched fields take the patch values, the others keep theirs |
| ComponentApp.ShellsAgreeOutsideDuality | components/App.tsx:200-202 | outside the duality layout both shells treat a change alike |
| ComponentApp.SavePreset | components/App.tsx:204-218 | the list grows by one new first preset holding title, subtitle, body, secondary body, category and author; no other part of the shell changes |
| ComponentApp.DeletePreset | components/App.tsx:220-223 | the list is the old one filtered, in order, to the presets whose id differs; the active id is cleared iff it matches; nothing else changes |
| ComponentApp.DeleteAbsentKeepsAll | components/App.tsx:220-223 | deleting an absent id changes no preset |
| ComponentApp.LoadPreset | components/App.tsx:225-236 | the preset becomes active; layout and duality texts are untouched; no other part of the shell changes |
| ComponentApp.LoadAgreesWithRoot | components/App.tsx:225-236 | loading agrees with the other shell's loading on every field but the layout and duality texts |
| ComponentApp.SaveLoadRoundTrip | components/App.tsx:204-236 | saving the content and loading it back gives back the same state |
| ComponentApp.ModalConfirm | components/App.tsx:253-276 | a new draft is saved and becomes active; otherwise only the active preset is updated, named by the title or its old name; the dialog closes; the card and, when editing, the new-draft flag are untouched |
| ComponentApp.ConfirmThenLoad | components/App.tsx:225-276 | confirming an edit and loading that preset back reproduces the content edited |
| ComponentApp.CreateNew | components/App.tsx:238-251 | content fields cleared, author reset, nothing else changed, no active preset, dialog open for a new draft |
| FormatText.ThreeColumns | App.tsx:265-267 | always three columns: one part goes left, two go left and right, three or more fill all three |
| FormatText.ColumnsShowFirstParts | App.tsx:254-267 | the non-empty columns, left to right, are the first (up to three) parts |
| FormatText.MatchStyle | App.tsx:279 | the colour, size-in-pixels and bold declarations that are set, in that order, joined by `;`; empty iff none is set |
| FormatText.FullMatchStyle | App.tsx:279 | with colour, a non-zero size and bold, the style is `color:c;font-size:Npx;font-weight:bold` |
| FormatText.FiredAction | App.tsx:251-285 | a firing rule replaces its node: a row of the three columns iff it is a row rule and the text has parts; otherwise a styled paragraph or highlighted matches as its scope says, with the rule's formatting |
| FormatText.FirstAction | App.tsx:247-287 | whatever the loop does to a text comes from a rule that fires on it |
| FormatText.FirstActionSpec | App.tsx:247-287 | a node is kept iff no rule fires for it; otherwise the first rule that fires decides |
| FormatText.SkippedRulesIrrelevant | App.tsx:248-250 | inactive rules and rules whose pattern does not compile can be dropped without changing anything |
| FormatText.NodeAction | App.tsx:243-287 | a node is kept iff its text is blank or no rule fires on it; otherwise the first rule that fires decides |
| FormatText.Actions | App.tsx:241-288 | the actions meet the loop-free description `DecidedBy`: one per node, each as `NodeAction` states |
| FormatText.DecidedByUnique | App.tsx:241-288 | `DecidedBy` pins the actions down: two action lists meeting it are equal |
| FormatText.ProcessHtml | App.tsx:237-289 | an empty body is returned as is; otherwise the parsed nodes are rendered with actions that meet `DecidedBy` |
| FormatText.ProcessHtmlIgnoresSkipped | App.tsx:248-250 | dropping the inactive rules and those whose pattern does not compile leaves the processed body unchanged |
| FormatText.ProcessHtmlNothingFires | App.tsx:241-288 | with no rule firing on any node, every node is kept |
| PresetPanel.UpdateFormatting | components/PresetPanel.tsx:36-38 | only the formatting changes, and an empty patch changes nothing |
| PresetPanel.UpdateFormattingSpec | components/PresetPanel.tsx:36-38 | each of colour, size, bold, italic and alignment takes the patch's value if given and keeps its own otherwise; applying a patch twice is applying it once |
| PresetPanel.ToggleScope | components/PresetPanel.tsx:188-190 | the scope flips and nothing else changes |
| PresetPanel.ToggleScopeInvolution | components/PresetPanel.tsx:188-190 | toggling twice is the identity |
| PresetPanel.QuickRegex | components/PresetPanel.tsx:40-53 | only the pattern changes; "between" on fewer than two characters changes nothing |
| PresetPanel.QuickRegexRecoversLiteral | components/PresetPanel.tsx:43-51 | each quick pattern is its fixed opening, an escaped part and its fixed closing, and the escaped part reads strictly as the literal ("between": two parts reading as its first and last characters) |
| PresetPanel.StylePatch | components/PresetPanel.tsx:318-326 | exactly the seven style keys, with the state's values |
| PresetPanel.ContentPatch | components/PresetPanel.tsx:329-330 | exactly the six content keys, with the state's values |
| PresetPanel.PresetState | components/PresetPanel.tsx:318-331 | with styles, the seven style keys from the state and nothing else but content keys; without styles, the edited preset's recorded keys, or none for a new preset; with content, the six content keys from the state on top |
| PresetPanel.Confirm | components/PresetPanel.tsx:311-334 | no preset iff the name is blank; otherwise the trimmed name, the kept flags, the edited preset's id or else the clock's, the active rules in their order, and the partial state `PresetPanel.PresetState` records |
| PresetPanel.CapturedStyleRoundTrip | components/PresetPanel.tsx:318-330 | a style preset applied back to its source state changes nothing, and carries every style key to any other state |
| PresetPanel.RowRules | components/PresetPanel.tsx:250-279 | every row rule is an active three-column paragraph rule with an empty pattern and the separator `|`, carrying the formatting of a row that shows text |
| PresetPanel.RowRulesCount | components/PresetPanel.tsx:252-256 | exactly one rule per row whose columns show some text |
| PresetPanel.StyleRules | components/PresetPanel.tsx:281-306 | every style rule is an active match-scope rule |
| PresetPanel.StyleRulesUnseen | components/PresetPanel.tsx:294-296 | no rule is made for a text already seen |
| PresetPanel.StyleRulesSound | components/PresetPanel.tsx:283-300 | every style rule comes from an element outside the rows with non-blank text, and matches its trimmed text literally |
| PresetPanel.StyleRulesDistinct | components/PresetPanel.tsx:294-305 | no two style rules have the same pattern |
| PresetPanel.StyleRulesComplete | components/PresetPanel.tsx:281-306 | every eligible element's text gets a rule |
| PresetPanel.ScanTextForRules | components/PresetPanel.tsx:307 | the earlier rules in front, then exactly the row rules, one per showing row, then exactly the style rules, whose patterns are distinct and each escape an eligible element's trimmed text |
| EditorControls.PresetColor | components/EditorControls.tsx:260-263 | always one of the five colour classes |
| EditorControls.PresetColorCycle | components/EditorControls.tsx:260-263 | the colours repeat every five drafts and neighbours differ |
| EditorControls.FormatDraftTitle | components/EditorControls.tsx:265-270 | at most 6 characters; unchanged iff at most 6; otherwise the first four characters followed by `……` |
| EditorControls.FormatDraftTitleIdempotent | components/EditorControls.tsx:265-270 | shortening twice is shortening once |
| EditorControls.ExportFilename | components/EditorControls.tsx:391-394 | no forbidden character, and the mode prefix and `-` in front |
| EditorControls.ExportFilenameSuffix | components/EditorControls.tsx:393-394 | the `-name` suffix is absent iff the trimmed name holds only forbidden characters |
| EditorControls.ExportFilenameClean | components/EditorControls.tsx:391-394 | a non-empty title and a non-blank name free of forbidden characters appear verbatim: `prefix-title-name` |
| EditorControls.ExportFilenameUntitled | components/EditorControls.tsx:391-394 | an empty title and a blank name give `prefix-无标题` |
| EditorControls.AllParagraphs | components/EditorControls.tsx:34-44 | one paragraph per top-level node, indexed in order, with its trimmed text |
| EditorControls.Matches | components/EditorControls.tsx:46-54 | no match for a blank query; otherwise a paragraph matches iff the regex (when it compiles in regex mode) or the case-insensitive substring test accepts it |
| EditorControls.Hit | components/EditorControls.tsx:49-52 | with a compiling regex, the regex decides; otherwise the query occurs somewhere in the text, ignoring case |
| EditorControls.ContainsLowerIff | components/EditorControls.tsx:52 | the lower-cased query is in the lower-cased text iff the query occurs in the text ignoring case |
| EditorControls.InvalidPatternSearchesPlain | components/EditorControls.tsx:49-52 | a pattern that does not compile searches as plain text |
| EditorControls.Selection | components/EditorControls.tsx:56-59 | empty for a blank query, otherwise every match's index |
| EditorControls.SelectionOfSearch | components/EditorControls.tsx:34-59 | an index is selected iff its node exists, the query is not blank and the node's trimmed text is hit |
| EditorControls.ToggleIndex | components/EditorControls.tsx:161-164 | membership of one index flips, every other stays |
| EditorControls.ToggleTwice | components/EditorControls.tsx:161-164 | toggling twice is the identity |
| EditorControls.BatchAlignAsWritten | components/EditorControls.tsx:61-79 | as written: nothing happens iff the selection is empty; it throws iff a selected node is neither element nor text |
| EditorControls.BatchAlign | components/EditorControls.tsx:61-79 | corrected: no change iff empty selection; same length; unselected and other nodes unchanged; a selected element gets the alignment; a selected text is wrapped in an aligned `div` |
| EditorControls.BatchAlignIdempotent | components/EditorControls.tsx:61-79 | aligning twice is aligning once |
| EditorControls.AsWrittenAgreesWithoutComments | components/EditorControls.tsx:61-79 | when no comment-like node is selected, the code as written and the corrected version agree |
| EditorControls.MatchAllSelectsEverything | components/EditorControls.tsx:46-59 | a pattern matching every text selects every top-level node, comments included |
| EditorControls.MatchAllSelectsComment | components/EditorControls.tsx:46-59 | on a paragraph followed by a comment, `.*` selects both |
| EditorControls.AsWrittenThrowsOnSelectedComment | components/EditorControls.tsx:66-76 | that selection throws as written; the corrected version aligns the paragraph and leaves the comment |
| EditorControls.StyleStr | components/EditorControls.tsx:93 | `color:c;font-size:f`, `color:c`, `font-size:f` or empty, as colour and size are given |
| EditorControls.StylePattern | components/EditorControls.tsx:85-86 | `(` group `)` and the not-inside-a-tag lookahead; the group is the query in regex mode and reads strictly as the query otherwise |
| EditorControls.ApplyStyleToMatches | components/EditorControls.tsx:81-104 | no change iff the query is empty, nothing is selected or the pattern does not compile; unselected and other nodes unchanged; a selected element has its matches wrapped in place, a selected text becomes a `span` around its highlighted text, both with the pattern and `styleStr` |
| EditorControls.BlankSearchStylesNothing | components/EditorControls.tsx:56-82 | after a blank search, styling changes nothing |
| Toolbar.DigitRun | components/RichTextToolbar.tsx:42 | `\d+` is greedy: the longest run of digits at the front |
| Toolbar.DigitRunOf | components/RichTextToolbar.tsx:42 | the run of digits followed by a non-digit is exactly those digits |
| Toolbar.SizeAtIsMatch | components/RichTextToolbar.tsx:42 | there is a size at a position iff `text-[<digits>px]` starts there, and its value is those digits' |
| Toolbar.FirstSizeSpec | components/RichTextToolbar.tsx:42-43 | `match` finds the leftmost occurrence, or none when there is none |
| Toolbar.CurrentSize | components/RichTextToolbar.tsx:41-44 | 13 when the class has no `text-[Npx]`; otherwise N of the leftmost one |
| Toolbar.SizeClass | components/RichTextToolbar.tsx:186 | `text-[` + digits + `px]`, the digits spelling the size without leading zero |
| Toolbar.SizeRoundTrip | components/RichTextToolbar.tsx:41-44 | parsing `text-[${n}px]` gives n back |
| Toolbar.SizeDown | components/RichTextToolbar.tsx:232 | `max(10, v - 1)`: never below 10 |
| Toolbar.SizeUp | components/RichTextToolbar.tsx:234 | `min(40, v + 1)`: never above 40 |
| Toolbar.SizeButtonsInverse | components/RichTextToolbar.tsx:232-234 | within the range the two buttons undo each other |
| Toolbar.MinusOnClass | components/RichTextToolbar.tsx:185-232 | the minus button, through the class string, sets the size one down and never below 10 |
| Toolbar.PalettePosition | components/RichTextToolbar.tsx:145-157 | bottom = window height − button top + 10; left within [150, W − 150] when W ≥ 300, and W − 150 when W < 300; a centre already in range is kept |
| Toolbar.PalettePositionClamps | components/RichTextToolbar.tsx:151-155 | on a wide window the left is the button centre clamped to [150, W − 150], and re-anchoring at it does not move the palette |
| Toolbar.Step | components/RichTextToolbar.tsx:86-187 | toggling opens one palette and closes the other, or closes it; picking a colour closes the colour palette; hiding, or pressing outside toolbar and palettes, closes both; a press inside changes nothing |
| Toolbar.RunNeverBoth | components/RichTextToolbar.tsx:159-177 | from at most one open palette, no sequence of events opens both |
| Toolbar.ToggleTwice | components/RichTextToolbar.tsx:159-177 | pressing a palette's button twice restores it and leaves the other closed |
| Toolbar.DetectAlign | components/RichTextToolbar.tsx:75-78 | an active command always lights its button; without it, left lights iff `left`/`start`, center iff `center`, right iff `right`/`end`, justify iff `justify` |
| Toolbar.DetectAlignByComputed | components/RichTextToolbar.tsx:75-78 | without command states each button lights iff the computed value is its own keyword (`left`/`start`, `center`, `right`/`end`, `justify`), at most one lights; a command state only adds its own button |

## Left out

- Persistence and export are file, network and library I/O. This covers:
  - localStorage;
  - `toPng` rendering;
  - font embedding;
  - Capacitor file sharing;
  - download links.
- The clock and randomness:
  - `Date.now()` ids are parameters;
  - the noise canvas, random record numbers and date footers are left out.
- Preview scaling and keyboard-height measurements are floating-point DOM
  measurements and are left out.
- `document.execCommand`, `queryCommandState`, `getSelection` and `getComputedStyle` are browser editing services:
  - the bold, italic, colour and alignment commands of the toolbar are not modelled;
  - the computed alignment and the command states are parameters of `Toolbar.DetectAlign`.
- Regular expressions are not modelled. Whether a pattern compiles and
  whether it matches a text are parameters. The `i` and `g` flags are part
  of that parameter.
- Parsing and serialising `innerHTML`, and `innerText`, are parameters.
  Tag names are taken to be lower case already, as `tagName.toLowerCase()` gives them.
- `toLowerCase` is modelled for ASCII letters only.
- JSX rendering, Tailwind class strings beyond the ones listed, the export
  dialog, the constant tables, the Android activity and the font download
  script are UI, data or platform code.
- Mode toggles, tab switching, the background palette of `App.tsx`, and the
  row editor and selection-text helpers of `components/EditorControls.tsx`
  are view state and are not modelled.
- `Toolbar.CurrentSize`: `parseInt` is exact for every natural here. JavaScript
  loses precision above 2^53, which is not modelled.
- `Toolbar.PalettePosition`: real arithmetic stands for double-precision arithmetic.
- `Toolbar.Step`: the palette position is computed separately
  (`Toolbar.PalettePosition`) and is not carried in the palette state.
- `FormatText.ProcessHtml`: the replacement nodes are built from the actions
  by a browser parameter. This covers the grid container of a row, the
  styled clone of a paragraph and the highlighted spans of a match.
  The model states which action each node gets, not the resulting markup.
- `FormatText.ThreeColumns`: the split of `App.tsx:254` on runs of separators
  is modelled as a split on single separators. After `trim` and
  `filter(Boolean)` both give the same parts.
- `PresetPanel.ScanTextForRules`:
  - one clock reading `now` is taken for the whole scan, so all its rule ids are built from the same time, where `components/PresetPanel.tsx:268` and `:298` read `Date.now()` once per rule;
  - the formatting read off each element's inline style (`components/PresetPanel.tsx:258-262,287-292`) is part of the scanned input, not computed;
  - the elements found by the two `querySelectorAll` calls are the input, as is whether each lies inside a row;
  - the source keeps row keys and style keys in one set, but they can never collide (`struct_` and `style_` prefixes), so the model keeps them apart.
- `Cover.Combine` carries no `ensures` of its own, to keep its proof obligations small;
  `Cover.CombineGet` and `Cover.CombineGetAll` state it field by field.
- `EditorControls.FormatDraftTitle`, `ComponentPreview.TitleSizeFor` and
  `ComponentPreview.SubtitleSizeClass` count Unicode scalar values, not UTF-16
  code units, so a title holding characters outside the Basic Multilingual
  Plane (emoji, say) is shorter here than in the browser.
- `ComponentPreview.TitleSizeFor`: the storybook layout, like duality, takes the
  table's last branch, as `getTitleFontClass` does for any layout other than split and minimal.
- `ComponentPreview.HasGridLayer` (`components/CoverPreview.tsx:331`) is a predicate without a contract:
  the grid layer is drawn iff the layout is not duality.

## Findings

| source | as written | input that shows it | evidently intended | confidence | as-written member | corrected member |
|---|---|---|---|---|---|---|
| App.tsx:230-233 | `handleApplyAdvancedPreset` submits the preset's partial state, then calls `handleFormatText`. That function reads the body from the state captured when the handler was created, before the preset. Its patch is merged after the preset's, so the preset's body is overwritten by the old body, formatted. | card body "old"; a preset with content `bodyText: "new"` and one active rule | the rules run on the body the preset produced, so "new" (formatted) is shown | high; not executed | RootApp.ApplyAdvancedPresetAsWritten (RootApp.AsWrittenLosesPresetBody) | RootApp.ApplyAdvancedPreset |
| components/EditorControls.tsx:61-79 | `applyBatchAlign` treats every selected node that is not a text node as an `HTMLElement` and sets `style.textAlign`. A comment node has no `style`, so this throws. A comment is selectable: its paragraph text is "", and a regex-mode query such as `.*` matches it. | body `<p>a</p><!--x-->`, regex query `.*`, align centre | only elements and text nodes are aligned and other nodes are skipped, as `applyStyleToMatches` does | medium; not executed | EditorControls.BatchAlignAsWritten (EditorControls.AsWrittenThrowsOnSelectedComment) | EditorControls.BatchAlign (EditorControls.BatchAlignIdempotent, EditorControls.AsWrittenAgreesWithoutComments) |

=== FILE: component_app.dfy ===
/** The state handlers of the editor shell in `components/App.tsx`: the same
    content-preset operations as the top-level shell, without the duality
    layout's second pair of body texts and without advanced presets.

    Identifiers made from the clock (`Date.now()`) are parameters. */
module ComponentApp {
  import opened Options
  import opened Lists
  import opened Cover
  import RootApp

  datatype Shell = Shell(
    state: CoverState,
    presets: seq<ContentPreset>,
    activePresetId: Option<string>,
    isCreatingNew: bool,
    showContentModal: bool)

  /** `handleStateChange`: a plain merge. */
  function HandleStateChange(prev: CoverState, patch: CoverPatch): (r: CoverState)
    ensures forall f :: Get(r, f) == (if PatchGet(patch, f).Some? then PatchGet(patch, f).value else Get(prev, f))
  {
    Merge(prev, patch)
  }

  /** The two shells treat a change the same way unless it lands in the duality
      layout. */
  lemma ShellsAgreeOutsideDuality(prev: CoverState, patch: CoverPatch)
    requires RootApp.TargetLayout(prev, patch) != Duality
    ensures HandleStateChange(prev, patch) == RootApp.HandleStateChange(prev, patch)
  {
  }

  /** The preset `handleSavePreset` records: no duality texts. */
  function PresetOf(s: CoverState, id: string, name: string): ContentPreset {
    ContentPreset(id, name, s.title, s.subtitle, s.bodyText, Some(s.secondaryBodyText), None, None, s.category, s.author)
  }

  /** `handleSavePreset`: the new preset goes first. */
  function SavePreset(app: Shell, name: string, newId: string): (r: Shell)
    ensures |r.presets| == |app.presets| + 1 && r.presets[1..] == app.presets
    ensures var p := r.presets[0];
      p.id == newId && p.name == name && p.title == app.state.title && p.subtitle == app.state.subtitle
      && p.bodyText == app.state.bodyText && p.secondaryBodyText == Some(app.state.secondaryBodyText)
      && p.category == app.state.category && p.author == app.state.author
    ensures r.(presets := app.presets) == app
  {
    app.(presets := [PresetOf(app.state, newId, name)] + app.presets)
  }

  /** `handleDeletePreset`: every preset with the id goes, the others stay in
      their order; the active preset is cleared only when it is that one. */
  function DeletePreset(app: Shell, id: string): (r: Shell)
    ensures forall i :: 0 <= i < |r.presets| ==> r.presets[i].id != id && r.presets[i] in app.presets
    ensures forall i :: 0 <= i < |app.presets| && app.presets[i].id != id ==> app.presets[i] in r.presets
    ensures r.presets == Filter(app.presets, RootApp.OtherContentId(id))
    ensures r.activePresetId == (if app.activePresetId == Some(id) then None else app.activePresetId)
    ensures r.(presets := app.presets, activePresetId := app.activePresetId) == app
  {
    app.(presets := Filter(app.presets, RootApp.OtherContentId(id)),
         activePresetId := if app.activePresetId == Some(id) then None else app.activePresetId)
  }

  /** Deleting an id no preset has changes no preset. */
  lemma DeleteAbsentKeepsAll(app: Shell, id: string)
    requires forall i :: 0 <= i < |app.presets| ==> app.presets[i].id != id
    ensures DeletePreset(app, id).presets == app.presets
  {
    FilterKeepsAll(app.presets, RootApp.OtherContentId(id));
  }

  /** `handleLoadPreset`: title, subtitle, category and author from the preset;
      each body text from the preset unless it is empty or missing. */
  function LoadPreset(app: Shell, p: ContentPreset): (r: Shell)
    ensures r.activePresetId == Some(p.id)
    ensures r.(state := app.state, activePresetId := app.activePresetId) == app
    ensures r.state.layoutStyle == app.state.layoutStyle
    ensures r.state.dualityBodyText == app.state.dualityBodyText
    ensures r.state.dualitySecondaryBodyText == app.state.dualitySecondaryBodyText
  {
    var prev := app.state;
    var s := prev.(
      title := p.title,
      subtitle := p.subtitle,
      bodyText := Or(p.bodyText, prev.bodyText),
      secondaryBodyText := OrElse(p.secondaryBodyText, Or(prev.secondaryBodyText, "")),
      category := p.category,
      author := p.author);
    app.(state := s, activePresetId := Some(p.id))
  }

  /** Loading agrees with the top-level shell's loading on every field except
      the layout and the duality texts, which only that shell touches. */
  lemma LoadAgreesWithRoot(app: Shell, root: RootApp.Shell, p: ContentPreset)
    requires root.state == app.state
    ensures var a := LoadPreset(app, p).state;
      var b := RootApp.LoadPreset(root, p).state;
      forall f :: f !in {LayoutStyle, DualityBodyText, DualitySecondaryBodyText} ==> Get(a, f) == Get(b, f)
  {
  }

  /** Saving the current content and loading it back gives back the same state. */
  lemma SaveLoadRoundTrip(app: Shell, name: string, id: string)
    ensures LoadPreset(app, PresetOf(app.state, id, name)).state == app.state
  {
  }

  /** `handleModalConfirm`: a new draft is saved under its title (or a
      placeholder name) and becomes the active preset; otherwise the active
      preset, if any, takes the current content and, when there is a title,
      its name. The dialog closes in both cases. */
  function ModalConfirm(app: Shell, newId: string): (r: Shell)
    ensures !r.showContentModal
    ensures r.(presets := app.presets, activePresetId := app.activePresetId, isCreatingNew := app.isCreatingNew,
               showContentModal := app.showContentModal) == app
    ensures !app.isCreatingNew ==> !r.isCreatingNew
    ensures app.isCreatingNew ==>
      && r.presets == [PresetOf(app.state, newId, Or(app.state.title, RootApp.UntitledDraft))] + app.presets
      && r.activePresetId == Some(newId) && !r.isCreatingNew
    ensures !app.isCreatingNew ==> |r.presets| == |app.presets| && r.activePresetId == app.activePresetId
    ensures !app.isCreatingNew ==> forall i :: 0 <= i < |app.presets| ==>
      var p := app.presets[i];
      if app.activePresetId.Some? && app.activePresetId.value != "" && p.id == app.activePresetId.value
      then r.presets[i] == PresetOf(app.state, p.id, Or(app.state.title, p.name)).(
             dualityBodyText := p.dualityBodyText, dualitySecondaryBodyText := p.dualitySecondaryBodyText)
      else r.presets[i] == p
  {
    if app.isCreatingNew then
      var saved := SavePreset(app, Or(app.state.title, RootApp.UntitledDraft), newId);
      saved.(activePresetId := Some(newId), isCreatingNew := false, showContentModal := false)
    else if app.activePresetId.Some? && app.activePresetId.value != "" then
      var id := app.activePresetId.value;
      var updated := seq(|app.presets|, i requires 0 <= i < |app.presets| =>
        var p := app.presets[i];
        if p.id == id
        then p.(title := app.state.title, subtitle := app.state.subtitle, bodyText := app.state.bodyText,
                secondaryBodyText := Some(app.state.secondaryBodyText),
                category := app.state.category, author := app.state.author,
                name := Or(app.state.title, p.name))
        else p);
      app.(presets := updated, showContentModal := false)
    else app.(showContentModal := false)
  }

  /** Confirming an edit and loading the edited preset back reproduces the
      content being edited. */
  lemma ConfirmThenLoad(app: Shell, i: nat)
    requires !app.isCreatingNew && i < |app.presets|
    requires app.activePresetId == Some(app.presets[i].id) && app.presets[i].id != ""
    ensures var r := ModalConfirm(app, "");
      LoadPreset(r, r.presets[i]).state == app.state
  {
  }

  /** `handleCreateNew`: every content field is cleared, the author is reset,
      no preset is active and the dialog opens for a new draft. */
  function CreateNew(app: Shell): (r: Shell)
    ensures forall f :: f in {Title, Subtitle, BodyText, SecondaryBodyText, Category} ==> Get(r.state, f) == VStr("")
    ensures r.state.author == RootApp.InitialAuthor
    ensures forall f :: f !in {Title, Subtitle, BodyText, SecondaryBodyText, Category, Author} ==> Get(r.state, f) == Get(app.state, f)
    ensures r.activePresetId == None && r.isCreatingNew && r.showContentModal && r.presets == app.presets
    ensures r.(state := app.state, activePresetId := app.activePresetId, isCreatingNew := app.isCreatingNew,
               showContentModal := app.showContentModal) == app
  {
    app.(state := app.state.(title := "", subtitle := "", bodyText := "", secondaryBodyText := "",
                             category := "", author := RootApp.InitialAuthor),
         activePresetId := None, isCreatingNew := true, showContentModal := true)
  }
}

=== FILE: component_preview.dfy ===
/** The class-name and label rules of the card preview in
    `components/CoverPreview.tsx`: title and subtitle sizing by length,
    category tokens, body classes, and the frame's height and grid layer.
    Class lists are sequences of tokens; the component joins them with spaces. */
module ComponentPreview {
  import opened Strings
  import opened Cover

  /** The four Tailwind title sizes, largest last. */
  datatype TitleSize = Text2xl | Text3xl | Text4xl | Text5xl {
    function Class(): string {
      match this
      case Text2xl => "text-2xl"
      case Text3xl => "text-3xl"
      case Text4xl => "text-4xl"
      case Text5xl => "text-5xl"
    }

    function Rank(): nat {
      match this
      case Text2xl => 2
      case Text3xl => 3
      case Text4xl => 4
      case Text5xl => 5
    }
  }

  /** The size table of `getTitleFontClass`, by layout and title length: the
      split layout shrinks past 8 and 12 characters, the minimal one past 10
      and 14, and every other layout past 7 and 10. */
  function TitleSizeFor(layout: Layout, length: nat): (r: TitleSize)
    ensures layout == Split ==>
      (r == Text2xl <==> length > 12) && (r == Text3xl <==> 8 < length <= 12) && (r == Text5xl <==> length <= 8)
    ensures layout == Minimal ==>
      (r == Text2xl <==> length > 14) && (r == Text3xl <==> 10 < length <= 14) && (r == Text4xl <==> length <= 10)
    ensures layout != Split && layout != Minimal ==>
      (r == Text2xl <==> length > 10) && (r == Text3xl <==> 7 < length <= 10) && (r == Text4xl <==> length <= 7)
  {
    if layout == Split then
      if length > 12 then Text2xl else if length > 8 then Text3xl else Text5xl
    else if layout == Minimal then
      if length > 14 then Text2xl else if length > 10 then Text3xl else Text4xl
    else
      if length > 10 then Text2xl else if length > 7 then Text3xl else Text4xl
  }

  /** A longer title never gets a larger size, in any layout. */
  lemma TitleSizeMonotone(layout: Layout, shorter: nat, longer: nat)
    requires shorter <= longer
    ensures TitleSizeFor(layout, longer).Rank() <= TitleSizeFor(layout, shorter).Rank()
  {
  }

  /** `getTitleFontClass`: always the serif family, then the size from the table. */
  function TitleClasses(layout: Layout, title: string): (r: seq<string>)
    ensures |r| == 2 && r[0] == "font-serif-sc"
    ensures r[1] == TitleSizeFor(layout, |title|).Class()
    ensures r[1] in {"text-2xl", "text-3xl", "text-4xl", "text-5xl"}
  {
    ["font-serif-sc", TitleSizeFor(layout, |title|).Class()]
  }

  /** The four classes a long subtitle is shrunk to, smallest first. */
  const SubtitleSteps: seq<string> :=
    ["text-[11px] tracking-tighter", "text-[12px] tracking-tight", "text-[13px] tracking-tight", "text-sm"]

  /** `getSubtitleSizeClass`: the caller's base class up to 12 characters,
      then ever smaller classes past 12, 18, 24 and 30 characters. */
  function SubtitleSizeClass(base: string, length: int): (r: string)
    ensures length <= 12 ==> r == base
    ensures 12 < length <= 18 ==> r == "text-sm"
    ensures 18 < length <= 24 ==> r == "text-[13px] tracking-tight"
    ensures 24 < length <= 30 ==> r == "text-[12px] tracking-tight"
    ensures length > 30 ==> r == "text-[11px] tracking-tighter"
  {
    if length > 30 then SubtitleSteps[0]
    else if length > 24 then SubtitleSteps[1]
    else if length > 18 then SubtitleSteps[2]
    else if length > 12 then SubtitleSteps[3]
    else base
  }

  /** Position of a class among the shrunk steps, smallest first; any other
      class comes after them. */
  function StepRank(cls: string): nat {
    if cls == SubtitleSteps[0] then 0
    else if cls == SubtitleSteps[1] then 1
    else if cls == SubtitleSteps[2] then 2
    else if cls == SubtitleSteps[3] then 3
    else |SubtitleSteps|
  }

  /** Past 12 characters the class depends on the length only, is one of the
      steps, and a longer subtitle never gets a larger step. */
  lemma SubtitleShrinks(base: string, base': string, shorter: int, longer: int)
    requires 12 < shorter <= longer
    ensures SubtitleSizeClass(base, longer) == SubtitleSizeClass(base', longer)
    ensures SubtitleSizeClass(base, longer) in SubtitleSteps
    ensures StepRank(SubtitleSizeClass(base, longer)) <= StepRank(SubtitleSizeClass(base, shorter))
  {
  }

  /** The separators of the category field: the ideographic comma, the comma
      and the space. */
  const CategorySeparators: set<char> := {'\U{3001}', ',', ' '}

  /** The `categories` list: the category split on its separators, each piece
      trimmed, blank pieces dropped; nothing for an empty category. Every token
      is non-empty, trimmed and free of separators, and a string is a token
      exactly when it is the trimmed form of a non-blank piece of the category
      between separators. */
  function Categories(category: string): (r: seq<string>)
    ensures forall t <- r :: t != "" && Trim(t) == t
    ensures forall t <- r :: forall c <- t :: c !in CategorySeparators
    ensures category != "" ==>
      forall t :: t in r <==> t != "" && exists p <- SplitOn(category, CategorySeparators) :: Trim(p) == t
    ensures category == "" ==> r == []
  {
    if category == "" then []
    else
      var pieces := SplitOn(category, CategorySeparators);
      SplitOnSpec(category, CategorySeparators);
      TrimmedTokensSpec(pieces);
      TokensAvoid(pieces, CategorySeparators);
      TrimmedTokens(pieces)
  }

  /** A category without separators is one tag, its trimmed text, unless that
      is blank. */
  lemma CategoriesOfOnePiece(a: string)
    requires forall c <- a :: c !in CategorySeparators
    ensures Categories(a) == (if Trim(a) == "" then [] else [Trim(a)])
  {
    if a != "" {
      SplitOnClean(a, CategorySeparators);
      TrimmedTokensSingleton(a);
    }
  }

  /** A separator cuts the category in two: the tags of the left part come
      first, then those of the right part, in written order and with repeats
      kept. With `CategoriesOfOnePiece` this fixes the whole list. */
  lemma CategoriesAt(a: string, c: char, b: string)
    requires c in CategorySeparators
    ensures Categories(a + [c] + b) == Categories(a) + Categories(b)
  {
    SplitOnAt(a, c, b, CategorySeparators);
    TrimmedTokensAppend(SplitOn(a, CategorySeparators), SplitOn(b, CategorySeparators));
    assert TrimmedTokens(SplitOn("", CategorySeparators)) == [] by {
      TrimmedTokensSingleton("");
    }
  }

  /** `displayCategories`: the tokens, or the raw category when it has none. */
  function DisplayCategories(category: string): (r: seq<string>)
    ensures |Categories(category)| > 0 ==> r == Categories(category)
    ensures |Categories(category)| == 0 && category != "" ==> r == [category]
  {
    var cats := Categories(category);
    if |cats| > 0 then cats else if category != "" then [category] else []
  }

  /** A category is displayed as nothing exactly when it is empty. */
  lemma DisplayEmptyIff(category: string)
    ensures DisplayCategories(category) == [] <==> category == ""
  {
  }

  /** The fixed tail of `getBodyClasses`: line breaking, spacing and the
      three-column row styles. */
  const BodyClassTail: seq<string> := [
    "[line-break:strict]", "break-words", "leading-[1.5]", "outline-none", "transition-all",
    "duration-300", "[&_*]:text-inherit", "[&_*]:font-serif-sc", "[&_div]:m-0", "[&_p]:m-0",
    "[&_.multi-align-row]:!grid", "[&_.multi-align-row]:!grid-cols-3", "[&_.multi-align-row]:!w-full",
    "[&_.multi-align-row]:!gap-1", "[&_.multi-align-row]:!my-1",
    "[&_.multi-align-row_div:nth-child(1)]:!text-left",
    "[&_.multi-align-row_div:nth-child(2)]:!text-center",
    "[&_.multi-align-row_div:nth-child(3)]:!text-right"]

  const LastLineLeft := "[text-align-last:left]"

  /** `getBodyClasses`: size, alignment, the last-line rule (empty unless the
      body is justified), then the fixed tail. */
  function BodyClasses(size: string, align: string): (r: seq<string>)
    ensures |r| == 3 + |BodyClassTail| && r[0] == size && r[1] == align && r[3..] == BodyClassTail
    ensures r[2] == LastLineLeft <==> align == "text-justify"
    ensures r[2] != LastLineLeft ==> r[2] == ""
  {
    [size, align, if align == "text-justify" then LastLineLeft else ""] + BodyClassTail
  }

  /** Height classes of the card frame. */
  function FrameHeight(mode: Mode): (r: string)
    ensures mode == CoverMode <==> r == "h-[440px]"
    ensures mode == LongText ==> r == "h-auto min-h-[600px] md:min-h-[712px]"
  {
    match mode
    case CoverMode => "h-[440px]"
    case LongText => LongTextHeight
  }

  const LongTextHeight := "h-auto min-h-[600px] md:min-h-[712px]"

  /** The faint grid texture behind the content is drawn in every layout but
      the duality one. */
  predicate HasGridLayer(layout: Layout) {
    layout != Duality
  }
}

=== FILE: cover.dfy ===
/** The record shapes of `types.ts`: the editor state of one card, its
    partial updates, the two kinds of presets and the formatting rules.

    A `Partial<CoverState>` is a `CoverPatch`: every field is optional, and an
    absent field (`None`) is one the object spread does not overwrite. The two
    optional fonts of the state are `Option<string>` themselves, so a patch may
    carry `Some(None)`: the key is present with the value `undefined`, which the
    spread does copy. */
module Cover {
  import opened Options

  /** The layouts of a card. `types.ts` lists three, but the layout buttons of
      the editor also write `storybook`, so the state can hold a fourth. */
  datatype Layout = Split | Minimal | Duality | Storybook
  datatype Mode = CoverMode | LongText

  datatype CoverState = CoverState(
    title: string,
    subtitle: string,
    bodyText: string,
    secondaryBodyText: string,
    dualityBodyText: string,
    dualitySecondaryBodyText: string,
    category: string,
    author: string,
    backgroundColor: string,
    accentColor: string,
    textColor: string,
    layoutStyle: Layout,
    mode: Mode,
    bodyTextSize: string,
    bodyTextAlign: string,
    isBodyBold: bool,
    isBodyItalic: bool,
    titleFont: Option<string>,
    bodyFont: Option<string>)

  datatype CoverPatch = CoverPatch(
    title: Option<string>,
    subtitle: Option<string>,
    bodyText: Option<string>,
    secondaryBodyText: Option<string>,
    dualityBodyText: Option<string>,
    dualitySecondaryBodyText: Option<string>,
    category: Option<string>,
    author: Option<string>,
    backgroundColor: Option<string>,
    accentColor: Option<string>,
    textColor: Option<string>,
    layoutStyle: Option<Layout>,
    mode: Option<Mode>,
    bodyTextSize: Option<string>,
    bodyTextAlign: Option<string>,
    isBodyBold: Option<bool>,
    isBodyItalic: Option<bool>,
    titleFont: Option<Option<string>>,
    bodyFont: Option<Option<string>>)

  /** `{}` */
  const EmptyPatch := CoverPatch(None, None, None, None, None, None, None, None, None, None,
                                 None, None, None, None, None, None, None, None, None)

  /** The names of the state's fields, and a uniform view of their values, so
      that "every other field is unchanged" can be said once for all of them. */
  datatype Field =
    | Title | Subtitle | BodyText | SecondaryBodyText | DualityBodyText | DualitySecondaryBodyText
    | Category | Author | BackgroundColor | AccentColor | TextColor | LayoutStyle | ModeField
    | BodyTextSize | BodyTextAlign | IsBodyBold | IsBodyItalic | TitleFont | BodyFont

  datatype Value = VStr(s: string) | VLayout(l: Layout) | VMode(m: Mode) | VBool(b: bool) | VOpt(o: Option<string>)

  function Get(s: CoverState, f: Field): Value {
    match f
    case Title => VStr(s.title)
    case Subtitle => VStr(s.subtitle)
    case BodyText => VStr(s.bodyText)
    case SecondaryBodyText => VStr(s.secondaryBodyText)
    case DualityBodyText => VStr(s.dualityBodyText)
    case DualitySecondaryBodyText => VStr(s.dualitySecondaryBodyText)
    case Category => VStr(s.category)
    case Author => VStr(s.author)
    case BackgroundColor => VStr(s.backgroundColor)
    case AccentColor => VStr(s.accentColor)
    case TextColor => VStr(s.textColor)
    case LayoutStyle => VLayout(s.layoutStyle)
    case ModeField => VMode(s.mode)
    case BodyTextSize => VStr(s.bodyTextSize)
    case BodyTextAlign => VStr(s.bodyTextAlign)
    case IsBodyBold => VBool(s.isBodyBold)
    case IsBodyItalic => VBool(s.isBodyItalic)
    case TitleFont => VOpt(s.titleFont)
    case BodyFont => VOpt(s.bodyFont)
  }

  function Lift<T>(o: Option<T>, wrap: T -> Value): Option<Value> {
    match o
    case Some(v) => Some(wrap(v))
    case None => None
  }

  /** The value a patch gives to a field, if it has that key. */
  function PatchGet(p: CoverPatch, f: Field): Option<Value> {
    match f
    case Title => Lift(p.title, x => VStr(x))
    case Subtitle => Lift(p.subtitle, x => VStr(x))
    case BodyText => Lift(p.bodyText, x => VStr(x))
    case SecondaryBodyText => Lift(p.secondaryBodyText, x => VStr(x))
    case DualityBodyText => Lift(p.dualityBodyText, x => VStr(x))
    case DualitySecondaryBodyText => Lift(p.dualitySecondaryBodyText, x => VStr(x))
    case Category => Lift(p.category, x => VStr(x))
    case Author => Lift(p.author, x => VStr(x))
    case BackgroundColor => Lift(p.backgroundColor, x => VStr(x))
    case AccentColor => Lift(p.accentColor, x => VStr(x))
    case TextColor => Lift(p.textColor, x => VStr(x))
    case LayoutStyle => Lift(p.layoutStyle, x => VLayout(x))
    case ModeField => Lift(p.mode, x => VMode(x))
    case BodyTextSize => Lift(p.bodyTextSize, x => VStr(x))
    case BodyTextAlign => Lift(p.bodyTextAlign, x => VStr(x))
    case IsBodyBold => Lift(p.isBodyBold, x => VBool(x))
    case IsBodyItalic => Lift(p.isBodyItalic, x => VBool(x))
    case TitleFont => Lift(p.titleFont, x => VOpt(x))
    case BodyFont => Lift(p.bodyFont, x => VOpt(x))
  }

  /** Two states are equal when they agree on every field. */
  lemma StateExtensionality(a: CoverState, b: CoverState)
    requires forall f :: Get(a, f) == Get(b, f)
    ensures a == b
  {
    var t, st, bt, sb := Get(a, Title), Get(a, Subtitle), Get(a, BodyText), Get(a, SecondaryBodyText);
    var db, ds, c, au := Get(a, DualityBodyText), Get(a, DualitySecondaryBodyText), Get(a, Category), Get(a, Author);
    var bg, ac, tc, ls := Get(a, BackgroundColor), Get(a, AccentColor), Get(a, TextColor), Get(a, LayoutStyle);
    var m, sz, al, bo := Get(a, ModeField), Get(a, BodyTextSize), Get(a, BodyTextAlign), Get(a, IsBodyBold);
    var it, tf, bf := Get(a, IsBodyItalic), Get(a, TitleFont), Get(a, BodyFont);
  }

  /** `{ ...prev, ...patch }` */
  function Merge(prev: CoverState, patch: CoverPatch): (r: CoverState)
    ensures forall f :: Get(r, f) == (if PatchGet(patch, f).Some? then PatchGet(patch, f).value else Get(prev, f))
  {
    CoverState(
      patch.title.GetOr(prev.title),
      patch.subtitle.GetOr(prev.subtitle),
      patch.bodyText.GetOr(prev.bodyText),
      patch.secondaryBodyText.GetOr(prev.secondaryBodyText),
      patch.dualityBodyText.GetOr(prev.dualityBodyText),
      patch.dualitySecondaryBodyText.GetOr(prev.dualitySecondaryBodyText),
      patch.category.GetOr(prev.category),
      patch.author.GetOr(prev.author),
      patch.backgroundColor.GetOr(prev.backgroundColor),
      patch.accentColor.GetOr(prev.accentColor),
      patch.textColor.GetOr(prev.textColor),
      patch.layoutStyle.GetOr(prev.layoutStyle),
      patch.mode.GetOr(prev.mode),
      patch.bodyTextSize.GetOr(prev.bodyTextSize),
      patch.bodyTextAlign.GetOr(prev.bodyTextAlign),
      patch.isBodyBold.GetOr(prev.isBodyBold),
      patch.isBodyItalic.GetOr(prev.isBodyItalic),
      patch.titleFont.GetOr(prev.titleFont),
      patch.bodyFont.GetOr(prev.bodyFont))
  }

  /** `{ ...p, ...q }` on two patches: the keys of `q` win. */
  function Combine(p: CoverPatch, q: CoverPatch): CoverPatch
  {
    CoverPatch(
      if q.title.Some? then q.title else p.title,
      if q.subtitle.Some? then q.subtitle else p.subtitle,
      if q.bodyText.Some? then q.bodyText else p.bodyText,
      if q.secondaryBodyText.Some? then q.secondaryBodyText else p.secondaryBodyText,
      if q.dualityBodyText.Some? then q.dualityBodyText else p.dualityBodyText,
      if q.dualitySecondaryBodyText.Some? then q.dualitySecondaryBodyText else p.dualitySecondaryBodyText,
      if q.category.Some? then q.category else p.category,
      if q.author.Some? then q.author else p.author,
      if q.backgroundColor.Some? then q.backgroundColor else p.backgroundColor,
      if q.accentColor.Some? then q.accentColor else p.accentColor,
      if q.textColor.Some? then q.textColor else p.textColor,
      if q.layoutStyle.Some? then q.layoutStyle else p.layoutStyle,
      if q.mode.Some? then q.mode else p.mode,
      if q.bodyTextSize.Some? then q.bodyTextSize else p.bodyTextSize,
      if q.bodyTextAlign.Some? then q.bodyTextAlign else p.bodyTextAlign,
      if q.isBodyBold.Some? then q.isBodyBold else p.isBodyBold,
      if q.isBodyItalic.Some? then q.isBodyItalic else p.isBodyItalic,
      if q.titleFont.Some? then q.titleFont else p.titleFont,
      if q.bodyFont.Some? then q.bodyFont else p.bodyFont)
  }

  /** A combined patch has every key of `q` with its value, and the keys of
      `p` that `q` lacks. */
  lemma CombineGet(p: CoverPatch, q: CoverPatch, f: Field)
    ensures PatchGet(Combine(p, q), f) == (if PatchGet(q, f).Some? then PatchGet(q, f) else PatchGet(p, f))
  {
  }

  /** `CombineGet` for every field at once. */
  lemma CombineGetAll(p: CoverPatch, q: CoverPatch)
    ensures forall f :: PatchGet(Combine(p, q), f) == (if PatchGet(q, f).Some? then PatchGet(q, f) else PatchGet(p, f))
  {
    forall f ensures PatchGet(Combine(p, q), f) == (if PatchGet(q, f).Some? then PatchGet(q, f) else PatchGet(p, f)) {
      CombineGet(p, q, f);
    }
  }

  /** Merging the empty patch changes nothing. */
  lemma MergeEmpty(s: CoverState)
    ensures Merge(s, EmptyPatch) == s
  {
    forall f ensures Get(Merge(s, EmptyPatch), f) == Get(s, f) {
      assert PatchGet(EmptyPatch, f) == None;
    }
    StateExtensionality(Merge(s, EmptyPatch), s);
  }

  /** Applying the same patch twice is applying it once. */
  lemma MergeIdempotent(s: CoverState, p: CoverPatch)
    ensures Merge(Merge(s, p), p) == Merge(s, p)
  {
    StateExtensionality(Merge(Merge(s, p), p), Merge(s, p));
  }

  /** Two successive merges are one merge of the combined patch. */
  lemma MergeCombine(s: CoverState, p: CoverPatch, q: CoverPatch)
    ensures Merge(Merge(s, p), q) == Merge(s, Combine(p, q))
  {
    var a, b := Merge(Merge(s, p), q), Merge(s, Combine(p, q));
    assert a.title == b.title && a.subtitle == b.subtitle && a.bodyText == b.bodyText;
  }

  datatype ContentPreset = ContentPreset(
    id: string,
    name: string,
    title: string,
    subtitle: string,
    bodyText: string,
    secondaryBodyText: Option<string>,
    dualityBodyText: Option<string>,
    dualitySecondaryBodyText: Option<string>,
    category: string,
    author: string)

  datatype Align = AlignLeft | AlignCenter | AlignRight | AlignJustify

  /** A `fontSize` of 0 is falsy in every test the components make on it. */
  datatype FormattingStyles = FormattingStyles(
    color: Option<string>,
    fontSize: Option<int>,
    isBold: Option<bool>,
    isItalic: Option<bool>,
    textAlign: Option<Align>)

  const NoFormatting := FormattingStyles(None, None, None, None, None)

  datatype Scope = MatchScope | ParagraphScope

  datatype TransformationRule = TransformationRule(
    id: string,
    name: string,
    pattern: string,
    formatting: FormattingStyles,
    scope: Scope,
    multiAlignRow: bool,
    separator: Option<string>,
    isActive: bool)

  datatype AdvancedPreset = AdvancedPreset(
    id: string,
    name: string,
    includeStyle: bool,
    includeContent: bool,
    coverState: CoverPatch,
    rules: seq<TransformationRule>)
}

=== FILE: dom.dfy ===
/** The trailing-blank cleaner of `components/nativeExport.ts`.

    The DOM is an algebraic tree: a text node, an element (lower-case tag
    name, inline style declarations, children) or any other node kind
    (comments, processing instructions). The cleaner removes, from the end of
    the document only, every node that draws nothing, descending into the last
    element that does draw something; nothing before that point changes. */
module Dom {
  import opened Strings

  /** Inline style declarations of an element, property name to value.
      A property that is not set reads as the empty string, as `el.style.x` does. */
  type Style = map<string, string>

  function StyleValue(st: Style, prop: string): string {
    if prop in st then st[prop] else ""
  }

  datatype Node =
    | Text(content: string)
    | Elem(tag: string, style: Style, children: seq<Node>)
    | Other

  /** Elements that always draw something, whatever their children. */
  const MediaTags: set<string> := {"img", "hr", "input", "video", "canvas", "svg"}

  /** An inline background image, or a height other than `0px`, may draw something. */
  predicate HasVisualStyle(st: Style) {
    StyleValue(st, "background-image") != ""
    || (StyleValue(st, "height") != "" && StyleValue(st, "height") != "0px")
  }

  /** `isVisuallyEmpty`: the node produces no visible content. A text node is
      empty exactly when every character is whitespace: mapping U+00A0 to a
      space first changes nothing, since `trim` removes U+00A0 already. */
  predicate IsVisuallyEmpty(n: Node)
    ensures n.Text? ==> (IsVisuallyEmpty(n) <==> IsBlank(n.content))
    ensures n.Other? ==> IsVisuallyEmpty(n)
  {
    match n
    case Text(s) =>
      var m := ReplaceNbsp(s);
      TrimEmptyIffBlank(m);
      assert IsBlank(m) <==> IsBlank(s) by {
        forall k | 0 <= k < |s| ensures IsWhitespace(m[k]) <==> IsWhitespace(s[k]) { }
      }
      Trim(m) == ""
    case Elem(tag, st, ch) =>
      if tag == "br" then true
      else if tag in MediaTags then false
      else if HasVisualStyle(st) then false
      else if |ch| == 0 then true
      else forall i :: 0 <= i < |ch| ==> IsVisuallyEmpty(ch[i])
    case Other => true
  }

  /** The text the editor reads off a top-level node: the rendered text of an
      element, the content of a text node, nothing for any other node. */
  function TopLevelText(n: Node, innerText: Node -> string): string {
    match n
    case Elem(_, _, _) => innerText(n)
    case Text(s) => s
    case Other => ""
  }

  predicate AllVisuallyEmpty(cs: seq<Node>) {
    forall i :: 0 <= i < |cs| ==> IsVisuallyEmpty(cs[i])
  }

  /** `removeTrailingEmpty`, on the child list of the parent: pop visually empty
      nodes off the end; at the first node that is not empty, trim the inside of
      an element and drop it if that left it empty, otherwise stop. */
  function RemoveTrailingEmpty(cs: seq<Node>): (r: seq<Node>)
    ensures |r| <= |cs|
    ensures |r| > 0 ==> r[..|r| - 1] == cs[..|r| - 1]
    decreases cs
  {
    if |cs| == 0 then []
    else
      var last := cs[|cs| - 1];
      if IsVisuallyEmpty(last) then RemoveTrailingEmpty(cs[..|cs| - 1])
      else match last
        case Elem(tag, st, ch) =>
          var trimmed := Elem(tag, st, RemoveTrailingEmpty(ch));
          if IsVisuallyEmpty(trimmed) then RemoveTrailingEmpty(cs[..|cs| - 1])
          else cs[..|cs| - 1] + [trimmed]
        case _ => cs
  }

  /** What the cleaner does to the node it stops at. */
  function TrimInside(n: Node): Node {
    match n
    case Elem(tag, st, ch) => Elem(tag, st, RemoveTrailingEmpty(ch))
    case _ => n
  }

  /** The stop condition of the cleaner, along the whole right spine: the last
      node is not visually empty and, if it is an element, its own child list
      is settled too. */
  predicate Settled(cs: seq<Node>)
    decreases cs
  {
    |cs| == 0 ||
    (!IsVisuallyEmpty(cs[|cs| - 1]) &&
     (cs[|cs| - 1].Elem? ==> Settled(cs[|cs| - 1].children)))
  }

  /** `res` differs from `orig` only in a dropped suffix and along the right
      spine: every earlier sibling is unchanged, and the last kept node is
      either unchanged or the same element (tag and style) whose child list
      differs in the same way. */
  predicate SuffixFrame(orig: seq<Node>, res: seq<Node>)
    decreases orig
  {
    |res| <= |orig| &&
    (|res| > 0 ==>
      var k := |res| - 1;
      res[..k] == orig[..k] &&
      (res[k] == orig[k] ||
       (orig[k].Elem? && res[k].Elem? && res[k].tag == orig[k].tag && res[k].style == orig[k].style
        && SuffixFrame(orig[k].children, res[k].children))))
  }

  /** `getCleanContent`: an empty string is returned as is; otherwise the
      fragment is parsed, cleaned and serialised. Parsing and serialisation
      are the browser's (`innerHTML`) and are passed in. */
  function GetCleanContent(html: string, parse: string -> seq<Node>, serialize: seq<Node> -> string): (r: string)
    ensures html == "" ==> r == ""
    ensures html != "" ==>
      exists t :: r == serialize(t) && Outcome(parse(html), t) && Settled(t) && SuffixFrame(parse(html), t)
  {
    if html == "" then ""
    else
      var t := RemoveTrailingEmpty(parse(html));
      RemoveTrailingEmptySpec(parse(html));
      CleanIsSettledAndFramed(parse(html));
      serialize(t)
  }

  // ---------------------------------------------------------------------------
  // Emptiness

  /** Emptiness of elements, case by case. */
  lemma ElementEmptiness(tag: string, st: Style, ch: seq<Node>)
    ensures tag == "br" ==> IsVisuallyEmpty(Elem(tag, st, ch))
    ensures tag in MediaTags ==> !IsVisuallyEmpty(Elem(tag, st, ch))
    ensures tag != "br" && HasVisualStyle(st) ==> !IsVisuallyEmpty(Elem(tag, st, ch))
    ensures tag != "br" && tag !in MediaTags && !HasVisualStyle(st) ==> (IsVisuallyEmpty(Elem(tag, st, ch)) <==> AllVisuallyEmpty(ch))
  {
  }

  /** Something that draws by itself: a non-blank text, a media element, or an
      element whose inline style may paint. */
  predicate IsAnchor(n: Node) {
    match n
    case Text(s) => !IsBlank(s)
    case Elem(tag, st, _) => tag != "br" && (tag in MediaTags || HasVisualStyle(st))
    case Other => false
  }

  /** Following the child indices of `path` down from `n`, through plain
      elements only, reaches an anchor. */
  predicate ShowsAlong(n: Node, path: seq<nat>)
    decreases |path|
  {
    if path == [] then IsAnchor(n)
    else
      n.Elem? && n.tag != "br" && n.tag !in MediaTags && !HasVisualStyle(n.style)
      && path[0] < |n.children| && ShowsAlong(n.children[path[0]], path[1..])
  }

  lemma {:induction false} NoPathFromEmpty(n: Node, path: seq<nat>)
    requires IsVisuallyEmpty(n)
    ensures !ShowsAlong(n, path)
    decreases |path|
  {
    if path == [] {
    } else if ShowsAlong(n, path) {
      NoPathFromEmpty(n.children[path[0]], path[1..]);
    }
  }

  lemma {:induction false} PathFromNonEmpty(n: Node) returns (path: seq<nat>)
    requires !IsVisuallyEmpty(n)
    ensures ShowsAlong(n, path)
  {
    match n
    case Text(s) =>
      path := [];
    case Elem(tag, st, ch) =>
      if tag in MediaTags || HasVisualStyle(st) {
        path := [];
      } else {
        var i :| 0 <= i < |ch| && !IsVisuallyEmpty(ch[i]);
        var rest := PathFromNonEmpty(ch[i]);
        path := [i] + rest;
        assert path[1..] == rest;
      }
  }

  lemma {:induction false} EmptyHasNoPath(n: Node)
    requires IsVisuallyEmpty(n)
    ensures forall path :: !ShowsAlong(n, path)
  {
    forall path ensures !ShowsAlong(n, path) { NoPathFromEmpty(n, path); }
  }

  lemma {:induction false} NonEmptyHasPath(n: Node)
    requires !IsVisuallyEmpty(n)
    ensures exists path :: ShowsAlong(n, path)
  {
    var path := PathFromNonEmpty(n);
  }

  /** Reference definition: a node is visually empty exactly when no anchor can
      be reached from it through plain (non-`br`, non-media, unstyled) elements. */
  lemma {:induction false} EmptyIffNoVisiblePath(n: Node)
    ensures IsVisuallyEmpty(n) <==> forall path :: !ShowsAlong(n, path)
  {
    if IsVisuallyEmpty(n) {
      EmptyHasNoPath(n);
    } else {
      NonEmptyHasPath(n);
    }
  }

  // ---------------------------------------------------------------------------
  // The cleaner

  /** The outcome of cleaning `cs` into `r`: a suffix of visually empty nodes
      is dropped, the last kept node was not visually empty and has been
      trimmed inside, and every earlier sibling is untouched. */
  predicate Outcome(cs: seq<Node>, r: seq<Node>) {
    && |r| <= |cs|
    && (forall i :: |r| <= i < |cs| ==> IsVisuallyEmpty(cs[i]))
    && (|r| > 0 ==> !IsVisuallyEmpty(cs[|r| - 1])
                    && r[..|r| - 1] == cs[..|r| - 1]
                    && r[|r| - 1] == TrimInside(cs[|r| - 1]))
  }

  /** Exact outcome of the cleaner, and its stop condition. In particular a
      node that was not empty never becomes empty by trimming, so the second
      removal of the source never fires. */
  lemma {:induction false} RemoveTrailingEmptySpec(cs: seq<Node>)
    ensures Outcome(cs, RemoveTrailingEmpty(cs))
    ensures Settled(RemoveTrailingEmpty(cs))
    decreases cs
  {
    if |cs| > 0 {
      var init := cs[..|cs| - 1];
      var last := cs[|cs| - 1];
      if IsVisuallyEmpty(last) {
        RemoveTrailingEmptySpec(init);
        StepEmptyLast(cs);
      } else if last.Elem? {
        RemoveTrailingEmptySpec(last.children);
        StepElementLast(cs);
      } else {
        assert RemoveTrailingEmpty(cs) == cs;
      }
    }
  }

  lemma StepEmptyLast(cs: seq<Node>)
    requires |cs| > 0 && IsVisuallyEmpty(cs[|cs| - 1])
    requires Outcome(cs[..|cs| - 1], RemoveTrailingEmpty(cs[..|cs| - 1]))
    requires Settled(RemoveTrailingEmpty(cs[..|cs| - 1]))
    ensures Outcome(cs, RemoveTrailingEmpty(cs))
    ensures Settled(RemoveTrailingEmpty(cs))
  {
    var r := RemoveTrailingEmpty(cs[..|cs| - 1]);
    assert RemoveTrailingEmpty(cs) == r;
    DropEmptyLastRemoved(cs, cs[..|cs| - 1], r);
    DropEmptyLastKept(cs, r);
  }

  lemma StepElementLast(cs: seq<Node>)
    requires |cs| > 0 && cs[|cs| - 1].Elem? && !IsVisuallyEmpty(cs[|cs| - 1])
    requires Outcome(cs[|cs| - 1].children, RemoveTrailingEmpty(cs[|cs| - 1].children))
    requires Settled(RemoveTrailingEmpty(cs[|cs| - 1].children))
    ensures Outcome(cs, RemoveTrailingEmpty(cs))
    ensures Settled(RemoveTrailingEmpty(cs))
  {
    var last := cs[|cs| - 1];
    StaysNonEmpty(last.tag, last.style, last.children, RemoveTrailingEmpty(last.children));
    KeepTrimmedLast(cs);
  }

  /** Induction step of the cleaner's outcome when the last node is empty:
      what was removed. */
  lemma DropEmptyLastRemoved(cs: seq<Node>, init: seq<Node>, r: seq<Node>)
    requires |cs| > 0 && IsVisuallyEmpty(cs[|cs| - 1]) && init == cs[..|cs| - 1]
    requires |r| <= |init|
    requires forall i :: |r| <= i < |init| ==> IsVisuallyEmpty(init[i])
    ensures forall i :: |r| <= i < |cs| ==> IsVisuallyEmpty(cs[i])
  {
    forall i | |r| <= i < |cs| ensures IsVisuallyEmpty(cs[i]) {
      if i < |cs| - 1 { assert cs[i] == init[i]; }
    }
  }

  /** Induction step of the cleaner's outcome when the last node is empty:
      what was kept. */
  lemma DropEmptyLastKept(cs: seq<Node>, r: seq<Node>)
    requires |cs| > 0
    requires var init := cs[..|cs| - 1];
      && |r| <= |init|
      && (|r| > 0 ==> !IsVisuallyEmpty(init[|r| - 1])
                      && r[..|r| - 1] == init[..|r| - 1]
                      && r[|r| - 1] == TrimInside(init[|r| - 1]))
    ensures |r| > 0 ==> !IsVisuallyEmpty(cs[|r| - 1])
                        && r[..|r| - 1] == cs[..|r| - 1]
                        && r[|r| - 1] == TrimInside(cs[|r| - 1])
  {
    if |r| > 0 {
      InitPrefix(cs, |r| - 1);
    }
  }

  /** Indexing and slicing `s` below its last element agree with `s` itself. */
  lemma InitPrefix<T>(s: seq<T>, k: nat)
    requires k < |s| - 1
    ensures s[..|s| - 1][..k] == s[..k]
    ensures s[..|s| - 1][k] == s[k]
  {
  }

  /** Induction step of the cleaner's outcome when the last node is a
      non-empty element that stays non-empty after trimming. */
  lemma KeepTrimmedLast(cs: seq<Node>)
    requires |cs| > 0 && cs[|cs| - 1].Elem? && !IsVisuallyEmpty(cs[|cs| - 1])
    requires !IsVisuallyEmpty(TrimInside(cs[|cs| - 1]))
    requires Settled(RemoveTrailingEmpty(cs[|cs| - 1].children))
    ensures var r := RemoveTrailingEmpty(cs);
      && |r| == |cs|
      && r[..|r| - 1] == cs[..|r| - 1]
      && r[|r| - 1] == TrimInside(cs[|r| - 1])
      && Settled(r)
  {
    var last := cs[|cs| - 1];
    var r := RemoveTrailingEmpty(cs);
    assert r == cs[..|cs| - 1] + [TrimInside(last)];
    assert r[..|r| - 1] == cs[..|cs| - 1];
  }

  /** An element that drew something still does once its child list has been
      cut back to a settled prefix-and-spine of the original. */
  lemma StaysNonEmpty(tag: string, st: Style, ch: seq<Node>, r: seq<Node>)
    requires !IsVisuallyEmpty(Elem(tag, st, ch))
    requires |r| <= |ch|
    requires forall i :: |r| <= i < |ch| ==> IsVisuallyEmpty(ch[i])
    requires |r| > 0 ==> !IsVisuallyEmpty(r[|r| - 1])
    ensures !IsVisuallyEmpty(Elem(tag, st, r))
  {
  }

  /** A node that draws something still does after its inside is trimmed. */
  lemma TrimKeepsNonEmpty(n: Node)
    requires n.Elem? && !IsVisuallyEmpty(n)
    ensures !IsVisuallyEmpty(TrimInside(n))
  {
    RemoveTrailingEmptySpec(n.children);
    StaysNonEmpty(n.tag, n.style, n.children, RemoveTrailingEmpty(n.children));
  }

  /** The cleaner's output satisfies its stop condition and differs from the
      input only in a dropped suffix along the right spine. */
  lemma {:induction false} CleanIsSettledAndFramed(cs: seq<Node>)
    ensures Settled(RemoveTrailingEmpty(cs))
    ensures SuffixFrame(cs, RemoveTrailingEmpty(cs))
    decreases cs
  {
    RemoveTrailingEmptySpec(cs);
    var r := RemoveTrailingEmpty(cs);
    if |r| > 0 {
      var k := |r| - 1;
      if cs[k].Elem? {
        CleanIsSettledAndFramed(cs[k].children);
      }
    }
  }

  /** A settled child list is left exactly as it is. */
  lemma {:induction false} SettledIsFixpoint(cs: seq<Node>)
    requires Settled(cs)
    ensures RemoveTrailingEmpty(cs) == cs
    decreases cs
  {
    if |cs| > 0 {
      var last := cs[|cs| - 1];
      if last.Elem? {
        SettledIsFixpoint(last.children);
        assert Elem(last.tag, last.style, last.children) == last;
        assert cs[..|cs| - 1] + [last] == cs;
      }
    }
  }

  /** Cleaning twice is cleaning once. */
  lemma CleanIdempotent(cs: seq<Node>)
    ensures RemoveTrailingEmpty(RemoveTrailingEmpty(cs)) == RemoveTrailingEmpty(cs)
  {
    CleanIsSettledAndFramed(cs);
    SettledIsFixpoint(RemoveTrailingEmpty(cs));
  }

  /** The outcome pins the result down: two results with the outcome of
      cleaning the same list are equal. */
  lemma OutcomeUnique(cs: seq<Node>, r1: seq<Node>, r2: seq<Node>)
    requires Outcome(cs, r1) && Outcome(cs, r2)
    ensures r1 == r2
  {
    if |r1| == |r2| && |r1| > 0 {
      assert r1 == r1[..|r1| - 1] + [r1[|r1| - 1]];
      assert r2 == r2[..|r2| - 1] + [r2[|r2| - 1]];
    }
  }

  /** A media element among the top-level nodes is never removed; it keeps its
      position and its tag. */
  lemma MediaSurvives(cs: seq<Node>, i: nat)
    requires i < |cs| && cs[i].Elem? && cs[i].tag in MediaTags
    ensures i < |RemoveTrailingEmpty(cs)|
    ensures RemoveTrailingEmpty(cs)[i].Elem? && RemoveTrailingEmpty(cs)[i].tag == cs[i].tag
  {
    var r := RemoveTrailingEmpty(cs);
    RemoveTrailingEmptySpec(cs);
    MediaNonEmpty(cs[i]);
    OutcomeKeeps(cs, r, i);
    TrimKeepsTag(cs[i]);
  }

  /** Following the child indices of `path` down from the list `cs`, through
      elements other than `br`, reaches a media element. */
  predicate MediaAt(cs: seq<Node>, path: seq<nat>)
    decreases |path|
  {
    && |path| > 0 && path[0] < |cs|
    && cs[path[0]].Elem? && cs[path[0]].tag != "br"
    && (if |path| == 1 then cs[path[0]].tag in MediaTags
        else MediaAt(cs[path[0]].children, path[1..]))
  }

  /** Every element on the way down to a media element draws something. */
  lemma {:induction false} MediaAtNonEmpty(cs: seq<Node>, path: seq<nat>)
    requires MediaAt(cs, path)
    ensures !IsVisuallyEmpty(cs[path[0]])
    decreases |path|
  {
    if |path| > 1 {
      var n := cs[path[0]];
      MediaAtNonEmpty(n.children, path[1..]);
      ElementEmptiness(n.tag, n.style, n.children);
    }
  }

  /** A media element at any depth, with no `br` element above it, is never
      removed: it is found at the same path after cleaning. */
  lemma {:induction false} NestedMediaSurvives(cs: seq<Node>, path: seq<nat>)
    requires MediaAt(cs, path)
    ensures MediaAt(RemoveTrailingEmpty(cs), path)
    decreases |path|
  {
    var r := RemoveTrailingEmpty(cs);
    var i := path[0];
    RemoveTrailingEmptySpec(cs);
    MediaAtNonEmpty(cs, path);
    OutcomeKeeps(cs, r, i);
    if r[i] != cs[i] && |path| > 1 {
      NestedMediaSurvives(cs[i].children, path[1..]);
    }
  }

  /** A media element always draws something. */
  lemma MediaNonEmpty(n: Node)
    requires n.Elem? && n.tag in MediaTags
    ensures !IsVisuallyEmpty(n)
  {
  }

  /** Trimming inside an element keeps its tag. */
  lemma TrimKeepsTag(n: Node)
    requires n.Elem?
    ensures TrimInside(n).Elem? && TrimInside(n).tag == n.tag
  {
  }

  /** A node that draws something is kept by an outcome, either untouched or
      trimmed inside. */
  lemma OutcomeKeeps(cs: seq<Node>, r: seq<Node>, i: nat)
    requires Outcome(cs, r)
    requires i < |cs| && !IsVisuallyEmpty(cs[i])
    ensures i < |r|
    ensures r[i] == cs[i] || r[i] == TrimInside(cs[i])
  {
    if i < |r| - 1 {
      assert r[i] == r[..|r| - 1][i] == cs[..|r| - 1][i];
    }
  }

  /** The cleaned list is empty exactly when every node was visually empty. */
  lemma CleanEmptyIffAllEmpty(cs: seq<Node>)
    ensures RemoveTrailingEmpty(cs) == [] <==> AllVisuallyEmpty(cs)
  {
    RemoveTrailingEmptySpec(cs);
  }
}

=== FILE: editor_controls.dfy ===
/** The editing panels of `components/EditorControls.tsx`: the drafts list,
    the export file name, the paragraph search with its selection, and the two
    batch operations on the selected paragraphs.

    The body is given as its parsed top-level nodes. The regular-expression
    engine (compiling a pattern, testing it case-insensitively, replacing its
    matches inside a node) is a parameter. */
module EditorControls {
  import opened Options
  import opened Strings
  import opened Lists
  import opened Cover
  import opened Dom

  // ---------------------------------------------------------------------------
  // Drafts list

  const PresetColors: seq<string> := ["bg-rose-300", "bg-blue-300", "bg-amber-300", "bg-emerald-300", "bg-purple-300"]

  /** `getPresetColor`: the colour tags cycle through the list. */
  function PresetColor(index: nat): (r: string)
    ensures r in PresetColors
  {
    PresetColors[index % |PresetColors|]
  }

  /** The colours repeat every five drafts, and two neighbouring drafts never
      share a colour. */
  lemma PresetColorCycle(index: nat)
    ensures PresetColor(index + 5) == PresetColor(index)
    ensures PresetColor(index + 1) != PresetColor(index)
  {
    var r := index % 5;
    assert index == 5 * (index / 5) + r;
    assert (index + 5) % 5 == r;
    assert (index + 1) % 5 == (if r == 4 then 0 else r + 1);
  }

  const Ellipsis := "……"

  /** `formatDraftTitle`: a title of more than six characters shows its first
      four and an ellipsis. */
  function FormatDraftTitle(title: string): (r: string)
    ensures |r| <= 6
    ensures r == title <==> |title| <= 6
    ensures |r| >= Min(4, |title|) && r[..Min(4, |title|)] == title[..Min(4, |title|)]
    ensures |title| > 6 ==> |r| == 6 && r[4..] == Ellipsis
  {
    if |title| > 6 then title[..4] + Ellipsis else title
  }

  /** A shortened title is not shortened again. */
  lemma FormatDraftTitleIdempotent(title: string)
    ensures FormatDraftTitle(FormatDraftTitle(title)) == FormatDraftTitle(title)
  {
  }

  // ---------------------------------------------------------------------------
  // Export file name

  /** Characters a file name may not hold. */
  const FilenameForbidden: set<char> := {'\\', '/', ':', '*', '?', '"', '<', '>', '|'}

  const UntitledTitle := "无标题"

  function ModePrefix(mode: Mode): string {
    match mode
    case CoverMode => "封面"
    case LongText => "长文"
  }

  /** The export file name: the mode's prefix, the title (or a placeholder
      when empty), and the trimmed author name when anything of it is left,
      each with the forbidden characters removed. */
  function ExportFilename(mode: Mode, title: string, characterName: string): (r: string)
    ensures forall c :: c in r ==> c !in FilenameForbidden
    ensures ModePrefix(mode) + "-" <= r
  {
    var t := RemoveChars(Or(title, UntitledTitle), FilenameForbidden);
    var safe := RemoveChars(Trim(characterName), FilenameForbidden);
    ModePrefix(mode) + "-" + t + (if safe != "" then "-" + safe else "")
  }

  /** The name suffix is left off exactly when the trimmed name holds nothing
      but forbidden characters. */
  lemma ExportFilenameSuffix(mode: Mode, title: string, characterName: string)
    ensures var base := ModePrefix(mode) + "-" + RemoveChars(Or(title, UntitledTitle), FilenameForbidden);
      ExportFilename(mode, title, characterName) == base
      <==> forall c :: c in Trim(characterName) ==> c in FilenameForbidden
  {
    var base := ModePrefix(mode) + "-" + RemoveChars(Or(title, UntitledTitle), FilenameForbidden);
    var safe := RemoveChars(Trim(characterName), FilenameForbidden);
    RemoveCharsEmptyIff(Trim(characterName), FilenameForbidden);
    if safe != "" {
      assert |ExportFilename(mode, title, characterName)| == |base| + 1 + |safe|;
    }
  }

  /** A non-empty title and a non-blank name that hold no forbidden character
      appear verbatim. */
  lemma ExportFilenameClean(mode: Mode, title: string, characterName: string)
    requires title != "" && Trim(characterName) != ""
    requires forall c :: c in title ==> c !in FilenameForbidden
    requires forall c :: c in Trim(characterName) ==> c !in FilenameForbidden
    ensures ExportFilename(mode, title, characterName) == ModePrefix(mode) + "-" + title + "-" + Trim(characterName)
  {
    RemoveCharsClean(title, FilenameForbidden);
    RemoveCharsClean(Trim(characterName), FilenameForbidden);
  }

  /** An empty title and a blank name give the placeholder alone. */
  lemma ExportFilenameUntitled(mode: Mode, title: string, characterName: string)
    requires title == "" && IsBlank(characterName)
    ensures ExportFilename(mode, title, characterName) == ModePrefix(mode) + "-" + UntitledTitle
  {
    TrimEmptyIffBlank(characterName);
    RemoveCharsClean(UntitledTitle, FilenameForbidden);
  }

  // ---------------------------------------------------------------------------
  // Search and selection

  /** A top-level node of the body, by position, with its trimmed text. */
  datatype Paragraph = Paragraph(index: nat, text: string)

  /** `allParagraphs`: one entry per top-level node. */
  function AllParagraphs(nodes: seq<Node>, innerText: Node -> string): (ps: seq<Paragraph>)
    ensures |ps| == |nodes|
    ensures forall i :: 0 <= i < |nodes| ==> ps[i].index == i && ps[i].text == Trim(TopLevelText(nodes[i], innerText))
  {
    seq(|nodes|, i requires 0 <= i < |nodes| => Paragraph(i, Trim(TopLevelText(nodes[i], innerText))))
  }

  /** The pattern engine of the search box: whether a pattern compiles, and a
      case-insensitive test of a pattern against a text. */
  datatype Matcher = Matcher(compiles: string -> bool, test: (string, string) -> bool)

  /** The query occurs in the text at `i`, ignoring the case of letters. */
  predicate OccursAt(text: string, query: string, i: int) {
    0 <= i <= |text| - |query| && ToLower(text[i..i + |query|]) == ToLower(query)
  }

  /** At one position, the lower-cased query starts the lower-cased rest of
      the text exactly when the query occurs there ignoring case. */
  lemma LowerPrefixAt(text: string, query: string, i: int)
    requires 0 <= i <= |text|
    ensures ToLower(query) <= ToLower(text)[i..] <==> OccursAt(text, query, i)
  {
    var lt, lq := ToLower(text), ToLower(query);
    if i <= |text| - |query| {
      var w := ToLower(text[i..i + |query|]);
      assert |w| == |lq|;
      forall k | 0 <= k < |lq|
        ensures w[k] == lt[i..][k]
      {
        assert text[i..i + |query|][k] == text[i + k];
      }
      assert w == lt[i..][..|lq|];
    }
  }

  /** The lower-cased query is in the lower-cased text exactly when the query
      occurs somewhere in the text, ignoring case. */
  lemma ContainsLowerIff(text: string, query: string)
    ensures Contains(ToLower(text), ToLower(query)) <==> exists i :: OccursAt(text, query, i)
  {
    var lt, lq := ToLower(text), ToLower(query);
    if Contains(lt, lq) {
      var i :| 0 <= i <= |lt| && lq <= lt[i..];
      LowerPrefixAt(text, query, i);
    }
    if i :| OccursAt(text, query, i) {
      LowerPrefixAt(text, query, i);
    }
  }

  /** A text answers the query: by the pattern in pattern mode when it
      compiles, otherwise by a case-insensitive substring test. */
  predicate Hit(text: string, query: string, regexMode: bool, m: Matcher)
    ensures regexMode && m.compiles(query) ==> (Hit(text, query, regexMode, m) <==> m.test(query, text))
    ensures !(regexMode && m.compiles(query)) ==> (Hit(text, query, regexMode, m) <==> exists i :: OccursAt(text, query, i))
  {
    ContainsLowerIff(text, query);
    if regexMode && m.compiles(query) then m.test(query, text)
    else Contains(ToLower(text), ToLower(query))
  }

  /** `matches`: nothing for a blank query, otherwise the paragraphs whose text
      answers it, in order. */
  function Matches(ps: seq<Paragraph>, query: string, regexMode: bool, m: Matcher): (r: seq<Paragraph>)
    ensures IsBlank(query) ==> r == []
    ensures forall i :: 0 <= i < |r| ==> r[i] in ps
    ensures forall i :: 0 <= i < |ps| ==> (ps[i] in r <==> !IsBlank(query) && Hit(ps[i].text, query, regexMode, m))
  {
    TrimEmptyIffBlank(query);
    if Trim(query) == "" then [] else Filter(ps, (p: Paragraph) => Hit(p.text, query, regexMode, m))
  }

  /** A pattern that does not compile searches as plain text. */
  lemma InvalidPatternSearchesPlain(ps: seq<Paragraph>, query: string, m: Matcher)
    requires !m.compiles(query)
    ensures Matches(ps, query, true, m) == Matches(ps, query, false, m)
  {
    FilterAgree(ps, (p: Paragraph) => Hit(p.text, query, true, m), (p: Paragraph) => Hit(p.text, query, false, m));
  }

  /** The selection that follows the search: cleared for a blank query,
      otherwise the positions of all matches. */
  function Selection(ms: seq<Paragraph>, query: string): (sel: set<nat>)
    ensures IsBlank(query) ==> sel == {}
    ensures forall k :: 0 <= k < |ms| && !IsBlank(query) ==> ms[k].index in sel
  {
    TrimEmptyIffBlank(query);
    if Trim(query) == "" then {} else set k | 0 <= k < |ms| :: ms[k].index
  }

  /** After a search, a node is selected exactly when the query is not blank
      and the node's trimmed text answers it. */
  lemma SelectionOfSearch(nodes: seq<Node>, innerText: Node -> string, query: string, regexMode: bool, m: Matcher, i: nat)
    ensures var ps := AllParagraphs(nodes, innerText);
      i in Selection(Matches(ps, query, regexMode, m), query)
      <==> i < |nodes| && !IsBlank(query) && Hit(Trim(TopLevelText(nodes[i], innerText)), query, regexMode, m)
  {
    var ps := AllParagraphs(nodes, innerText);
    var ms := Matches(ps, query, regexMode, m);
    TrimEmptyIffBlank(query);
    if i in Selection(ms, query) {
      var k :| 0 <= k < |ms| && ms[k].index == i;
      assert ms[k] in ps;
      var j :| 0 <= j < |ps| && ps[j] == ms[k];
      assert j == i;
    }
    if i < |nodes| && !IsBlank(query) && Hit(Trim(TopLevelText(nodes[i], innerText)), query, regexMode, m) {
      assert ps[i] in ms;
      var k :| 0 <= k < |ms| && ms[k] == ps[i];
      assert ms[k].index == i;
    }
  }

  /** The checkbox of one match: flips that position's membership only. */
  function ToggleIndex(sel: set<nat>, i: nat): (r: set<nat>)
    ensures (i in r) != (i in sel)
    ensures forall j :: j != i ==> (j in r <==> j in sel)
  {
    if i in sel then sel - {i} else sel + {i}
  }

  /** Ticking a box twice changes nothing. */
  lemma ToggleTwice(sel: set<nat>, i: nat)
    ensures ToggleIndex(ToggleIndex(sel, i), i) == sel
  {
  }

  // ---------------------------------------------------------------------------
  // Batch alignment

  /** What a batch operation ends in: returning early without writing, an
      exception thrown before anything is written, or the new body. */
  datatype Effect = Unchanged | Thrown | Written(nodes: seq<Node>)

  /** A selected node after alignment: a text node is wrapped in a `div`, an
      element has its alignment set, any other node is left alone. */
  function Aligned(n: Node, alignment: string): Node {
    match n
    case Text(_) => Elem("div", map["text-align" := alignment], [n])
    case Elem(tag, st, ch) => Elem(tag, st["text-align" := alignment], ch)
    case Other => Other
  }

  /** `applyBatchAlign` as written: any node that is neither text nor element
      (a comment) is treated as an element, and setting its style throws. */
  function BatchAlignAsWritten(nodes: seq<Node>, sel: set<nat>, alignment: string): (r: Effect)
    ensures r == Unchanged <==> sel == {}
    ensures r == Thrown <==> sel != {} && exists i :: 0 <= i < |nodes| && i in sel && nodes[i].Other?
  {
    if sel == {} then Unchanged
    else if exists i :: 0 <= i < |nodes| && i in sel && nodes[i].Other? then Thrown
    else Written(seq(|nodes|, i requires 0 <= i < |nodes| => if i in sel then Aligned(nodes[i], alignment) else nodes[i]))
  }

  /** `applyBatchAlign` with comment nodes skipped: nothing for an empty
      selection, otherwise every selected text node or element is aligned and
      every other node is kept. */
  function BatchAlign(nodes: seq<Node>, sel: set<nat>, alignment: string): (r: Option<seq<Node>>)
    ensures r.None? <==> sel == {}
    ensures r.Some? ==> |r.value| == |nodes|
    ensures r.Some? ==> forall i :: 0 <= i < |nodes| && (i !in sel || nodes[i].Other?) ==> r.value[i] == nodes[i]
    ensures r.Some? ==> forall i :: 0 <= i < |nodes| && i in sel && nodes[i].Elem? ==>
      r.value[i] == nodes[i].(style := nodes[i].style["text-align" := alignment])
    ensures r.Some? ==> forall i :: 0 <= i < |nodes| && i in sel && nodes[i].Text? ==>
      r.value[i] == Elem("div", map["text-align" := alignment], [nodes[i]])
  {
    if sel == {} then None
    else Some(seq(|nodes|, i requires 0 <= i < |nodes| => if i in sel then Aligned(nodes[i], alignment) else nodes[i]))
  }

  /** Aligning the same selection the same way twice changes nothing more. */
  lemma BatchAlignIdempotent(nodes: seq<Node>, sel: set<nat>, alignment: string)
    requires sel != {}
    ensures BatchAlign(BatchAlign(nodes, sel, alignment).value, sel, alignment) == BatchAlign(nodes, sel, alignment)
  {
    var once := BatchAlign(nodes, sel, alignment).value;
    var twice := BatchAlign(once, sel, alignment).value;
    forall i | 0 <= i < |nodes| ensures twice[i] == once[i] {
      if i in sel && !nodes[i].Other? {
        assert once[i].style["text-align" := alignment] == once[i].style;
      }
    }
    assert twice == once;
  }

  /** Without a selected comment the code as written aligns just as the
      corrected version does. */
  lemma AsWrittenAgreesWithoutComments(nodes: seq<Node>, sel: set<nat>, alignment: string)
    requires sel != {}
    requires forall i :: 0 <= i < |nodes| && i in sel ==> !nodes[i].Other?
    ensures BatchAlignAsWritten(nodes, sel, alignment) == Written(BatchAlign(nodes, sel, alignment).value)
  {
  }

  /** A pattern engine in which every pattern compiles and matches every text. */
  function AnyCompiles(p: string): bool { true }
  function MatchesAll(p: string, t: string): bool { true }
  function TextA(n: Node): string { "a" }

  /** A query that is not blank, searched with a pattern that matches every
      text, selects every node, comments included. */
  lemma MatchAllSelectsEverything(nodes: seq<Node>, innerText: Node -> string, query: string)
    requires !IsBlank(query)
    ensures var sel := Selection(Matches(AllParagraphs(nodes, innerText), query, true, Matcher(AnyCompiles, MatchesAll)), query);
      forall i: nat :: i in sel <==> i < |nodes|
  {
    forall i: nat ensures i in Selection(Matches(AllParagraphs(nodes, innerText), query, true, Matcher(AnyCompiles, MatchesAll)), query)
                          <==> i < |nodes|
    {
      SelectionOfSearch(nodes, innerText, query, true, Matcher(AnyCompiles, MatchesAll), i);
    }
  }

  const CommentExample: seq<Node> := [Elem("p", map[], [Text("a")]), Other]

  /** Searching `.*` in pattern mode selects both nodes of a paragraph followed
      by a comment. */
  lemma MatchAllSelectsComment()
    ensures Selection(Matches(AllParagraphs(CommentExample, TextA), ".*", true, Matcher(AnyCompiles, MatchesAll)), ".*") == {0, 1}
  {
    assert !IsBlank(".*") by { assert !IsWhitespace(".*"[0]); }
    MatchAllSelectsEverything(CommentExample, TextA, ".*");
  }

  /** With the comment selected, the code as written throws and aligns
      nothing, while the corrected version aligns the paragraph. */
  lemma AsWrittenThrowsOnSelectedComment()
    ensures BatchAlignAsWritten(CommentExample, {0, 1}, "center") == Thrown
    ensures BatchAlign(CommentExample, {0, 1}, "center") == Some([Elem("p", map["text-align" := "center"], [Text("a")]), Other])
  {
    assert 1 in {0, 1} && CommentExample[1].Other?;
    var r := BatchAlign(CommentExample, {0, 1}, "center").value;
    assert r == [r[0], r[1]];
  }

  // ---------------------------------------------------------------------------
  // Batch styling

  /** A style value given and not empty. */
  predicate Given(o: Option<string>) {
    o.Some? && o.value != ""
  }

  /** `styleStr`: the colour and size declarations that are given, joined by a
      semicolon. */
  function StyleStr(color: Option<string>, fontSize: Option<string>): (r: string)
    ensures r == "" <==> !Given(color) && !Given(fontSize)
    ensures Given(color) && Given(fontSize) ==> r == "color:" + color.value + ";" + "font-size:" + fontSize.value
    ensures Given(color) && !Given(fontSize) ==> r == "color:" + color.value
    ensures !Given(color) && Given(fontSize) ==> r == "font-size:" + fontSize.value
  {
    var parts := [if Given(color) then "color:" + color.value else "",
                  if Given(fontSize) then "font-size:" + fontSize.value else ""];
    JoinNonEmptySpec(parts, ";");
    assert Given(color) ==> parts[0] != "";
    assert JoinNonEmpty(parts[1..], ";") == parts[1] by {
      assert JoinNonEmpty(parts[1..][1..], ";") == "";
    }
    JoinNonEmpty(parts, ";")
  }

  /** The pattern of the batch styling: the query, escaped in plain mode, as a
      group that must not be followed by the rest of a tag. In plain mode the
      group reads back as the query itself. */
  function StylePattern(query: string, regexMode: bool): (p: string)
    ensures |p| >= 12 && p[..1] == "(" && p[|p| - 11..] == ")(?![^<]*>)"
    ensures regexMode ==> p[1..|p| - 11] == query
    ensures !regexMode ==> LiteralOf(p[1..|p| - 11]) == Some(query)
  {
    var group := if regexMode then query else RegexEscape(query);
    var p := "(" + group + ")(?![^<]*>)";
    assert p[1..|p| - 11] == group;
    p
  }

  /** Wrapping every match of a pattern in a styled `span`: inside an element
      (its markup rewritten in place), and in a text node (the rewritten text
      parsed as the children of a new `span`). */
  datatype Highlighter = Highlighter(
    compiles: string -> bool,
    inElement: (Node, string, string) -> Node,
    inText: (string, string, string) -> seq<Node>)

  /** `applyStyleToMatches`: nothing for an empty query, an empty selection or
      a pattern that does not compile; otherwise every selected element and
      text node has its matches wrapped, and every other node is kept. */
  function ApplyStyleToMatches(nodes: seq<Node>, query: string, regexMode: bool, sel: set<nat>,
                               color: Option<string>, fontSize: Option<string>, h: Highlighter)
    : (r: Option<seq<Node>>)
    ensures r.None? <==> query == "" || sel == {} || !h.compiles(StylePattern(query, regexMode))
    ensures r.Some? ==> |r.value| == |nodes|
    ensures r.Some? ==> forall i :: 0 <= i < |nodes| && (i !in sel || nodes[i].Other?) ==> r.value[i] == nodes[i]
    ensures r.Some? ==> forall i :: 0 <= i < |nodes| && i in sel && nodes[i].Elem? ==>
      r.value[i] == h.inElement(nodes[i], StylePattern(query, regexMode), StyleStr(color, fontSize))
    ensures r.Some? ==> forall i :: 0 <= i < |nodes| && i in sel && nodes[i].Text? ==>
      r.value[i] == Elem("span", map[], h.inText(nodes[i].content, StylePattern(query, regexMode), StyleStr(color, fontSize)))
  {
    if query == "" || sel == {} then None
    else
      var pattern := StylePattern(query, regexMode);
      if !h.compiles(pattern) then None
      else
        var style := StyleStr(color, fontSize);
        Some(seq(|nodes|, i requires 0 <= i < |nodes| =>
          if i !in sel then nodes[i]
          else match nodes[i]
            case Elem(_, _, _) => h.inElement(nodes[i], pattern, style)
            case Text(s) => Elem("span", map[], h.inText(s, pattern, style))
            case Other => Other))
  }

  /** A selection made from a blank query is empty, so styling after it does
      nothing. */
  lemma BlankSearchStylesNothing(nodes: seq<Node>, innerText: Node -> string, query: string, regexMode: bool,
                                 m: Matcher, color: Option<string>, fontSize: Option<string>, h: Highlighter)
    requires IsBlank(query)
    ensures var sel := Selection(Matches(AllParagraphs(nodes, innerText), query, regexMode, m), query);
      ApplyStyleToMatches(nodes, query, regexMode, sel, color, fontSize, h).None?
  {
  }
}

=== FILE: format_text.dfy ===
/** The rule engine of `handleFormatText` in `App.tsx`: every non-blank
    top-level node of the body is given to the first active rule whose pattern
    compiles and matches its text, which turns it into a three-column row, a
    styled paragraph, or highlighted matches.

    The browser is a parameter: parsing HTML into top-level nodes, the
    rendered text of an element, compiling and testing a pattern (with the
    `gi` flags), and serialising the rewritten nodes. */
module FormatText {
  import opened Options
  import opened Strings
  import opened Lists
  import opened Cover
  import opened Dom

  datatype Browser = Browser(
    parse: string -> seq<Node>,
    innerText: Node -> string,
    compiles: string -> bool,
    test: (string, string) -> bool,
    render: (seq<Node>, seq<Action>) -> string)

  /** What happens to one top-level node. */
  datatype Action =
    | Keep
    | Row(left: string, center: string, right: string, formatting: FormattingStyles)
    | Paragraph(formatting: FormattingStyles)
    | Highlight(pattern: string, style: string)

  /** The separators of a three-column row: bar, full-width bar, tab, comma,
      full-width comma and em dash. */
  const RowSeparators: set<char> := {'|', '\U{FF5C}', '\t', ',', '\U{FF0C}', '\U{2014}'}

  /** The three columns of a row from its parts: one part goes left, two go
      left and right, three or more fill left, centre and right. */
  function ThreeColumns(parts: seq<string>): (cols: seq<string>)
    requires |parts| > 0
    ensures |cols| == 3 && cols[0] == parts[0]
    ensures |parts| <= 2 ==> cols[1] == ""
  {
    [parts[0],
     if |parts| > 2 then parts[1] else "",
     if |parts| > 2 then parts[2] else if |parts| == 2 then parts[1] else ""]
  }

  /** The non-empty columns, read left to right, are the first parts (up to
      three) in their order; nothing is duplicated or invented. */
  lemma ColumnsShowFirstParts(parts: seq<string>)
    requires |parts| > 0 && forall i :: 0 <= i < |parts| ==> parts[i] != ""
    ensures Filter(ThreeColumns(parts), c => c != "") == parts[..Min(3, |parts|)]
  {
    var cols := ThreeColumns(parts);
    var nonEmpty := (c: string) => c != "";
    assert Filter(cols[2..], nonEmpty) == Filter(cols[3..], nonEmpty) + (if cols[2] != "" then [cols[2]] else []) by {
      assert cols[2..][1..] == cols[3..];
    }
    assert cols[3..] == [];
    assert cols[1..][1..] == cols[2..];
    assert cols[1..] == cols[1..];
  }

  /** `formatting.fontSize` is truthy: present and not zero. */
  predicate HasFontSize(fmt: FormattingStyles) {
    fmt.fontSize.Some? && fmt.fontSize.value != 0
  }

  function IntToString(n: int): string {
    if n < 0 then "-" + NatToString(-n) else NatToString(n)
  }

  /** The declarations of a highlight's inline style, in order: the colour
      when it is a non-empty string, the size in pixels when truthy, the weight
      when bold is set. */
  function Declarations(fmt: FormattingStyles): seq<string> {
    (if fmt.color.Some? && fmt.color.value != "" then ["color:" + fmt.color.value] else [])
    + (if HasFontSize(fmt) then ["font-size:" + IntToString(fmt.fontSize.value) + "px"] else [])
    + (if fmt.isBold == Some(true) then ["font-weight:bold"] else [])
  }

  /** The inline style of a highlighted match: colour, size and weight, each
      only when set, joined by semicolons. */
  function MatchStyle(fmt: FormattingStyles): (r: string)
    ensures r == Join(Declarations(fmt), ";")
    ensures r == "" <==> !(fmt.color.Some? && fmt.color.value != "") && !HasFontSize(fmt) && fmt.isBold != Some(true)
  {
    var parts := [
      if fmt.color.Some? && fmt.color.value != "" then "color:" + fmt.color.value else "",
      if HasFontSize(fmt) then "font-size:" + IntToString(fmt.fontSize.value) + "px" else "",
      if fmt.isBold == Some(true) then "font-weight:bold" else ""];
    assert parts[0] == "" <==> !(fmt.color.Some? && fmt.color.value != "");
    assert parts[1] == "" <==> !HasFontSize(fmt);
    assert parts[2] == "" <==> fmt.isBold != Some(true);
    JoinNonEmptySpec(parts, ";");
    JoinNonEmptyFilters(parts, ";");
    NonEmptyOfThree(parts[0], parts[1], parts[2]);
    JoinNonEmpty(parts, ";")
  }

  /** With all three set, the style carries all three declarations. */
  lemma FullMatchStyle(color: string, size: int, italic: Option<bool>, align: Option<Align>)
    requires color != "" && size != 0
    ensures MatchStyle(FormattingStyles(Some(color), Some(size), Some(true), italic, align))
              == "color:" + color + ";" + "font-size:" + IntToString(size) + "px" + ";" + "font-weight:bold"
  {
    var size' := "font-size:" + IntToString(size) + "px";
    assert Declarations(FormattingStyles(Some(color), Some(size), Some(true), italic, align))
           == ["color:" + color, size', "font-weight:bold"];
    JoinThree("color:" + color, size', "font-weight:bold", ";");
  }

  /** A rule takes part for a text when it is active, its pattern compiles,
      and the pattern matches the text. */
  predicate Fires(rule: TransformationRule, text: string, b: Browser) {
    rule.isActive && b.compiles(rule.pattern) && b.test(rule.pattern, text)
  }

  /** The parts of a row: the text split on the row separators, trimmed, blank
      parts dropped. */
  function RowParts(text: string): seq<string> {
    TrimmedTokens(SplitOn(text, RowSeparators))
  }

  /** What a firing rule does to its node: a row rule whose text has parts
      makes a row of them; any other rule (a row rule without parts included)
      styles the paragraph or highlights the matches, as its scope says. */
  function FiredAction(rule: TransformationRule, text: string): (a: Action)
    ensures a != Keep
    ensures a.Row? <==> rule.multiAlignRow && |RowParts(text)| > 0
    ensures a.Row? ==> [a.left, a.center, a.right] == ThreeColumns(RowParts(text)) && a.formatting == rule.formatting
    ensures a.Paragraph? <==> !a.Row? && rule.scope == ParagraphScope
    ensures a.Paragraph? ==> a.formatting == rule.formatting
    ensures a.Highlight? <==> !a.Row? && rule.scope == MatchScope
    ensures a.Highlight? ==> a.pattern == rule.pattern && a.style == MatchStyle(rule.formatting)
  {
    var parts := RowParts(text);
    if rule.multiAlignRow && |parts| > 0 then
      var cols := ThreeColumns(parts);
      Row(cols[0], cols[1], cols[2], rule.formatting)
    else match rule.scope
      case ParagraphScope => Paragraph(rule.formatting)
      case MatchScope => Highlight(rule.pattern, MatchStyle(rule.formatting))
  }

  /** The loop over the rules for one text: skip rules that do not fire, stop
      at the first that does. Whatever it does comes from a rule that fires. */
  function FirstAction(rules: seq<TransformationRule>, text: string, b: Browser): (r: Action)
    ensures r != Keep ==> exists rule <- rules :: Fires(rule, text, b) && r == FiredAction(rule, text)
    decreases |rules|
  {
    if |rules| == 0 then Keep
    else if Fires(rules[0], text, b) then FiredAction(rules[0], text)
    else
      var r := FirstAction(rules[1..], text, b);
      assert forall rule <- rules[1..] :: rule in rules;
      r
  }

  /** Rule `k` is the first rule that fires on `text`. */
  predicate FirstFiring(rules: seq<TransformationRule>, text: string, b: Browser, k: int) {
    0 <= k < |rules| && Fires(rules[k], text, b) && forall j :: 0 <= j < k ==> !Fires(rules[j], text, b)
  }

  /** The loop leaves the text alone exactly when no rule fires, and otherwise
      applies the first rule that fires. */
  lemma {:induction false} FirstActionSpec(rules: seq<TransformationRule>, text: string, b: Browser)
    ensures FirstAction(rules, text, b) == Keep <==> forall i :: 0 <= i < |rules| ==> !Fires(rules[i], text, b)
    ensures forall i :: FirstFiring(rules, text, b, i) ==> FirstAction(rules, text, b) == FiredAction(rules[i], text)
  {
    if |rules| > 0 {
      FirstActionSpec(rules[1..], text, b);
      forall i | FirstFiring(rules, text, b, i)
        ensures FirstAction(rules, text, b) == FiredAction(rules[i], text)
      {
        if i > 0 {
          assert !Fires(rules[0], text, b);
          assert rules[1..][i - 1] == rules[i];
          assert forall j :: 0 <= j < i - 1 ==> rules[1..][j] == rules[j + 1];
          assert FirstFiring(rules[1..], text, b, i - 1);
        }
      }
      if !Fires(rules[0], text, b) {
        assert forall i :: 1 <= i < |rules| ==> rules[i] == rules[1..][i - 1];
      }
    }
  }

  /** The rules the loop can use: active, with a pattern that compiles. */
  function Usable(b: Browser): TransformationRule -> bool {
    (r: TransformationRule) => r.isActive && b.compiles(r.pattern)
  }

  /** A rule that is inactive or whose pattern does not compile is skipped
      without ending the loop: dropping all of them changes nothing. */
  lemma {:induction false} SkippedRulesIrrelevant(rules: seq<TransformationRule>, text: string, b: Browser)
    ensures FirstAction(Filter(rules, Usable(b)), text, b) == FirstAction(rules, text, b)
  {
    if |rules| > 0 {
      SkippedRulesIrrelevant(rules[1..], text, b);
    }
  }

  /** The text of a top-level node. */
  function NodeText(n: Node, b: Browser): string {
    TopLevelText(n, b.innerText)
  }

  /** The actions `acts` are the ones the rules decide for `nodes`, stated
      without the loop: one per node; a node is kept exactly when its text is
      blank or no rule fires on it; any other node gets the action of the
      first rule that fires on its text. */
  predicate DecidedBy(nodes: seq<Node>, rules: seq<TransformationRule>, b: Browser, acts: seq<Action>) {
    && |acts| == |nodes|
    && (forall i :: 0 <= i < |nodes| ==>
          (acts[i] == Keep <==>
             IsBlank(NodeText(nodes[i], b)) || forall k :: 0 <= k < |rules| ==> !Fires(rules[k], NodeText(nodes[i], b), b)))
    && (forall i, k :: 0 <= i < |nodes| && 0 <= k < |rules| && !IsBlank(NodeText(nodes[i], b)) && FirstFiring(rules, NodeText(nodes[i], b), b, k)
          ==> acts[i] == FiredAction(rules[k], NodeText(nodes[i], b)))
  }

  /** What happens to one top-level node: blank nodes are skipped, the others
      go through the rule loop. */
  function NodeAction(n: Node, rules: seq<TransformationRule>, b: Browser): (a: Action)
    ensures a == Keep <==> IsBlank(NodeText(n, b)) || forall k :: 0 <= k < |rules| ==> !Fires(rules[k], NodeText(n, b), b)
    ensures forall k :: !IsBlank(NodeText(n, b)) && FirstFiring(rules, NodeText(n, b), b, k) ==> a == FiredAction(rules[k], NodeText(n, b))
  {
    TrimEmptyIffBlank(NodeText(n, b));
    FirstActionSpec(rules, NodeText(n, b), b);
    if Trim(NodeText(n, b)) == "" then Keep else FirstAction(rules, NodeText(n, b), b)
  }

  /** One action per top-level node, each decided independently. */
  function Actions(nodes: seq<Node>, rules: seq<TransformationRule>, b: Browser): (acts: seq<Action>)
    ensures DecidedBy(nodes, rules, b, acts)
  {
    seq(|nodes|, i requires 0 <= i < |nodes| => NodeAction(nodes[i], rules, b))
  }

  /** The description pins the actions down: two lists decided by the same
      rules for the same nodes are equal. */
  lemma DecidedByUnique(nodes: seq<Node>, rules: seq<TransformationRule>, b: Browser, a1: seq<Action>, a2: seq<Action>)
    requires DecidedBy(nodes, rules, b, a1) && DecidedBy(nodes, rules, b, a2)
    ensures a1 == a2
  {
    forall i | 0 <= i < |nodes| ensures a1[i] == a2[i] {
      var t := NodeText(nodes[i], b);
      var k := FindIndex(rules, (r: TransformationRule) => Fires(r, t, b));
      if k >= 0 && !IsBlank(t) {
        assert FirstFiring(rules, t, b, k);
      }
    }
  }

  /** `processHtml`: an empty body is returned as it is; otherwise its nodes
      are serialised again with the actions the rules decide for them. */
  function ProcessHtml(html: string, rules: seq<TransformationRule>, b: Browser): (r: string)
    ensures html == "" ==> r == ""
    ensures html != "" ==> exists acts :: DecidedBy(b.parse(html), rules, b, acts) && r == b.render(b.parse(html), acts)
  {
    if html == "" then html else b.render(b.parse(html), Actions(b.parse(html), rules, b))
  }

  /** Inactive rules and rules whose pattern does not compile can be dropped
      from the list without changing the result. */
  lemma ProcessHtmlIgnoresSkipped(html: string, rules: seq<TransformationRule>, b: Browser)
    ensures ProcessHtml(html, Filter(rules, Usable(b)), b) == ProcessHtml(html, rules, b)
  {
    if html != "" {
      var nodes := b.parse(html);
      forall i | 0 <= i < |nodes|
        ensures NodeAction(nodes[i], Filter(rules, Usable(b)), b) == NodeAction(nodes[i], rules, b)
      {
        SkippedRulesIrrelevant(rules, NodeText(nodes[i], b), b);
      }
      assert Actions(nodes, Filter(rules, Usable(b)), b) == Actions(nodes, rules, b);
    }
  }

  /** With no rule firing on any node, every node is kept. */
  lemma ProcessHtmlNothingFires(html: string, rules: seq<TransformationRule>, b: Browser)
    requires html != ""
    requires forall k, i :: 0 <= k < |rules| && 0 <= i < |b.parse(html)| ==> !Fires(rules[k], NodeText(b.parse(html)[i], b), b)
    ensures ProcessHtml(html, rules, b) == b.render(b.parse(html), seq(|b.parse(html)|, _ => Keep))
  {
    var nodes := b.parse(html);
    var acts := Actions(nodes, rules, b);
    forall i | 0 <= i < |nodes| ensures acts[i] == Keep {
      assert forall k :: 0 <= k < |rules| ==> !Fires(rules[k], NodeText(nodes[i], b), b);
    }
    assert acts == seq(|nodes|, _ => Keep);
  }
}

=== FILE: lists.dfy ===
/** The array idioms the components use on their lists: `Array.filter`,
    `Array.findIndex`, and the clamping of `slice` bounds. */
module Lists {

  /** `Math.min`, as `slice` and `substring` clamp an end past the length. */
  function Min(a: int, b: int): (m: int)
    ensures m <= a && m <= b && (m == a || m == b)
  {
    if a < b then a else b
  }

  /** `xs.filter(keep)`: the elements satisfying `keep`. That they come in
      their original order, each as often as in `xs`, is `FilterAppend` with
      `FilterSingleton`. */
  function Filter<T>(xs: seq<T>, keep: T -> bool): (r: seq<T>)
    ensures |r| <= |xs|
    ensures forall i :: 0 <= i < |r| ==> r[i] in xs && keep(r[i])
    ensures forall i :: 0 <= i < |xs| && keep(xs[i]) ==> xs[i] in r
  {
    if |xs| == 0 then []
    else
      var rest := Filter(xs[1..], keep);
      assert forall i :: 1 <= i < |xs| ==> xs[i] == xs[1..][i - 1];
      if keep(xs[0]) then [xs[0]] + rest else rest
  }

  /** A single element is kept exactly when it passes the test. */
  lemma FilterSingleton<T>(x: T, keep: T -> bool)
    ensures Filter([x], keep) == if keep(x) then [x] else []
  {
    assert [x][1..] == [];
  }

  /** Filtering works element by element and keeps the relative order:
      filtering a concatenation is filtering each half. With `FilterSingleton`
      this fixes the result completely. */
  lemma {:induction false} FilterAppend<T>(xs: seq<T>, ys: seq<T>, keep: T -> bool)
    ensures Filter(xs + ys, keep) == Filter(xs, keep) + Filter(ys, keep)
  {
    if xs == [] {
      assert xs + ys == ys;
    } else {
      assert (xs + ys)[0] == xs[0] && (xs + ys)[1..] == xs[1..] + ys;
      FilterAppend(xs[1..], ys, keep);
    }
  }

  /** Nothing is left out when every element passes. */
  lemma {:induction false} FilterKeepsAll<T>(xs: seq<T>, keep: T -> bool)
    requires forall i :: 0 <= i < |xs| ==> keep(xs[i])
    ensures Filter(xs, keep) == xs
  {
    if |xs| > 0 {
      FilterKeepsAll(xs[1..], keep);
    }
  }

  /** Filtering twice with the same test is filtering once. */
  lemma FilterIdempotent<T>(xs: seq<T>, keep: T -> bool)
    ensures Filter(Filter(xs, keep), keep) == Filter(xs, keep)
  {
    var r := Filter(xs, keep);
    FilterKeepsAll(r, keep);
  }

  /** Two tests that agree on every element filter alike. */
  lemma {:induction false} FilterAgree<T>(xs: seq<T>, f: T -> bool, g: T -> bool)
    requires forall i :: 0 <= i < |xs| ==> f(xs[i]) == g(xs[i])
    ensures Filter(xs, f) == Filter(xs, g)
  {
    if |xs| > 0 {
      FilterAgree(xs[1..], f, g);
    }
  }

  /** `xs.findIndex(p)`: the first index whose element satisfies `p`, or -1. */
  function FindIndex<T>(xs: seq<T>, p: T -> bool): (i: int)
    ensures -1 <= i < |xs|
    ensures i >= 0 ==> p(xs[i]) && forall j :: 0 <= j < i ==> !p(xs[j])
    ensures i == -1 <==> forall j :: 0 <= j < |xs| ==> !p(xs[j])
  {
    if |xs| == 0 then -1
    else if p(xs[0]) then 0
    else
      var k := FindIndex(xs[1..], p);
      if k == -1 then -1 else k + 1
  }
}

=== FILE: options.dfy ===
/** The optional-value datatype used for TypeScript's `T | undefined` fields
    and `Partial<...>` records throughout the model. */
module Options {

  datatype Option<+T> = None | Some(value: T) {

    /** The value, or `default` when absent (TypeScript's `x ?? default`). */
    function GetOr(default: T): T {
      match this
      case Some(v) => v
      case None => default
    }
  }

  /** JavaScript's `a || b` on an optional string: an absent or empty `a` falls back to `b`. */
  function OrElse(a: Option<string>, b: string): string
  {
    if a.Some? && a.value != "" then a.value else b
  }

  /** JavaScript's `a || b` on two strings: the empty string is falsy. */
  function Or(a: string, b: string): string
  {
    if a != "" then a else b
  }
}

=== FILE: preset_panel.dfy ===
/** The rule editor and the save dialog of `components/PresetPanel.tsx`:
    editing one rule's formatting, scope and pattern, assembling an advanced
    preset from the dialog's checkboxes, and scanning the body for the styles
    already in it.

    The scan reads the parsed body through two lists the browser produces:
    the three-column rows (their columns' trimmed rendered texts and the
    formatting read off the first column) and the other styled elements (their
    text, whether they sit inside a row, and the formatting read off their
    inline style). The clock is a parameter. */
module PresetPanel {
  import opened Options
  import opened Strings
  import opened Lists
  import opened Cover

  // ---------------------------------------------------------------------------
  // Editing one rule

  /** `updateFormatting`: the keys present in the patch replace the rule's;
      everything else about the rule stays. */
  function UpdateFormatting(rule: TransformationRule, patch: FormattingStyles): (r: TransformationRule)
    ensures r.(formatting := rule.formatting) == rule
    ensures patch == NoFormatting ==> r == rule
  {
    var f := rule.formatting;
    rule.(formatting := FormattingStyles(
      if patch.color.Some? then patch.color else f.color,
      if patch.fontSize.Some? then patch.fontSize else f.fontSize,
      if patch.isBold.Some? then patch.isBold else f.isBold,
      if patch.isItalic.Some? then patch.isItalic else f.isItalic,
      if patch.textAlign.Some? then patch.textAlign else f.textAlign))
  }

  /** A key the patch sets ends up with the patch's value, and a key it lacks
      keeps the rule's; so the same patch applied twice changes nothing more. */
  lemma UpdateFormattingSpec(rule: TransformationRule, patch: FormattingStyles)
    ensures var f := UpdateFormatting(rule, patch).formatting;
      && (patch.color.Some? ==> f.color == patch.color) && (patch.color.None? ==> f.color == rule.formatting.color)
      && (patch.fontSize.Some? ==> f.fontSize == patch.fontSize)
      && (patch.fontSize.None? ==> f.fontSize == rule.formatting.fontSize)
      && (patch.isBold.Some? ==> f.isBold == patch.isBold) && (patch.isBold.None? ==> f.isBold == rule.formatting.isBold)
      && (patch.isItalic.Some? ==> f.isItalic == patch.isItalic)
      && (patch.isItalic.None? ==> f.isItalic == rule.formatting.isItalic)
      && (patch.textAlign.Some? ==> f.textAlign == patch.textAlign)
      && (patch.textAlign.None? ==> f.textAlign == rule.formatting.textAlign)
    ensures UpdateFormatting(UpdateFormatting(rule, patch), patch) == UpdateFormatting(rule, patch)
  {
  }

  /** The scope button: match and paragraph swap. */
  function ToggleScope(rule: TransformationRule): (r: TransformationRule)
    ensures r.scope != rule.scope
    ensures r.(scope := rule.scope) == rule
  {
    rule.(scope := match rule.scope case MatchScope => ParagraphScope case ParagraphScope => MatchScope)
  }

  /** Pressing the scope button twice changes nothing. */
  lemma ToggleScopeInvolution(rule: TransformationRule)
    ensures ToggleScope(ToggleScope(rule)) == rule
  {
  }

  datatype QuickKind = Before | After | Between

  const BeforeOpen := "^.*(?="
  const BeforeClose := ")"
  const AfterOpen := "(?<="
  const AfterClose := ").*$"
  const BetweenMiddle := ").*?(?="

  /** `handleQuickRegex`: turns the literal in the pattern box into a pattern
      for the text before it, after it, or between its first and last
      characters; "between" needs at least two characters and otherwise
      leaves the pattern alone. */
  function QuickRegex(rule: TransformationRule, kind: QuickKind): (r: TransformationRule)
    ensures r.(pattern := rule.pattern) == rule
    ensures kind == Between && |rule.pattern| < 2 ==> r == rule
  {
    var val := rule.pattern;
    var p :=
      match kind
      case Before => BeforeOpen + RegexEscape(val) + BeforeClose
      case After => AfterOpen + RegexEscape(val) + AfterClose
      case Between =>
        if |val| >= 2 then AfterOpen + RegexEscape([val[0]]) + BetweenMiddle + RegexEscape([val[|val| - 1]]) + BeforeClose
        else val;
    rule.(pattern := p)
  }

  /** The literal can be read back from every quick pattern: the part between
      the fixed wrappers reads strictly as the literal (for "between", the two
      parts read as its first and last characters). */
  lemma QuickRegexRecoversLiteral(rule: TransformationRule, kind: QuickKind)
    ensures var p := QuickRegex(rule, kind).pattern;
      var val := rule.pattern;
      match kind
      case Before =>
        BeforeOpen <= p && |p| >= |BeforeOpen| + |BeforeClose| && p[|p| - |BeforeClose|..] == BeforeClose
        && LiteralOf(p[|BeforeOpen|..|p| - |BeforeClose|]) == Some(val)
      case After =>
        AfterOpen <= p && |p| >= |AfterOpen| + |AfterClose| && p[|p| - |AfterClose|..] == AfterClose
        && LiteralOf(p[|AfterOpen|..|p| - |AfterClose|]) == Some(val)
      case Between =>
        |val| >= 2 ==> exists a, b ::
          p == AfterOpen + a + BetweenMiddle + b + BeforeClose
          && LiteralOf(a) == Some([val[0]]) && LiteralOf(b) == Some([val[|val| - 1]])
  {
    var p := QuickRegex(rule, kind).pattern;
    var val := rule.pattern;
    match kind
    case Before =>
      assert p[|BeforeOpen|..|p| - |BeforeClose|] == RegexEscape(val);
    case After =>
      assert p[|AfterOpen|..|p| - |AfterClose|] == RegexEscape(val);
    case Between =>
      if |val| >= 2 {
        var a, b := RegexEscape([val[0]]), RegexEscape([val[|val| - 1]]);
        assert p == AfterOpen + a + BetweenMiddle + b + BeforeClose;
      }
  }

  // ---------------------------------------------------------------------------
  // Assembling a preset

  const StyleFields: set<Field> :=
    {BackgroundColor, AccentColor, TextColor, LayoutStyle, TitleFont, BodyFont, BodyTextSize}
  const ContentFields: set<Field> := {Title, Subtitle, BodyText, SecondaryBodyText, Category, Author}

  /** The seven style keys a preset takes from the state: exactly those keys,
      with the state's values. */
  function StylePatch(s: CoverState): (r: CoverPatch)
    ensures forall f :: PatchGet(r, f) == (if f in StyleFields then Some(Get(s, f)) else None)
  {
    EmptyPatch.(backgroundColor := Some(s.backgroundColor), accentColor := Some(s.accentColor),
                textColor := Some(s.textColor), layoutStyle := Some(s.layoutStyle),
                titleFont := Some(s.titleFont), bodyFont := Some(s.bodyFont),
                bodyTextSize := Some(s.bodyTextSize))
  }

  /** The six content keys a preset takes from the state: exactly those keys,
      with the state's values. */
  function ContentPatch(s: CoverState): (r: CoverPatch)
    ensures forall f :: PatchGet(r, f) == (if f in ContentFields then Some(Get(s, f)) else None)
  {
    EmptyPatch.(title := Some(s.title), subtitle := Some(s.subtitle), bodyText := Some(s.bodyText),
                secondaryBodyText := Some(s.secondaryBodyText), category := Some(s.category),
                author := Some(s.author))
  }

  /** The dialog's fields. */
  datatype Dialog = Dialog(
    name: string,
    includeStyle: bool,
    includeContent: bool,
    rules: seq<TransformationRule>,
    initial: Option<AdvancedPreset>)

  /** The partial state a preset records: with styles, the seven style keys
      from the state; without, the edited preset's keys or none; with content,
      the six content keys from the state on top. */
  function PresetState(d: Dialog, current: CoverState): (r: CoverPatch)
    ensures forall f :: f in ContentFields && d.includeContent ==> PatchGet(r, f) == Some(Get(current, f))
    ensures forall f :: f in StyleFields && d.includeStyle ==> PatchGet(r, f) == Some(Get(current, f))
    ensures forall f :: f !in ContentFields && f !in StyleFields && d.includeStyle ==> PatchGet(r, f).None?
    ensures !d.includeStyle && d.initial.None? && !d.includeContent ==> forall f :: PatchGet(r, f).None?
    ensures !d.includeStyle ==> forall f :: !(d.includeContent && f in ContentFields) ==>
      PatchGet(r, f) == (if d.initial.Some? then PatchGet(d.initial.value.coverState, f) else None)
  {
    var base := if d.includeStyle then StylePatch(current)
                else if d.initial.Some? then d.initial.value.coverState else EmptyPatch;
    assert forall f :: PatchGet(EmptyPatch, f).None?;
    CombineGetAll(base, ContentPatch(current));
    if d.includeContent then Combine(base, ContentPatch(current)) else base
  }

  /** The test that keeps an active rule. */
  function IsActiveRule(): TransformationRule -> bool {
    (r: TransformationRule) => r.isActive
  }

  /** `handleConfirm`: nothing for a blank name; otherwise the preset under the
      trimmed name, keeping the id of the preset being edited (a new preset, or
      one whose id is empty, gets the clock's), with only the active rules in
      their order. */
  function Confirm(d: Dialog, current: CoverState, now: string): (r: Option<AdvancedPreset>)
    ensures r.None? <==> IsBlank(d.name)
    ensures r.Some? ==>
      && r.value.name == Trim(d.name) && r.value.name != ""
      && r.value.includeStyle == d.includeStyle && r.value.includeContent == d.includeContent
      && (d.initial.Some? && d.initial.value.id != "" ==> r.value.id == d.initial.value.id)
      && (d.initial.None? || d.initial.value.id == "" ==> r.value.id == now)
      && r.value.rules == Filter(d.rules, IsActiveRule())
      && (forall i :: 0 <= i < |r.value.rules| ==> r.value.rules[i].isActive && r.value.rules[i] in d.rules)
      && (forall i :: 0 <= i < |d.rules| && d.rules[i].isActive ==> d.rules[i] in r.value.rules)
      && r.value.coverState == PresetState(d, current)
  {
    TrimEmptyIffBlank(d.name);
    var name := Trim(d.name);
    if name == "" then None
    else
      var id := if d.initial.Some? then OrElse(Some(d.initial.value.id), now) else now;
      var rules := Filter(d.rules, IsActiveRule());
      Some(AdvancedPreset(id, name, d.includeStyle, d.includeContent, PresetState(d, current), rules))
  }

  /** A preset that records styles, applied back to the state it was taken
      from, changes nothing; applied to any other state, it carries over every
      style key. */
  lemma CapturedStyleRoundTrip(d: Dialog, current: CoverState, other: CoverState)
    requires d.includeStyle
    ensures Merge(current, PresetState(d, current)) == current
    ensures forall f :: f in StyleFields ==> Get(Merge(other, PresetState(d, current)), f) == Get(current, f)
  {
    StateExtensionality(Merge(current, PresetState(d, current)), current);
  }

  // ---------------------------------------------------------------------------
  // Scanning the body for rules

  /** A three-column row found in the body. */
  datatype RowScan = RowScan(texts: seq<string>, formatting: FormattingStyles)

  /** Another element with an inline style. */
  datatype StyledScan = StyledScan(text: string, inRow: bool, formatting: FormattingStyles)

  /** The row rule made for the row at `idx`. */
  function RowRule(row: RowScan, idx: nat, now: string): TransformationRule {
    TransformationRule("rule_struct_" + now + "_" + NatToString(idx), "结构规则", "", row.formatting,
                       ParagraphScope, true, Some("|"), true)
  }

  /** Rows from `i` on whose columns show some text each give one row rule. */
  function RowRules(rows: seq<RowScan>, i: nat, now: string): (rs: seq<TransformationRule>)
    requires i <= |rows|
    ensures |rs| <= |rows| - i
    ensures forall k :: 0 <= k < |rs| ==> rs[k].multiAlignRow && rs[k].pattern == "" && rs[k].isActive
    ensures forall k :: 0 <= k < |rs| ==> rs[k].scope == ParagraphScope && rs[k].separator == Some("|")
    ensures forall k :: 0 <= k < |rs| ==>
      exists j :: i <= j < |rows| && JoinNonEmpty(rows[j].texts, " | ") != "" && rs[k].formatting == rows[j].formatting
    decreases |rows| - i
  {
    if i == |rows| then []
    else
      var rest := RowRules(rows, i + 1, now);
      if JoinNonEmpty(rows[i].texts, " | ") != "" then
        var rs := [RowRule(rows[i], i, now)] + rest;
        assert forall k :: 1 <= k < |rs| ==> rs[k] == rest[k - 1];
        rs
      else rest
  }

  /** Rows from `i` on whose columns show some text. */
  function CountShowing(rows: seq<RowScan>, i: nat): nat
    requires i <= |rows|
    decreases |rows| - i
  {
    if i == |rows| then 0
    else (if exists k :: 0 <= k < |rows[i].texts| && rows[i].texts[k] != "" then 1 else 0) + CountShowing(rows, i + 1)
  }

  /** One row rule per row that shows any text: a row whose columns are all
      empty gives none. */
  lemma {:induction false} RowRulesCount(rows: seq<RowScan>, i: nat, now: string)
    requires i <= |rows|
    ensures |RowRules(rows, i, now)| == CountShowing(rows, i)
    decreases |rows| - i
  {
    if i < |rows| {
      RowRulesCount(rows, i + 1, now);
      JoinNonEmptySpec(rows[i].texts, " | ");
    }
  }

  /** The element counts for a style rule: outside every row, with some text. */
  predicate Eligible(e: StyledScan) {
    !e.inRow && Trim(e.text) != ""
  }

  /** The style rule made for the element at `idx`, whose trimmed text is `t`. */
  function StyleRule(t: string, fmt: FormattingStyles, idx: nat, now: string): TransformationRule {
    TransformationRule("rule_style_" + now + "_" + NatToString(idx), "修饰: " + t[..Min(5, |t|)] + "...",
                       RegexEscape(t), fmt, MatchScope, false, None, true)
  }

  /** Elements from `i` on, skipping those not eligible and those whose trimmed
      text was already seen, each give one rule matching that text literally. */
  function StyleRules(styled: seq<StyledScan>, i: nat, seen: set<string>, now: string): (rs: seq<TransformationRule>)
    requires i <= |styled|
    ensures forall k :: 0 <= k < |rs| ==> rs[k].scope == MatchScope && rs[k].isActive && !rs[k].multiAlignRow
    decreases |styled| - i
  {
    if i == |styled| then []
    else
      var e := styled[i];
      var t := Trim(e.text);
      if e.inRow || t == "" || t in seen then StyleRules(styled, i + 1, seen, now)
      else [StyleRule(t, e.formatting, i, now)] + StyleRules(styled, i + 1, seen + {t}, now)
  }

  /** No style rule matches a text seen before it. */
  lemma {:induction false} StyleRulesUnseen(styled: seq<StyledScan>, i: nat, seen: set<string>, now: string)
    requires i <= |styled|
    ensures forall k :: 0 <= k < |StyleRules(styled, i, seen, now)| ==>
      var lit := LiteralOf(StyleRules(styled, i, seen, now)[k].pattern); lit.Some? && lit.value !in seen
    decreases |styled| - i
  {
    if i < |styled| {
      var e := styled[i];
      var t := Trim(e.text);
      if e.inRow || t == "" || t in seen {
        StyleRulesUnseen(styled, i + 1, seen, now);
      } else {
        var rs := StyleRules(styled, i, seen, now);
        var rest := StyleRules(styled, i + 1, seen + {t}, now);
        assert rs == [StyleRule(t, e.formatting, i, now)] + rest;
        StyleRulesUnseen(styled, i + 1, seen + {t}, now);
        forall k | 0 <= k < |rs| ensures LiteralOf(rs[k].pattern).Some? && LiteralOf(rs[k].pattern).value !in seen {
          if k > 0 { assert rs[k] == rest[k - 1]; }
        }
      }
    }
  }

  /** The rule matches, literally, the trimmed text of an eligible element at
      `i` or later. */
  predicate ComesFrom(r: TransformationRule, styled: seq<StyledScan>, i: nat) {
    exists j :: i <= j < |styled| && Eligible(styled[j]) && r.pattern == RegexEscape(Trim(styled[j].text))
  }

  predicate FromEligible(rs: seq<TransformationRule>, styled: seq<StyledScan>, i: nat) {
    forall k :: 0 <= k < |rs| ==> ComesFrom(rs[k], styled, i)
  }

  /** Starting earlier only adds candidate elements. */
  lemma FromEligibleEarlier(rs: seq<TransformationRule>, styled: seq<StyledScan>, i: nat)
    requires FromEligible(rs, styled, i + 1)
    ensures FromEligible(rs, styled, i)
  {
    forall k | 0 <= k < |rs| ensures ComesFrom(rs[k], styled, i) {
      assert ComesFrom(rs[k], styled, i + 1);
      var j :| i + 1 <= j < |styled| && Eligible(styled[j]) && rs[k].pattern == RegexEscape(Trim(styled[j].text));
      assert i <= j;
    }
  }

  /** A rule for the eligible element at `i` may go in front. */
  lemma FromEligibleCons(r: TransformationRule, rs: seq<TransformationRule>, styled: seq<StyledScan>, i: nat)
    requires i < |styled| && Eligible(styled[i]) && r.pattern == RegexEscape(Trim(styled[i].text))
    requires FromEligible(rs, styled, i)
    ensures FromEligible([r] + rs, styled, i)
  {
    var all := [r] + rs;
    forall k | 0 <= k < |all| ensures ComesFrom(all[k], styled, i) {
      if k > 0 {
        assert all[k] == rs[k - 1];
        assert ComesFrom(rs[k - 1], styled, i);
      }
    }
  }

  /** Every style rule comes from an eligible element. */
  lemma {:induction false} StyleRulesSound(styled: seq<StyledScan>, i: nat, seen: set<string>, now: string)
    requires i <= |styled|
    ensures FromEligible(StyleRules(styled, i, seen, now), styled, i)
    decreases |styled| - i
  {
    if i < |styled| {
      var e := styled[i];
      var t := Trim(e.text);
      if e.inRow || t == "" || t in seen {
        StyleRulesSound(styled, i + 1, seen, now);
        FromEligibleEarlier(StyleRules(styled, i + 1, seen, now), styled, i);
      } else {
        var rest := StyleRules(styled, i + 1, seen + {t}, now);
        StyleRulesSound(styled, i + 1, seen + {t}, now);
        FromEligibleEarlier(rest, styled, i);
        FromEligibleCons(StyleRule(t, e.formatting, i, now), rest, styled, i);
      }
    }
  }

  /** No two rules have the same pattern. */
  predicate DistinctPatterns(rs: seq<TransformationRule>) {
    forall a, b :: 0 <= a < b < |rs| ==> rs[a].pattern != rs[b].pattern
  }

  /** A rule whose pattern no later rule has may go in front. */
  lemma DistinctCons(r: TransformationRule, rs: seq<TransformationRule>)
    requires DistinctPatterns(rs)
    requires forall k :: 0 <= k < |rs| ==> rs[k].pattern != r.pattern
    ensures DistinctPatterns([r] + rs)
  {
    var all := [r] + rs;
    forall a, b | 0 <= a < b < |all| ensures all[a].pattern != all[b].pattern {
      assert all[b] == rs[b - 1];
      if a > 0 {
        assert all[a] == rs[a - 1];
      }
    }
  }

  /** No two style rules match the same text. */
  lemma {:induction false} StyleRulesDistinct(styled: seq<StyledScan>, i: nat, seen: set<string>, now: string)
    requires i <= |styled|
    ensures DistinctPatterns(StyleRules(styled, i, seen, now))
    decreases |styled| - i
  {
    if i < |styled| {
      var e := styled[i];
      var t := Trim(e.text);
      if e.inRow || t == "" || t in seen {
        StyleRulesDistinct(styled, i + 1, seen, now);
      } else {
        var r := StyleRule(t, e.formatting, i, now);
        var rest := StyleRules(styled, i + 1, seen + {t}, now);
        StyleRulesDistinct(styled, i + 1, seen + {t}, now);
        StyleRulesUnseen(styled, i + 1, seen + {t}, now);
        forall k | 0 <= k < |rest| ensures rest[k].pattern != r.pattern {
          assert LiteralOf(rest[k].pattern).value != t;
        }
        DistinctCons(r, rest);
      }
    }
  }

  /** Every eligible element whose text was not seen before has a rule that
      matches its trimmed text literally. */
  lemma {:induction false} StyleRulesComplete(styled: seq<StyledScan>, i: nat, seen: set<string>, now: string)
    requires i <= |styled|
    ensures forall j :: i <= j < |styled| && Eligible(styled[j]) && Trim(styled[j].text) !in seen ==>
      exists r <- StyleRules(styled, i, seen, now) :: r.pattern == RegexEscape(Trim(styled[j].text))
    decreases |styled| - i
  {
    if i < |styled| {
      var e := styled[i];
      var t := Trim(e.text);
      if e.inRow || t == "" || t in seen {
        StyleRulesComplete(styled, i + 1, seen, now);
      } else {
        var rs := StyleRules(styled, i, seen, now);
        var rest := StyleRules(styled, i + 1, seen + {t}, now);
        assert rs == [StyleRule(t, e.formatting, i, now)] + rest;
        StyleRulesComplete(styled, i + 1, seen + {t}, now);
        forall j | i < j < |styled| && Eligible(styled[j]) && Trim(styled[j].text) !in seen
          ensures exists r <- rs :: r.pattern == RegexEscape(Trim(styled[j].text))
        {
          if Trim(styled[j].text) == t {
            assert rs[0] in rs;
          } else {
            var r :| r in rest && r.pattern == RegexEscape(Trim(styled[j].text));
            assert r in rs;
          }
        }
      }
    }
  }

  /** `scanTextForRules`: the rules already in the dialog, then one rule per
      row showing text, then one per distinct styled text. */
  function ScanTextForRules(prev: seq<TransformationRule>, rows: seq<RowScan>, styled: seq<StyledScan>, now: string)
    : (r: seq<TransformationRule>)
    ensures |r| == |prev| + CountShowing(rows, 0) + |StyleRules(styled, 0, {}, now)|
    ensures r[..|prev|] == prev
    ensures r[|prev|..|prev| + CountShowing(rows, 0)] == RowRules(rows, 0, now)
    ensures r[|prev| + CountShowing(rows, 0)..] == StyleRules(styled, 0, {}, now)
    ensures DistinctPatterns(r[|prev| + CountShowing(rows, 0)..])
    ensures FromEligible(r[|prev| + CountShowing(rows, 0)..], styled, 0)
  {
    RowRulesCount(rows, 0, now);
    StyleRulesDistinct(styled, 0, {}, now);
    StyleRulesSound(styled, 0, {}, now);
    prev + RowRules(rows, 0, now) + StyleRules(styled, 0, {}, now)
  }
}

=== FILE: root_app.dfy ===
/** The state handlers of the editor shell in `App.tsx`. This shell has the
    duality layout, which keeps its own pair of body texts: while it is
    active, edits of the body are redirected into that pair, and the preview
    is shown the pair in place of the ordinary body.

    Identifiers made from the clock (`Date.now()`) are parameters. */
module RootApp {
  import opened Options
  import opened Strings
  import opened Lists
  import opened Cover
  import Dom
  import FormatText

  /** The state held by the shell: the card, the content presets, the active
      preset, the advanced presets and the content dialog. */
  datatype Shell = Shell(
    state: CoverState,
    presets: seq<ContentPreset>,
    activePresetId: Option<string>,
    advancedPresets: seq<AdvancedPreset>,
    isCreatingNew: bool,
    showContentModal: bool)

  const InitialAuthor := "琉璃"
  const UntitledDraft := "未命名草稿"
  const DualityPresetId := "preset_duality"
  const DualityMarker := "二象性"

  /** The two pairs of body texts. */
  const BodyFields: set<Field> := {BodyText, SecondaryBodyText, DualityBodyText, DualitySecondaryBodyText}

  /** The fields a content preset carries besides the body texts. */
  const LabelFields: set<Field> := {Title, Subtitle, Category, Author}

  // ---------------------------------------------------------------------------
  // State changes and the preview

  /** The layout the state will have once `patch` is applied. */
  function TargetLayout(prev: CoverState, patch: CoverPatch): Layout {
    patch.layoutStyle.GetOr(prev.layoutStyle)
  }

  /** Moves the body keys of a patch onto the duality keys. */
  function Redirect(patch: CoverPatch): CoverPatch {
    var p := if patch.bodyText.Some?
             then patch.(dualityBodyText := patch.bodyText, bodyText := None) else patch;
    if patch.secondaryBodyText.Some?
    then p.(dualitySecondaryBodyText := patch.secondaryBodyText, secondaryBodyText := None) else p
  }

  /** `handleStateChange`: while the resulting layout is duality, body edits go
      to the duality pair and the ordinary body is kept; otherwise the patch is
      merged as it is. */
  function HandleStateChange(prev: CoverState, patch: CoverPatch): (r: CoverState)
    ensures TargetLayout(prev, patch) != Duality ==> r == Merge(prev, patch)
    ensures TargetLayout(prev, patch) == Duality ==>
      && r.bodyText == prev.bodyText
      && r.secondaryBodyText == prev.secondaryBodyText
      && r.dualityBodyText == patch.bodyText.GetOr(patch.dualityBodyText.GetOr(prev.dualityBodyText))
      && r.dualitySecondaryBodyText ==
           patch.secondaryBodyText.GetOr(patch.dualitySecondaryBodyText.GetOr(prev.dualitySecondaryBodyText))
    ensures forall f :: f !in BodyFields ==> Get(r, f) == Get(Merge(prev, patch), f)
  {
    var layout := TargetLayout(prev, patch);
    var redirected :=
      if layout == Duality && (patch.layoutStyle.None? || patch.layoutStyle == Some(Duality))
      then Redirect(patch) else patch;
    Merge(prev, redirected)
  }

  /** `effectivePreviewState`: in the duality layout the preview shows the
      duality pair in place of the body. */
  function EffectivePreviewState(s: CoverState): (r: CoverState)
    ensures s.layoutStyle != Duality ==> r == s
    ensures s.layoutStyle == Duality ==>
              r.bodyText == s.dualityBodyText && r.secondaryBodyText == s.dualitySecondaryBodyText
    ensures forall f :: f !in {BodyText, SecondaryBodyText} ==> Get(r, f) == Get(s, f)
  {
    if s.layoutStyle == Duality
    then s.(bodyText := s.dualityBodyText, secondaryBodyText := s.dualitySecondaryBodyText)
    else s
  }

  /** What is typed is what is shown: a body edit reaches the preview in every
      layout, and so does a secondary body edit. */
  lemma EditsReachPreview(prev: CoverState, patch: CoverPatch)
    ensures patch.bodyText.Some? ==>
      EffectivePreviewState(HandleStateChange(prev, patch)).bodyText == patch.bodyText.value
    ensures patch.secondaryBodyText.Some? ==>
      EffectivePreviewState(HandleStateChange(prev, patch)).secondaryBodyText == patch.secondaryBodyText.value
  {
  }

  /** A patch that touches no body key leaves both pairs of body texts alone. */
  lemma OtherEditsKeepBodies(prev: CoverState, patch: CoverPatch)
    requires patch.bodyText.None? && patch.secondaryBodyText.None?
    requires patch.dualityBodyText.None? && patch.dualitySecondaryBodyText.None?
    ensures HandleStateChange(prev, patch) == Merge(prev, patch)
  {
  }

  // ---------------------------------------------------------------------------
  // Content presets

  /** The preset `handleSavePreset` records: the content of the state, the
      duality pair included. */
  function PresetOf(s: CoverState, id: string, name: string): ContentPreset {
    ContentPreset(id, name, s.title, s.subtitle, s.bodyText, Some(s.secondaryBodyText),
                  Some(s.dualityBodyText), Some(s.dualitySecondaryBodyText), s.category, s.author)
  }

  /** `handleSavePreset`: the new preset goes first. */
  function SavePreset(app: Shell, name: string, newId: string): (r: Shell)
    ensures r.presets == [PresetOf(app.state, newId, name)] + app.presets
    ensures r.(presets := app.presets) == app
  {
    app.(presets := [PresetOf(app.state, newId, name)] + app.presets)
  }

  /** The test that keeps a content preset whose id is not `id`. */
  function OtherContentId(id: string): ContentPreset -> bool {
    (p: ContentPreset) => p.id != id
  }

  /** `handleDeletePreset`: every preset with the id goes, the others stay in
      their order; the active preset is cleared only when it is that one. */
  function DeletePreset(app: Shell, id: string): (r: Shell)
    ensures forall i :: 0 <= i < |r.presets| ==> r.presets[i].id != id && r.presets[i] in app.presets
    ensures forall i :: 0 <= i < |app.presets| && app.presets[i].id != id ==> app.presets[i] in r.presets
    ensures r.presets == Filter(app.presets, OtherContentId(id))
    ensures r.activePresetId == (if app.activePresetId == Some(id) then None else app.activePresetId)
    ensures r.(presets := app.presets, activePresetId := app.activePresetId) == app
  {
    app.(presets := Filter(app.presets, OtherContentId(id)),
         activePresetId := if app.activePresetId == Some(id) then None else app.activePresetId)
  }

  /** A preset is a duality preset by its id or by a marker in its category. */
  predicate IsDualityPreset(p: ContentPreset) {
    p.id == DualityPresetId || (p.category != "" && Contains(p.category, DualityMarker))
  }

  /** `handleLoadPreset`: the content of the preset, each body text falling
      back to the current one when the preset's is empty; the layout becomes
      duality for a duality preset and leaves duality otherwise. */
  function LoadPreset(app: Shell, p: ContentPreset): (r: Shell)
    ensures r.state.layoutStyle == Duality <==> IsDualityPreset(p)
    ensures !IsDualityPreset(p) && app.state.layoutStyle != Duality ==> r.state.layoutStyle == app.state.layoutStyle
    ensures !IsDualityPreset(p) && app.state.layoutStyle == Duality ==> r.state.layoutStyle == Minimal
    ensures r.activePresetId == Some(p.id)
    ensures r.(state := app.state, activePresetId := app.activePresetId) == app
    ensures forall f :: f in LabelFields ==> Get(r.state, f) == Get(PresetState(p), f)
    ensures forall f :: f in BodyFields ==>
              Get(r.state, f) == (if Get(PresetState(p), f) != VStr("") then Get(PresetState(p), f) else Get(app.state, f))
    ensures forall f :: f !in LabelFields && f !in BodyFields && f != LayoutStyle ==> Get(r.state, f) == Get(app.state, f)
  {
    var prev := app.state;
    var layout := if IsDualityPreset(p) then Duality
                  else if prev.layoutStyle == Duality then Minimal else prev.layoutStyle;
    var s := prev.(
      title := p.title,
      subtitle := p.subtitle,
      layoutStyle := layout,
      bodyText := Or(p.bodyText, prev.bodyText),
      secondaryBodyText := OrElse(p.secondaryBodyText, prev.secondaryBodyText),
      dualityBodyText := OrElse(p.dualityBodyText, prev.dualityBodyText),
      dualitySecondaryBodyText := OrElse(p.dualitySecondaryBodyText, prev.dualitySecondaryBodyText),
      category := p.category,
      author := p.author);
    app.(state := s, activePresetId := Some(p.id))
  }

  /** The content fields of a preset as a patch-free view: a missing optional
      text reads as the empty string. */
  function PresetState(p: ContentPreset): CoverState {
    CoverState(p.title, p.subtitle, p.bodyText, p.secondaryBodyText.GetOr(""), p.dualityBodyText.GetOr(""),
               p.dualitySecondaryBodyText.GetOr(""), p.category, p.author, "", "", "", Split, CoverMode,
               "", "", false, false, None, None)
  }

  /** Loading the same preset twice is loading it once. */
  lemma LoadIdempotent(app: Shell, p: ContentPreset)
    ensures LoadPreset(LoadPreset(app, p), p) == LoadPreset(app, p)
  {
  }

  /** Saving the current content and loading it back restores every field
      but the layout, since the preset does not record it. The layout survives
      exactly when the preset is recognised as a duality preset just when the
      card is in the duality layout. */
  lemma SaveLoadRoundTrip(app: Shell, name: string, id: string)
    ensures var r := LoadPreset(app, PresetOf(app.state, id, name)).state;
      && r.(layoutStyle := app.state.layoutStyle) == app.state
      && (r.layoutStyle == app.state.layoutStyle <==>
            (app.state.layoutStyle == Duality <==> IsDualityPreset(PresetOf(app.state, id, name))))
  {
  }

  /** `handleModalConfirm`: a new draft is saved under its title (or a
      placeholder name) and becomes the active preset; otherwise the active
      preset, if any, takes the current content and, when there is a title,
      its name. The dialog closes in both cases. */
  function ModalConfirm(app: Shell, newId: string): (r: Shell)
    ensures !r.showContentModal
    ensures r.(presets := app.presets, activePresetId := app.activePresetId, isCreatingNew := app.isCreatingNew,
               showContentModal := app.showContentModal) == app
    ensures !app.isCreatingNew ==> !r.isCreatingNew
    ensures app.isCreatingNew ==>
      && r.presets == [PresetOf(app.state, newId, Or(app.state.title, UntitledDraft))] + app.presets
      && r.activePresetId == Some(newId) && !r.isCreatingNew
    ensures !app.isCreatingNew ==> |r.presets| == |app.presets| && r.activePresetId == app.activePresetId
    ensures !app.isCreatingNew ==> forall i :: 0 <= i < |app.presets| ==>
      var p := app.presets[i];
      if app.activePresetId.Some? && app.activePresetId.value != "" && p.id == app.activePresetId.value
      then r.presets[i] == PresetOf(app.state, p.id, Or(app.state.title, p.name))
      else r.presets[i] == p
  {
    if app.isCreatingNew then
      var saved := SavePreset(app, Or(app.state.title, UntitledDraft), newId);
      saved.(activePresetId := Some(newId), isCreatingNew := false, showContentModal := false)
    else if app.activePresetId.Some? && app.activePresetId.value != "" then
      var id := app.activePresetId.value;
      var updated := seq(|app.presets|, i requires 0 <= i < |app.presets| =>
        var p := app.presets[i];
        if p.id == id
        then p.(title := app.state.title, subtitle := app.state.subtitle, bodyText := app.state.bodyText,
                secondaryBodyText := Some(app.state.secondaryBodyText),
                dualityBodyText := Some(app.state.dualityBodyText),
                dualitySecondaryBodyText := Some(app.state.dualitySecondaryBodyText),
                category := app.state.category, author := app.state.author,
                name := Or(app.state.title, p.name))
        else p);
      app.(presets := updated, showContentModal := false)
    else app.(showContentModal := false)
  }

  /** `handleCreateNew`: every content field is cleared, the author is reset,
      no preset is active and the dialog opens for a new draft. */
  function CreateNew(app: Shell): (r: Shell)
    ensures forall f :: (f in LabelFields || f in BodyFields) && f != Author ==> Get(r.state, f) == VStr("")
    ensures r.state.author == InitialAuthor
    ensures forall f :: f !in LabelFields && f !in BodyFields ==> Get(r.state, f) == Get(app.state, f)
    ensures r.activePresetId == None && r.isCreatingNew && r.showContentModal && r.presets == app.presets
    ensures r.(state := app.state, activePresetId := app.activePresetId, isCreatingNew := app.isCreatingNew,
               showContentModal := app.showContentModal) == app
  {
    app.(state := app.state.(title := "", subtitle := "", bodyText := "", secondaryBodyText := "",
                             dualityBodyText := "", dualitySecondaryBodyText := "", category := "",
                             author := InitialAuthor),
         activePresetId := None, isCreatingNew := true, showContentModal := true)
  }

  // ---------------------------------------------------------------------------
  // Advanced presets

  /** `handleSaveAdvancedPreset`: a preset whose id is already listed replaces
      the first entry with that id in place; a new one goes first. */
  function SaveAdvancedPreset(list: seq<AdvancedPreset>, preset: AdvancedPreset): (r: seq<AdvancedPreset>)
    ensures var k := FindIndex(list, (p: AdvancedPreset) => p.id == preset.id);
      if k >= 0 then |r| == |list| && r[k] == preset && forall i :: 0 <= i < |list| && i != k ==> r[i] == list[i]
      else r == [preset] + list
  {
    var k := FindIndex(list, (p: AdvancedPreset) => p.id == preset.id);
    if k > -1 then list[k := preset] else [preset] + list
  }

  /** After saving, the preset is the first entry with its id. */
  lemma SavedIsFound(list: seq<AdvancedPreset>, preset: AdvancedPreset)
    ensures var r := SaveAdvancedPreset(list, preset);
      var k := FindIndex(r, (p: AdvancedPreset) => p.id == preset.id);
      k >= 0 && r[k] == preset
  {
    var r := SaveAdvancedPreset(list, preset);
    var k := FindIndex(list, (p: AdvancedPreset) => p.id == preset.id);
    if k >= 0 {
      assert r[k].id == preset.id;
    } else {
      assert r[0].id == preset.id;
    }
  }

  /** Saving the same preset twice is saving it once. */
  lemma SaveAdvancedIdempotent(list: seq<AdvancedPreset>, preset: AdvancedPreset)
    ensures SaveAdvancedPreset(SaveAdvancedPreset(list, preset), preset) == SaveAdvancedPreset(list, preset)
  {
    var r := SaveAdvancedPreset(list, preset);
    var k := FindIndex(list, (p: AdvancedPreset) => p.id == preset.id);
    var k' := FindIndex(r, (p: AdvancedPreset) => p.id == preset.id);
    SavedIsFound(list, preset);
    if k >= 0 {
      assert k' == k;
    } else {
      assert k' == 0;
    }
  }

  /** The test that keeps an advanced preset whose id is not `id`. */
  function OtherAdvancedId(id: string): AdvancedPreset -> bool {
    (p: AdvancedPreset) => p.id != id
  }

  /** The inline delete of an advanced preset: every entry with the id goes,
      the others stay in their order. */
  function DeleteAdvancedPreset(list: seq<AdvancedPreset>, id: string): (r: seq<AdvancedPreset>)
    ensures forall i :: 0 <= i < |r| ==> r[i].id != id && r[i] in list
    ensures forall i :: 0 <= i < |list| && list[i].id != id ==> list[i] in r
    ensures r == Filter(list, OtherAdvancedId(id))
  {
    Filter(list, OtherAdvancedId(id))
  }

  /** Deleting a preset that was just saved leaves no entry with its id. */
  lemma SaveThenDelete(list: seq<AdvancedPreset>, preset: AdvancedPreset)
    ensures forall p <- DeleteAdvancedPreset(SaveAdvancedPreset(list, preset), preset.id) :: p.id != preset.id
  {
  }

  // ---------------------------------------------------------------------------
  // Formatting

  /** The patch `handleFormatText` submits: nothing for an empty rule list;
      otherwise the processed pair of body texts the preview shows. */
  function FormatPatch(s: CoverState, rules: seq<TransformationRule>, b: FormatText.Browser): (r: Option<CoverPatch>)
    ensures r.None? <==> |rules| == 0
    ensures r.Some? ==> forall f :: f !in BodyFields ==> PatchGet(r.value, f).None?
  {
    if |rules| == 0 then None
    else if s.layoutStyle == Duality then
      Some(EmptyPatch.(dualityBodyText := Some(FormatText.ProcessHtml(s.dualityBodyText, rules, b)),
                       dualitySecondaryBodyText := Some(FormatText.ProcessHtml(s.dualitySecondaryBodyText, rules, b))))
    else
      Some(EmptyPatch.(bodyText := Some(FormatText.ProcessHtml(s.bodyText, rules, b)),
                       secondaryBodyText := Some(FormatText.ProcessHtml(s.secondaryBodyText, rules, b))))
  }

  /** `handleFormatText` followed by the state change it submits. */
  function HandleFormatText(s: CoverState, rules: seq<TransformationRule>, b: FormatText.Browser): (r: CoverState)
    ensures |rules| == 0 ==> r == s
    ensures forall f :: f !in BodyFields ==> Get(r, f) == Get(s, f)
  {
    match FormatPatch(s, rules, b)
    case None => s
    case Some(p) => HandleStateChange(s, p)
  }

  /** Formatting rewrites exactly the pair of body texts the preview shows,
      and nothing else. */
  lemma FormatRewritesShownBody(s: CoverState, rules: seq<TransformationRule>, b: FormatText.Browser)
    requires |rules| > 0
    ensures var r := HandleFormatText(s, rules, b);
      && EffectivePreviewState(r).bodyText == FormatText.ProcessHtml(EffectivePreviewState(s).bodyText, rules, b)
      && EffectivePreviewState(r).secondaryBodyText
           == FormatText.ProcessHtml(EffectivePreviewState(s).secondaryBodyText, rules, b)
      && (s.layoutStyle == Duality ==> r.bodyText == s.bodyText && r.secondaryBodyText == s.secondaryBodyText)
      && (s.layoutStyle != Duality ==> r.dualityBodyText == s.dualityBodyText
                                       && r.dualitySecondaryBodyText == s.dualitySecondaryBodyText)
      && forall f :: f !in BodyFields ==> Get(r, f) == Get(s, f)
  {
    var r := HandleFormatText(s, rules, b);
    var p := FormatPatch(s, rules, b).value;
    forall f | f !in BodyFields
      ensures Get(r, f) == Get(s, f)
    {
      assert PatchGet(p, f) == None;
    }
  }

  /** `handleApplyAdvancedPreset` as written: the preset's partial state is
      submitted, then the rules are run on the body of the state as it was
      before the preset was applied, and that result is submitted after it. */
  function ApplyAdvancedPresetAsWritten(s: CoverState, preset: AdvancedPreset, b: FormatText.Browser): (r: CoverState)
    ensures |preset.rules| == 0 ==> r == HandleStateChange(s, preset.coverState)
    ensures |preset.rules| > 0 && s.layoutStyle != Duality && TargetLayout(s, preset.coverState) != Duality ==>
              && r.bodyText == FormatText.ProcessHtml(s.bodyText, preset.rules, b)
              && r.secondaryBodyText == FormatText.ProcessHtml(s.secondaryBodyText, preset.rules, b)
  {
    var styled := HandleStateChange(s, preset.coverState);
    match FormatPatch(s, preset.rules, b)
    case None => styled
    case Some(p) => HandleStateChange(styled, p)
  }

  /** A preset that carries both content and rules loses its body: the body
      shown afterwards is the old body, formatted, not the preset's. */
  lemma AsWrittenLosesPresetBody()
    ensures var b := FormatText.Browser(
              h => [Dom.Text(h)], n => "", pat => true, (pat, t) => false,
              (ns: seq<Dom.Node>, acts: seq<FormatText.Action>) => if |ns| > 0 && ns[0].Text? then ns[0].content else "");
      var s := CoverState("t", "", "old", "", "", "", "", "", "", "", "", Split, CoverMode, "", "", false, false, None, None);
      var rule := TransformationRule("r", "r", "x", NoFormatting, MatchScope, false, None, true);
      var preset := AdvancedPreset("p", "p", false, true, EmptyPatch.(bodyText := Some("new")), [rule]);
      && EffectivePreviewState(ApplyAdvancedPresetAsWritten(s, preset, b)).bodyText == "old"
      && EffectivePreviewState(ApplyAdvancedPreset(s, preset, b)).bodyText == "new"
  {
  }

  /** `handleApplyAdvancedPreset` with the rules run on the state the preset
      produced: the preview shows the preset's state with its rules run on the
      body that state shows. */
  function ApplyAdvancedPreset(s: CoverState, preset: AdvancedPreset, b: FormatText.Browser): (r: CoverState)
    ensures |preset.rules| == 0 ==> r == HandleStateChange(s, preset.coverState)
    ensures var styled := HandleStateChange(s, preset.coverState);
      |preset.rules| > 0 ==>
        && EffectivePreviewState(r).bodyText
             == FormatText.ProcessHtml(EffectivePreviewState(styled).bodyText, preset.rules, b)
        && EffectivePreviewState(r).secondaryBodyText
             == FormatText.ProcessHtml(EffectivePreviewState(styled).secondaryBodyText, preset.rules, b)
  {
    var styled := HandleStateChange(s, preset.coverState);
    if |preset.rules| > 0 then
      FormatRewritesShownBody(styled, preset.rules, b);
      HandleFormatText(styled, preset.rules, b)
    else HandleFormatText(styled, preset.rules, b)
  }
}

=== FILE: root_preview.dfy ===
/** The older card preview of `CoverPreview.tsx`: the same size table and
    category tokens as the component preview, plus a selectable font family
    and a one-off category override for one themed title. */
module RootPreview {
  import opened Options
  import opened Cover
  import ComponentPreview

  const JianghuTitle := "江湖就是要打打杀杀"
  const JianghuCategory := "文稿创作"
  const JianghuOverride := "文稿、短打"

  /** `effectiveCategory`: the override replaces one exact category under one
      exact title, and leaves every other category as it is. */
  function EffectiveCategory(title: string, category: string): (r: string)
    ensures r != category <==> title == JianghuTitle && category == JianghuCategory
    ensures r != category ==> r == JianghuOverride
  {
    if title == JianghuTitle && category == JianghuCategory then JianghuOverride else category
  }

  /** The font names the editor offers. */
  const KnownFonts: set<string> := {"jianghu", "serif", "bold"}

  /** `getFontClass`: a class per known font, the sans family otherwise (an
      absent font included). */
  function FontClass(font: Option<string>): (r: string)
    ensures r in {"font-jianghu", "font-serif-sc", "font-bold-sc", "font-sans-sc"}
    ensures r == "font-sans-sc" <==> font.None? || font.value !in KnownFonts
    ensures font == Some("jianghu") ==> r == "font-jianghu"
    ensures font == Some("serif") ==> r == "font-serif-sc"
    ensures font == Some("bold") ==> r == "font-bold-sc"
  {
    match font
    case Some("jianghu") => "font-jianghu"
    case Some("serif") => "font-serif-sc"
    case Some("bold") => "font-bold-sc"
    case _ => "font-sans-sc"
  }

  /** Different known fonts get different classes. */
  lemma FontClassInjective(a: string, b: string)
    requires a in KnownFonts && b in KnownFonts && a != b
    ensures FontClass(Some(a)) != FontClass(Some(b))
  {
  }

  /** `getTitleFontClass`: the chosen family, then the size from the shared table. */
  function TitleClasses(font: Option<string>, layout: Layout, title: string): (r: seq<string>)
    ensures |r| == 2 && r[0] == FontClass(font)
    ensures r[1] == ComponentPreview.TitleClasses(layout, title)[1]
  {
    [FontClass(font), ComponentPreview.TitleSizeFor(layout, |title|).Class()]
  }

  /** With the serif font the two previews give a title exactly the same classes. */
  lemma SerifTitleAgrees(layout: Layout, title: string)
    ensures TitleClasses(Some("serif"), layout, title) == ComponentPreview.TitleClasses(layout, title)
  {
  }

  /** The category labels of this preview: the shared tokenisation, applied to
      the overridden category. */
  function DisplayCategories(title: string, category: string): (r: seq<string>)
    ensures title != JianghuTitle ==> r == ComponentPreview.DisplayCategories(category)
  {
    ComponentPreview.DisplayCategories(EffectiveCategory(title, category))
  }

  /** `getBodyClasses`: size, alignment, line height, no outline, body font. */
  function BodyClasses(size: string, align: string, bodyFont: Option<string>): (r: seq<string>)
    ensures |r| == 5 && r[..2] == [size, align] && r[4] == FontClass(bodyFont)
    ensures r[2] == "leading-[1.5]" && r[3] == "outline-none"
  {
    [size, align, "leading-[1.5]", "outline-none", FontClass(bodyFont)]
  }

  /** Height classes of the card frame. */
  function FrameHeight(mode: Mode): (r: string)
    ensures mode == CoverMode <==> r == "h-[500px]"
    ensures mode == LongText ==> r == "h-auto min-h-[600px] md:min-h-[712px]"
  {
    match mode
    case CoverMode => "h-[500px]"
    case LongText => ComponentPreview.LongTextHeight
  }

  /** The two previews agree on the long-text height and differ on the cover one. */
  lemma FrameHeightsCompared(mode: Mode)
    ensures FrameHeight(mode) == ComponentPreview.FrameHeight(mode) <==> mode == LongText
  {
  }
}

=== FILE: strings.dfy ===
/** String primitives the components rely on, stated with JavaScript's
    semantics: `trim`, `split` on a character class, `replace` of a character
    class, the regular-expression escape idiom, decimal formatting and
    `parseInt` on a digit run. A string is a `seq<char>`, one element per
    Unicode scalar value; JavaScript counts UTF-16 code units instead, and the
    two counts differ only for characters outside the Basic Multilingual Plane. */
module Strings {
  import opened Options

  /** ECMAScript WhiteSpace and LineTerminator code points: exactly the
      characters `String.prototype.trim` removes. U+00A0 is among them. */
  predicate IsWhitespace(c: char) {
    || c == '\t' || c == '\n' || c == '\U{000B}' || c == '\U{000C}' || c == '\r'
    || c == ' ' || c == '\U{00A0}' || c == '\U{1680}'
    || ('\U{2000}' <= c <= '\U{200A}')
    || c == '\U{2028}' || c == '\U{2029}' || c == '\U{202F}' || c == '\U{205F}'
    || c == '\U{3000}' || c == '\U{FEFF}'
  }

  /** Every character of `s` is whitespace (the empty string included). */
  predicate IsBlank(s: string) {
    forall k :: 0 <= k < |s| ==> IsWhitespace(s[k])
  }

  /** `trimStart`: drops leading whitespace. */
  function TrimStart(s: string): (r: string)
    ensures |r| <= |s|
  {
    if |s| > 0 && IsWhitespace(s[0]) then TrimStart(s[1..]) else s
  }

  /** What `trimStart` keeps is a suffix, what it drops is whitespace, and the
      suffix does not start with whitespace. */
  lemma {:induction false} TrimStartSpec(s: string)
    ensures var r := TrimStart(s);
      && r == s[|s| - |r|..] && IsBlank(s[..|s| - |r|]) && (r == [] || !IsWhitespace(r[0]))
    decreases |s|
  {
    if |s| > 0 && IsWhitespace(s[0]) {
      TrimStartSpec(s[1..]);
      var r := TrimStart(s);
      assert s[..|s| - |r|] == [s[0]] + s[1..][..|s| - 1 - |r|];
    }
  }

  /** `trimEnd`: drops trailing whitespace. */
  function TrimEnd(s: string): (r: string)
    ensures |r| <= |s|
  {
    if |s| > 0 && IsWhitespace(s[|s| - 1]) then TrimEnd(s[..|s| - 1]) else s
  }

  /** What `trimEnd` keeps is a prefix, what it drops is whitespace, and the
      prefix does not end with whitespace. */
  lemma {:induction false} TrimEndSpec(s: string)
    ensures var r := TrimEnd(s);
      && r == s[..|r|] && IsBlank(s[|r|..]) && (r == [] || !IsWhitespace(r[|r| - 1]))
    decreases |s|
  {
    if |s| > 0 && IsWhitespace(s[|s| - 1]) {
      TrimEndSpec(s[..|s| - 1]);
      var r := TrimEnd(s);
      assert s[|r|..] == s[..|s| - 1][|r|..] + [s[|s| - 1]];
    }
  }

  /** `String.prototype.trim`: strips whitespace from both ends. */
  function Trim(s: string): (r: string)
    ensures |r| <= |s|
  {
    TrimEnd(TrimStart(s))
  }

  /** The trimmed string is the infix of `s` that neither starts nor ends with
      whitespace and is surrounded only by whitespace. */
  lemma TrimInfix(s: string)
    ensures var r := Trim(s);
      && (exists i :: 0 <= i <= |s| - |r| && r == s[i..i + |r|] && IsBlank(s[..i]) && IsBlank(s[i + |r|..]))
      && (r == [] || (!IsWhitespace(r[0]) && !IsWhitespace(r[|r| - 1])))
  {
    var t := TrimStart(s);
    TrimStartSpec(s);
    var r := TrimEnd(t);
    TrimEndSpec(t);
    var i := |s| - |t|;
    assert r == s[i..i + |r|];
    assert s[i + |r|..] == t[|r|..];
  }

  /** `s.trim()` is falsy exactly when `s` consists of whitespace only. */
  lemma TrimEmptyIffBlank(s: string)
    ensures Trim(s) == "" <==> IsBlank(s)
  {
    var r := Trim(s);
    TrimInfix(s);
    var i :| 0 <= i <= |s| - |r| && r == s[i..i + |r|] && IsBlank(s[..i]) && IsBlank(s[i + |r|..]);
    if r == "" {
      forall k | 0 <= k < |s| ensures IsWhitespace(s[k]) {
        if k < i { assert s[k] == s[..i][k]; } else { assert s[k] == s[i..][k - i]; }
      }
    } else {
      assert s[i] == r[0];
    }
  }

  /** Trimming twice trims nothing more. */
  lemma TrimIdempotent(s: string)
    ensures Trim(Trim(s)) == Trim(s)
  {
    var r := Trim(s);
    TrimInfix(s);
    assert TrimStart(r) == r;
    assert TrimEnd(r) == r;
  }

  /** `s.replace(/ /g, ' ')`. */
  function ReplaceNbsp(s: string): (r: string)
    ensures |r| == |s|
    ensures forall k :: 0 <= k < |s| ==> r[k] == (if s[k] == '\U{00A0}' then ' ' else s[k])
  {
    if s == [] then [] else [if s[0] == '\U{00A0}' then ' ' else s[0]] + ReplaceNbsp(s[1..])
  }

  /** Trimming only removes characters. */
  lemma TrimSubset(s: string)
    ensures forall c :: c in Trim(s) ==> c in s
  {
    var r := Trim(s);
    TrimInfix(s);
    var i :| 0 <= i <= |s| - |r| && r == s[i..i + |r|] && IsBlank(s[..i]) && IsBlank(s[i + |r|..]);
    forall c | c in r ensures c in s {
      var k :| 0 <= k < |r| && r[k] == c;
      assert s[i + k] == c;
    }
  }

  /** Lower-casing of one character; only the ASCII letters are mapped. */
  function LowerChar(c: char): char {
    if 'A' <= c <= 'Z' then (c as int + 32) as char else c
  }

  /** `s.toLowerCase()`, restricted to ASCII letters. */
  function ToLower(s: string): (r: string)
    ensures |r| == |s|
    ensures forall k :: 0 <= k < |s| ==> r[k] == LowerChar(s[k])
  {
    if s == [] then [] else [LowerChar(s[0])] + ToLower(s[1..])
  }

  /** `hay.includes(needle)`. */
  predicate Contains(hay: string, needle: string) {
    exists i :: 0 <= i <= |hay| && needle <= hay[i..]
  }

  /** `s.split(re)` where `re` matches one character of `seps`: the pieces
      between consecutive separators, empty pieces included. */
  function SplitOn(s: string, seps: set<char>): (pieces: seq<string>)
    ensures |pieces| >= 1
  {
    if s == [] then [""]
    else
      var rest := SplitOn(s[1..], seps);
      if s[0] in seps then [""] + rest
      else [[s[0]] + rest[0]] + rest[1..]
  }

  /** The characters of `s` outside `drop`, in order: `s.replace(/[drop]/g, '')`. */
  function RemoveChars(s: string, drop: set<char>): (r: string)
    ensures forall c :: c in r <==> c in s && c !in drop
    ensures |r| <= |s|
    ensures |s| == 1 ==> (s[0] in drop ==> r == []) && (s[0] !in drop ==> r == s)
  {
    if s == [] then []
    else if s[0] in drop then RemoveChars(s[1..], drop)
    else [s[0]] + RemoveChars(s[1..], drop)
  }

  /** Removing characters leaves nothing exactly when every character is removed. */
  lemma RemoveCharsEmptyIff(s: string, drop: set<char>)
    ensures RemoveChars(s, drop) == [] <==> forall c :: c in s ==> c in drop
  {
    var r := RemoveChars(s, drop);
    if r != [] {
      assert r[0] in r;
    }
  }

  /** Removal works character by character and keeps the order: removing from
      a concatenation is removing from each half. */
  lemma {:induction false} RemoveCharsAppend(a: string, b: string, drop: set<char>)
    ensures RemoveChars(a + b, drop) == RemoveChars(a, drop) + RemoveChars(b, drop)
  {
    if a == [] {
      assert a + b == b;
    } else {
      assert (a + b)[0] == a[0] && (a + b)[1..] == a[1..] + b;
      RemoveCharsAppend(a[1..], b, drop);
      if a[0] !in drop {
        assert RemoveChars(a + b, drop) == [a[0]] + RemoveChars(a[1..] + b, drop);
      }
    }
  }

  /** A string with none of the characters is left as it is. */
  lemma {:induction false} RemoveCharsClean(s: string, drop: set<char>)
    requires forall c :: c in s ==> c !in drop
    ensures RemoveChars(s, drop) == s
  {
    if s != [] {
      assert s[0] in s;
      assert forall c :: c in s[1..] ==> c in s;
      RemoveCharsClean(s[1..], drop);
    }
  }

  /** Concatenation of all pieces. */
  function Concat(pieces: seq<string>): string {
    if pieces == [] then [] else pieces[0] + Concat(pieces[1..])
  }

  /** Number of characters of `s` that belong to `cs`. */
  function CountIn(s: string, cs: set<char>): nat {
    if s == [] then 0 else (if s[0] in cs then 1 else 0) + CountIn(s[1..], cs)
  }

  /** Splitting is lossless up to the separators themselves: no piece holds a
      separator, there is one piece more than there are separators, and the
      pieces laid end to end give back `s` with its separators removed. */
  lemma {:induction false} SplitOnSpec(s: string, seps: set<char>)
    ensures forall p <- SplitOn(s, seps) :: forall c <- p :: c !in seps
    ensures |SplitOn(s, seps)| == CountIn(s, seps) + 1
    ensures Concat(SplitOn(s, seps)) == RemoveChars(s, seps)
  {
    if s != [] {
      SplitOnSpec(s[1..], seps);
      var rest := SplitOn(s[1..], seps);
      if s[0] !in seps {
        var pieces := SplitOn(s, seps);
        assert pieces == [[s[0]] + rest[0]] + rest[1..];
        assert Concat(rest) == rest[0] + Concat(rest[1..]);
        assert pieces[1..] == rest[1..];
        forall i, c | 0 <= i < |pieces| && c in pieces[i] ensures c !in seps {
          if i == 0 {
            if c != s[0] { assert rest[0] in rest; }
          } else {
            assert pieces[i] == rest[i];
            assert rest[i] in rest;
          }
        }
      } else {
        assert SplitOn(s, seps)[1..] == rest;
      }
    }
  }

  /** `pieces.map(p => p.trim()).filter(Boolean)`. */
  function TrimmedTokens(pieces: seq<string>): (tokens: seq<string>)
  {
    if pieces == [] then []
    else
      var t := Trim(pieces[0]);
      (if t == "" then [] else [t]) + TrimmedTokens(pieces[1..])
  }

  /** Tokens are trimmed and non-empty, and they are exactly the non-blank
      pieces after trimming. */
  lemma {:induction false} TrimmedTokensSpec(pieces: seq<string>)
    ensures forall t <- TrimmedTokens(pieces) :: t != "" && Trim(t) == t
    ensures forall t :: t in TrimmedTokens(pieces) <==> t != "" && exists p <- pieces :: Trim(p) == t
    ensures |TrimmedTokens(pieces)| <= |pieces|
  {
    if pieces != [] {
      TrimmedTokensSpec(pieces[1..]);
      TrimIdempotent(pieces[0]);
      var tokens := TrimmedTokens(pieces);
      forall t ensures t in tokens <==> t != "" && exists p <- pieces :: Trim(p) == t {
        if t != "" && (exists p <- pieces :: Trim(p) == t) {
          var p :| p in pieces && Trim(p) == t;
          if p != pieces[0] { assert p in pieces[1..]; }
        }
        if t in TrimmedTokens(pieces[1..]) {
          var p :| p in pieces[1..] && Trim(p) == t;
          assert p in pieces;
        }
      }
    }
  }

  /** Tokens hold no character that no piece holds. */
  lemma {:induction false} TokensAvoid(pieces: seq<string>, seps: set<char>)
    requires forall p <- pieces :: forall c <- p :: c !in seps
    ensures forall t <- TrimmedTokens(pieces) :: forall c <- t :: c !in seps
  {
    if pieces != [] {
      forall p | p in pieces[1..] ensures p in pieces {
        var k :| 0 <= k < |pieces[1..]| && pieces[1..][k] == p;
        assert pieces[k + 1] == p;
      }
      TokensAvoid(pieces[1..], seps);
      TrimSubset(pieces[0]);
      assert pieces[0] in pieces;
    }
  }

  /** A string without separators is a single piece. */
  lemma {:induction false} SplitOnClean(a: string, seps: set<char>)
    requires forall c <- a :: c !in seps
    ensures SplitOn(a, seps) == [a]
  {
    if a != [] {
      assert a[0] in a;
      assert forall c <- a[1..] :: c in a;
      SplitOnClean(a[1..], seps);
      assert [a[0]] + a[1..] == a;
    }
  }

  /** A separator cuts the string in two, and each side splits on its own:
      the pieces come in the order they are written, empty ones included. */
  lemma {:induction false} SplitOnAt(a: string, c: char, b: string, seps: set<char>)
    requires c in seps
    ensures SplitOn(a + [c] + b, seps) == SplitOn(a, seps) + SplitOn(b, seps)
  {
    var s := a + [c] + b;
    var right := SplitOn(b, seps);
    if a == [] {
      assert s == [c] + b;
      assert s[0] == c && s[1..] == b;
      assert SplitOn(a, seps) == [""];
    } else {
      assert s[0] == a[0] && s[1..] == a[1..] + [c] + b;
      SplitOnAt(a[1..], c, b, seps);
      var left := SplitOn(a[1..], seps);
      var rest := SplitOn(s[1..], seps);
      assert rest == left + right;
      if a[0] !in seps {
        assert rest[0] == left[0];
        assert rest[1..] == left[1..] + right;
      }
    }
  }

  /** One piece gives its trimmed form as a token, unless that is blank. */
  lemma TrimmedTokensSingleton(p: string)
    ensures TrimmedTokens([p]) == (if Trim(p) == "" then [] else [Trim(p)])
  {
    assert [p][1..] == [];
  }

  /** Tokenising distributes over concatenation: tokens keep the order of
      their pieces, repeats included. */
  lemma {:induction false} TrimmedTokensAppend(a: seq<string>, b: seq<string>)
    ensures TrimmedTokens(a + b) == TrimmedTokens(a) + TrimmedTokens(b)
  {
    if a == [] {
      assert a + b == b;
    } else {
      assert (a + b)[0] == a[0] && (a + b)[1..] == a[1..] + b;
      TrimmedTokensAppend(a[1..], b);
    }
  }

  /** Characters that `s.replace(/[.*+?^${}()|[\]\\]/g, '\\$&')` escapes. */
  const RegexSpecials: set<char> :=
    {'.', '*', '+', '?', '^', '$', '{', '}', '(', ')', '|', '[', ']', '\\'}

  /** The strict reading of a pattern as a literal: an escaped metacharacter
      stands for itself, any other character stands for itself. A bare
      metacharacter or a backslash before anything else makes the pattern more
      than a literal, and there is no reading. */
  function LiteralOf(p: string): (r: Option<string>)
    ensures r.Some? ==> |r.value| <= |p|
    decreases |p|
  {
    if p == [] then Some([])
    else if p[0] == '\\' then
      if |p| >= 2 && p[1] in RegexSpecials then
        match LiteralOf(p[2..])
        case Some(t) => Some([p[1]] + t)
        case None => None
      else None
    else if p[0] in RegexSpecials then None
    else
      match LiteralOf(p[1..])
      case Some(t) => Some([p[0]] + t)
      case None => None
  }

  /** The escape idiom: a backslash before every regular-expression
      metacharacter and nowhere else, so the pattern reads strictly as the
      literal it came from. */
  function RegexEscape(s: string): (r: string)
    ensures |r| == |s| + CountIn(s, RegexSpecials)
    ensures LiteralOf(r) == Some(s)
  {
    if s == [] then []
    else
      var rest := RegexEscape(s[1..]);
      if s[0] in RegexSpecials then
        var r := ['\\', s[0]] + rest;
        assert r[0] == '\\' && |r| >= 2 && r[1] in RegexSpecials && r[2..] == rest;
        assert LiteralOf(r[2..]) == Some(s[1..]);
        assert LiteralOf(r) == Some([s[0]] + s[1..]);
        assert s == [s[0]] + s[1..];
        r
      else
        var r := [s[0]] + rest;
        assert r[0] == s[0] && r[0] != '\\' && r[1..] == rest;
        assert LiteralOf(r) == Some([s[0]] + s[1..]);
        assert s == [s[0]] + s[1..];
        r
  }

  /** The escaped text is the only pattern that reads as the literal: a
      pattern reads strictly as `s` exactly when it is the escape of `s`. */
  lemma {:induction false} EscapeRoundTrip(p: string, s: string)
    ensures LiteralOf(p) == Some(s) <==> p == RegexEscape(s)
    decreases |p|
  {
    if LiteralOf(p) == Some(s) && p != [] {
      if p[0] == '\\' {
        var t := LiteralOf(p[2..]).value;
        EscapeRoundTrip(p[2..], t);
        assert s == [p[1]] + t && s[1..] == t;
        assert p == ['\\', p[1]] + p[2..];
      } else {
        var t := LiteralOf(p[1..]).value;
        EscapeRoundTrip(p[1..], t);
        assert s == [p[0]] + t && s[1..] == t;
        assert p == [p[0]] + p[1..];
      }
    }
  }

  /** Distinct texts escape to distinct patterns. */
  lemma EscapeInjective(a: string, b: string)
    requires RegexEscape(a) == RegexEscape(b)
    ensures a == b
  {
  }

  predicate IsDigit(c: char) {
    '0' <= c <= '9'
  }

  predicate AllDigits(s: string) {
    forall k :: 0 <= k < |s| ==> IsDigit(s[k])
  }

  /** The value of a run of decimal digits: `parseInt(ds, 10)`. */
  function DigitsValue(ds: string): nat
    requires AllDigits(ds)
  {
    if ds == [] then 0 else DigitsValue(ds[..|ds| - 1]) * 10 + (ds[|ds| - 1] as int - '0' as int)
  }

  /** Decimal rendering of a natural number, as in a template literal `${n}`:
      digits with no leading zero, `0` itself written as one digit. */
  function NatToString(n: nat): (s: string)
    ensures |s| >= 1 && AllDigits(s)
    ensures DigitsValue(s) == n
    ensures s[0] == '0' <==> n == 0
    ensures n == 0 ==> s == "0"
  {
    var d := ['0' + (n % 10) as char];
    if n < 10 then d
    else
      var p := NatToString(n / 10);
      assert (p + d)[..|p + d| - 1] == p;
      p + d
  }

  /** `parts.join(sep)`. */
  function Join(parts: seq<string>, sep: string): string {
    if parts == [] then ""
    else if |parts| == 1 then parts[0]
    else parts[0] + sep + Join(parts[1..], sep)
  }

  /** The non-empty parts, in order: `parts.filter(Boolean)`. */
  function NonEmptyParts(parts: seq<string>): (r: seq<string>)
    ensures forall k :: 0 <= k < |r| ==> r[k] != ""
  {
    if parts == [] then []
    else (if parts[0] == "" then [] else [parts[0]]) + NonEmptyParts(parts[1..])
  }

  /** Joining three parts puts the separator between them. */
  lemma JoinThree(a: string, b: string, c: string, sep: string)
    ensures Join([a, b, c], sep) == a + sep + b + sep + c
  {
    assert [a, b, c][1..] == [b, c] && [b, c][1..] == [c];
    assert Join([b, c], sep) == b + sep + c;
  }

  /** Three parts keep their order when the empty ones are dropped. */
  lemma NonEmptyOfThree(a: string, b: string, c: string)
    ensures NonEmptyParts([a, b, c]) ==
      (if a == "" then [] else [a]) + (if b == "" then [] else [b]) + (if c == "" then [] else [c])
  {
    assert [a, b, c][1..] == [b, c] && [b, c][1..] == [c] && [c][1..] == [];
    assert NonEmptyParts([c]) == (if c == "" then [] else [c]) + NonEmptyParts([]);
    assert NonEmptyParts([b, c]) == (if b == "" then [] else [b]) + NonEmptyParts([c]);
    assert NonEmptyParts([a, b, c]) == (if a == "" then [] else [a]) + NonEmptyParts([b, c]);
  }

  /** The parts that are non-empty, joined by `sep`: `parts.filter(Boolean).join(sep)`,
      computed in one pass. */
  function JoinNonEmpty(parts: seq<string>, sep: string): string
  {
    if parts == [] then ""
    else
      var rest := JoinNonEmpty(parts[1..], sep);
      if parts[0] == "" then rest
      else if rest == "" then parts[0]
      else parts[0] + sep + rest
  }

  /** The one-pass join is the join of the non-empty parts. */
  lemma {:induction false} JoinNonEmptyFilters(parts: seq<string>, sep: string)
    ensures JoinNonEmpty(parts, sep) == Join(NonEmptyParts(parts), sep)
  {
    if parts != [] {
      JoinNonEmptyFilters(parts[1..], sep);
      var ys := NonEmptyParts(parts[1..]);
      if parts[0] == "" {
        assert NonEmptyParts(parts) == ys;
      } else {
        assert NonEmptyParts(parts) == [parts[0]] + ys;
        if ys == [] {
          assert Join([parts[0]], sep) == parts[0];
        } else {
          assert ([parts[0]] + ys)[1..] == ys;
          assert ys[0] <= Join(ys, sep);
          assert Join(ys, sep) != "";
        }
      }
    }
  }

  /** The join is empty exactly when every part is; otherwise it begins with
      the first non-empty part. */
  lemma {:induction false} JoinNonEmptySpec(parts: seq<string>, sep: string)
    ensures JoinNonEmpty(parts, sep) == "" <==> forall k :: 0 <= k < |parts| ==> parts[k] == ""
    ensures forall k :: 0 <= k < |parts| && parts[k] != "" && (forall j :: 0 <= j < k ==> parts[j] == "")
              ==> parts[k] <= JoinNonEmpty(parts, sep)
  {
    if parts != [] {
      JoinNonEmptySpec(parts[1..], sep);
      var rest := JoinNonEmpty(parts[1..], sep);
      if parts[0] == "" {
        forall k | 0 <= k < |parts| && parts[k] != "" && (forall j :: 0 <= j < k ==> parts[j] == "")
          ensures parts[k] <= JoinNonEmpty(parts, sep)
        {
          assert k > 0;
          assert parts[1..][k - 1] == parts[k];
          assert forall j :: 0 <= j < k - 1 ==> parts[1..][j] == parts[j + 1];
        }
        assert (forall k :: 0 <= k < |parts| ==> parts[k] == "") <==>
               (forall k :: 0 <= k < |parts[1..]| ==> parts[1..][k] == "");
      } else {
        assert parts[0] <= JoinNonEmpty(parts, sep);
      }
    }
  }
}

=== FILE: toolbar.dfy ===
/** The rich-text toolbar of `components/RichTextToolbar.tsx`: reading and
    writing the body size class, the size buttons, where the palettes pop up,
    which palette is open, and which alignment button lights up.

    Geometry is in CSS pixels, modelled as reals; the browser's measurements
    (the button's box, the window's size, the computed alignment and the
    editing command states) are parameters. */
module Toolbar {
  import opened Options
  import opened Strings

  // ---------------------------------------------------------------------------
  // The body size class

  const SizePrefix := "text-["
  const SizeSuffix := "px]"

  /** The size shown when the class names no size. */
  const DefaultSize: nat := 13

  /** The leading decimal digits of `s`. */
  function DigitRun(s: string): (d: string)
    ensures d <= s && AllDigits(d)
    ensures |d| < |s| ==> !IsDigit(s[|d|])
  {
    if s != [] && IsDigit(s[0]) then [s[0]] + DigitRun(s[1..]) else []
  }

  /** A digit run followed by a non-digit is read whole. */
  lemma {:induction false} DigitRunOf(d: string, rest: string)
    requires AllDigits(d)
    requires rest == [] || !IsDigit(rest[0])
    ensures DigitRun(d + rest) == d
  {
    if d != [] {
      assert (d + rest)[1..] == d[1..] + rest;
      DigitRunOf(d[1..], rest);
    } else {
      assert d + rest == rest;
    }
  }

  /** The pattern `text-\[(\d+)px\]` matches at `i` with `k` digits. */
  predicate MatchesWith(s: string, i: nat, k: nat) {
    && i + |SizePrefix| + k + |SizeSuffix| <= |s|
    && s[i..i + |SizePrefix|] == SizePrefix
    && k >= 1 && AllDigits(s[i + |SizePrefix|..i + |SizePrefix| + k])
    && s[i + |SizePrefix| + k..i + |SizePrefix| + k + |SizeSuffix|] == SizeSuffix
  }

  /** The size read by a match at `i`, if the pattern matches there. The
      digit group is greedy and must be followed by `p`, so it is the whole
      digit run. */
  function SizeAt(s: string, i: nat): (r: Option<nat>)
    requires i <= |s|
  {
    var t := s[i..];
    if SizePrefix <= t then
      var d := DigitRun(t[|SizePrefix|..]);
      if |d| > 0 && SizeSuffix <= t[|SizePrefix| + |d|..] then Some(DigitsValue(d)) else None
    else None
  }

  /** `SizeAt` is the pattern: it reads a size exactly when some digit count
      makes the pattern match, and then the size is the value of those digits. */
  lemma SizeAtIsMatch(s: string, i: nat)
    requires i <= |s|
    ensures SizeAt(s, i).Some? <==> exists k: nat :: MatchesWith(s, i, k)
    ensures forall k: nat :: MatchesWith(s, i, k) ==>
      SizeAt(s, i) == Some(DigitsValue(s[i + |SizePrefix|..i + |SizePrefix| + k]))
  {
    var t := s[i..];
    forall k: nat | MatchesWith(s, i, k)
      ensures SizeAt(s, i) == Some(DigitsValue(s[i + |SizePrefix|..i + |SizePrefix| + k]))
    {
      var ds := s[i + |SizePrefix|..i + |SizePrefix| + k];
      var after := s[i + |SizePrefix| + k..];
      assert t[|SizePrefix|..] == ds + after;
      assert s[i + |SizePrefix| + k..i + |SizePrefix| + k + |SizeSuffix|][0] == 'p';
      assert after[0] == 'p';
      DigitRunOf(ds, after);
      assert t[..|SizePrefix|] == SizePrefix;
      assert t[|SizePrefix| + k..] == after;
      assert after[..|SizeSuffix|] == SizeSuffix;
    }
    if SizeAt(s, i).Some? {
      var d := DigitRun(t[|SizePrefix|..]);
      var k := |d|;
      assert s[i + |SizePrefix|..i + |SizePrefix| + k] == d;
      assert MatchesWith(s, i, k);
    }
  }

  /** The first match at `i` or later. */
  function FirstSize(s: string, i: nat): Option<nat>
    requires i <= |s|
    decreases |s| - i
  {
    if SizeAt(s, i).Some? then SizeAt(s, i)
    else if i == |s| then None
    else FirstSize(s, i + 1)
  }

  /** The scan finds nothing exactly when nothing matches, and otherwise finds
      the leftmost match. */
  lemma {:induction false} FirstSizeSpec(s: string, i: nat)
    requires i <= |s|
    ensures FirstSize(s, i).None? <==> forall j :: i <= j <= |s| ==> SizeAt(s, j).None?
    ensures FirstSize(s, i).Some? ==>
      exists j :: (i <= j <= |s| && SizeAt(s, j) == FirstSize(s, i) && forall k :: i <= k < j ==> SizeAt(s, k).None?)
    decreases |s| - i
  {
    if SizeAt(s, i).None? && i < |s| {
      FirstSizeSpec(s, i + 1);
      var r := FirstSize(s, i + 1);
      if r.Some? {
        var j :| i + 1 <= j <= |s| && SizeAt(s, j) == r && forall k :: i + 1 <= k < j ==> SizeAt(s, k).None?;
        assert forall k :: i <= k < j ==> SizeAt(s, k).None?;
      }
    }
  }

  /** `currentSizeVal`: the size of the leftmost `text-[Npx]` in the class,
      otherwise the default. */
  function CurrentSize(cls: string): (r: nat)
    ensures (forall j :: 0 <= j <= |cls| ==> SizeAt(cls, j).None?) ==> r == DefaultSize
    ensures (exists j :: 0 <= j <= |cls| && SizeAt(cls, j).Some?) ==>
      exists j :: 0 <= j <= |cls| && SizeAt(cls, j) == Some(r) && forall k :: 0 <= k < j ==> SizeAt(cls, k).None?
  {
    FirstSizeSpec(cls, 0);
    match FirstSize(cls, 0)
    case Some(v) => v
    case None => DefaultSize
  }

  /** `handleSizeChange`: the class for a size, its decimal digits between
      the fixed prefix and suffix. */
  function SizeClass(n: nat): (r: string)
    ensures |r| > |SizePrefix| + |SizeSuffix|
    ensures r[..|SizePrefix|] == SizePrefix && r[|r| - |SizeSuffix|..] == SizeSuffix
    ensures var ds := r[|SizePrefix|..|r| - |SizeSuffix|];
      AllDigits(ds) && DigitsValue(ds) == n && (ds[0] == '0' <==> n == 0)
  {
    var ds := NatToString(n);
    var r := SizePrefix + ds + SizeSuffix;
    assert r[|SizePrefix|..|r| - |SizeSuffix|] == ds;
    r
  }

  /** Writing a size and reading it back gives the same size. */
  lemma SizeRoundTrip(n: nat)
    ensures CurrentSize(SizeClass(n)) == n
  {
    var s := SizeClass(n);
    var d := NatToString(n);
    assert s[0..][|SizePrefix|..] == d + SizeSuffix;
    DigitRunOf(d, SizeSuffix);
    assert s[0..][|SizePrefix| + |d|..] == SizeSuffix;
    assert SizeAt(s, 0) == Some(n);
  }

  const MinSize: int := 10
  const MaxSize: int := 40

  /** The minus button: one smaller, but not below 10. */
  function SizeDown(v: int): (r: int)
    ensures r >= MinSize
    ensures v > MinSize ==> r == v - 1
    ensures v <= MinSize ==> r == MinSize
  {
    if v - 1 > MinSize then v - 1 else MinSize
  }

  /** The plus button: one larger, but not above 40. */
  function SizeUp(v: int): (r: int)
    ensures r <= MaxSize
    ensures v < MaxSize ==> r == v + 1
    ensures v >= MaxSize ==> r == MaxSize
  {
    if v + 1 < MaxSize then v + 1 else MaxSize
  }

  /** Inside the slider's range the two buttons undo each other, and neither
      leaves the range. */
  lemma SizeButtonsInverse(v: int)
    requires MinSize <= v <= MaxSize
    ensures MinSize <= SizeDown(v) <= MaxSize && MinSize <= SizeUp(v) <= MaxSize
    ensures v > MinSize ==> SizeUp(SizeDown(v)) == v
    ensures v < MaxSize ==> SizeDown(SizeUp(v)) == v
  {
  }

  /** Pressing minus on the body's class writes a class that reads back as
      one less than before, but not below 10. */
  lemma MinusOnClass(cls: string)
    ensures CurrentSize(SizeClass(SizeDown(CurrentSize(cls)))) == SizeDown(CurrentSize(cls))
    ensures CurrentSize(SizeClass(SizeDown(CurrentSize(cls)))) >= MinSize
  {
    SizeRoundTrip(SizeDown(CurrentSize(cls)));
  }

  // ---------------------------------------------------------------------------
  // Palette position

  const PaletteWidth: real := 280.0
  const Padding: real := 10.0

  /** The on-screen box of the button that opens a palette. */
  datatype Rect = Rect(left: real, top: real, width: real)

  /** Where a palette is anchored: its centre line, and its distance from the
      bottom of the window. */
  datatype Position = Position(left: real, bottom: real)

  function MinLeft(): real { PaletteWidth / 2.0 + Padding }
  function MaxLeft(screenW: real): real { screenW - PaletteWidth / 2.0 - Padding }

  /** `calculatePalettePosition`: centred over the button, 10 pixels above it,
      kept at least half a palette and a padding away from each side; when the
      window is too narrow for that, the right side wins. */
  function PalettePosition(button: Rect, screenW: real, screenH: real): (p: Position)
    ensures p.bottom == screenH - button.top + 10.0
    ensures p.left <= screenW - 150.0
    ensures screenW >= 300.0 ==> 150.0 <= p.left
    ensures screenW < 300.0 ==> p.left == screenW - 150.0
    ensures var centre := button.left + button.width / 2.0;
      150.0 <= centre <= screenW - 150.0 ==> p.left == centre
  {
    var bottom := screenH - button.top + 10.0;
    var left := button.left + button.width / 2.0;
    var left1 := if left < MinLeft() then MinLeft() else left;
    var left2 := if left1 > MaxLeft(screenW) then MaxLeft(screenW) else left1;
    Position(left2, bottom)
  }

  /** Clamping a value into `[lo, hi]`. */
  function Clamp(x: real, lo: real, hi: real): real
    requires lo <= hi
  {
    if x < lo then lo else if x > hi then hi else x
  }

  /** On a window wide enough the position is the button's centre clamped into
      the allowed band, and a palette already there does not move. */
  lemma PalettePositionClamps(button: Rect, screenW: real, screenH: real)
    requires screenW >= 300.0
    ensures PalettePosition(button, screenW, screenH).left
            == Clamp(button.left + button.width / 2.0, 150.0, screenW - 150.0)
    ensures var l := PalettePosition(button, screenW, screenH).left;
      PalettePosition(Rect(l, button.top, 0.0), screenW, screenH) == PalettePosition(button, screenW, screenH)
  {
  }

  // ---------------------------------------------------------------------------
  // Which palette is open

  datatype Palettes = Palettes(colorOpen: bool, sizeOpen: bool)

  /** What can happen to the palettes: either toolbar button pressed, a
      colour picked, a size picked (by the buttons or the slider), the toolbar
      hidden, or a press somewhere (inside the toolbar or a palette or not). */
  datatype Event =
    | ToggleColor
    | ToggleSize
    | ColorPicked
    | SizePicked
    | Hidden
    | Press(inToolbar: bool, inPalette: bool)

  /** One event. */
  function Step(p: Palettes, e: Event): (r: Palettes)
    ensures e == ToggleColor ==> r.colorOpen == !p.colorOpen && (r.colorOpen ==> !r.sizeOpen)
    ensures e == ToggleSize ==> r.sizeOpen == !p.sizeOpen && (r.sizeOpen ==> !r.colorOpen)
    ensures e == ColorPicked ==> !r.colorOpen && r.sizeOpen == p.sizeOpen
    ensures e == SizePicked ==> r == p
    ensures e == Hidden ==> !r.colorOpen && !r.sizeOpen
    ensures e.Press? && !e.inToolbar && !e.inPalette ==> !r.colorOpen && !r.sizeOpen
    ensures e.Press? && (e.inToolbar || e.inPalette) ==> r == p
  {
    match e
    case ToggleColor => if p.colorOpen then p.(colorOpen := false) else Palettes(true, false)
    case ToggleSize => if p.sizeOpen then p.(sizeOpen := false) else Palettes(false, true)
    case ColorPicked => p.(colorOpen := false)
    case SizePicked => p
    case Hidden => Palettes(false, false)
    case Press(inToolbar, inPalette) => if inToolbar || inPalette then p else Palettes(false, false)
  }

  predicate NeverBoth(p: Palettes) {
    !(p.colorOpen && p.sizeOpen)
  }

  /** A run of events. */
  function Run(p: Palettes, es: seq<Event>): Palettes
    decreases |es|
  {
    if es == [] then p else Run(Step(p, es[0]), es[1..])
  }

  /** Starting with at most one palette open, no sequence of events ever opens
      both. */
  lemma {:induction false} RunNeverBoth(p: Palettes, es: seq<Event>)
    requires NeverBoth(p)
    ensures NeverBoth(Run(p, es))
    decreases |es|
  {
    if es != [] {
      RunNeverBoth(Step(p, es[0]), es[1..]);
    }
  }

  /** Pressing a palette's button twice leaves that palette as it was and the
      other one closed. */
  lemma ToggleTwice(p: Palettes)
    requires NeverBoth(p)
    ensures Run(p, [ToggleColor, ToggleColor]) == p.(sizeOpen := false)
    ensures Run(p, [ToggleSize, ToggleSize]) == p.(colorOpen := false)
  {
    assert [ToggleColor, ToggleColor][1..] == [ToggleColor];
    assert [ToggleSize, ToggleSize][1..] == [ToggleSize];
  }

  // ---------------------------------------------------------------------------
  // Alignment buttons

  /** The editing command states of the selection. */
  datatype Commands = Commands(justifyLeft: bool, justifyCenter: bool, justifyRight: bool, justifyFull: bool)

  datatype AlignButtons = AlignButtons(left: bool, center: bool, right: bool, justify: bool)

  /** Which alignment buttons light up: the computed alignment of the block
      holding the selection (empty when there is none), or the command state. */
  function DetectAlign(computed: string, q: Commands): (r: AlignButtons)
    ensures q.justifyLeft ==> r.left
    ensures q.justifyCenter ==> r.center
    ensures q.justifyRight ==> r.right
    ensures q.justifyFull ==> r.justify
    ensures !q.justifyLeft ==> (r.left <==> computed in {"left", "start"})
    ensures !q.justifyCenter ==> (r.center <==> computed == "center")
    ensures !q.justifyRight ==> (r.right <==> computed in {"right", "end"})
    ensures !q.justifyFull ==> (r.justify <==> computed == "justify")
  {
    AlignButtons(
      computed == "left" || computed == "start" || q.justifyLeft,
      computed == "center" || q.justifyCenter,
      computed == "right" || computed == "end" || q.justifyRight,
      computed == "justify" || q.justifyFull)
  }

  const NoCommands := Commands(false, false, false, false)

  /** With no command state set, the computed alignment alone decides: `left`
      and `start` light left, `center` center, `right` and `end` right and
      `justify` justify; at most one button lights up, one does exactly for
      the six alignment keywords, and a command state only adds its own
      button to what the computed alignment lights. */
  lemma DetectAlignByComputed(computed: string)
    ensures var r := DetectAlign(computed, NoCommands);
      (r.left || r.center || r.right || r.justify)
      <==> computed in {"left", "start", "center", "right", "end", "justify"}
    ensures var r := DetectAlign(computed, NoCommands);
      !(r.left && r.center) && !(r.left && r.right) && !(r.left && r.justify)
      && !(r.center && r.right) && !(r.center && r.justify) && !(r.right && r.justify)
    ensures forall q :: DetectAlign("start", q) == DetectAlign("left", q) && DetectAlign("end", q) == DetectAlign("right", q)
    ensures DetectAlign(computed, NoCommands).left <==> computed in {"left", "start"}
    ensures DetectAlign(computed, NoCommands).center <==> computed == "center"
    ensures DetectAlign(computed, NoCommands).right <==> computed in {"right", "end"}
    ensures DetectAlign(computed, NoCommands).justify <==> computed == "justify"
    ensures forall q :: var r := DetectAlign(computed, NoCommands);
      DetectAlign(computed, q) == AlignButtons(r.left || q.justifyLeft, r.center || q.justifyCenter,
                                               r.right || q.justifyRight, r.justify || q.justifyFull)
  {
  }
}
